=== FILE: README.md ===
# OVH server sniper: a Dafny model of the core

The system buys OVH dedicated servers as soon as they come into stock. The
Flask backend keeps a purchase queue, and a worker thread retries each
running item until an order is placed. It also runs three watchers:

- a server availability monitor with Telegram alerts;
- a VPS availability monitor;
- a "config sniper", which binds a memory/storage configuration and queues
  purchases on any catalogue plan that offers it.

An API-key guard protects every `/api/` route. The React front end shows
the queue, the server catalogue (cached in the browser for two hours), the
availability listing, the logs, the dashboard and the monitor page.

This project models that core as pure functions over immutable data. The
clock, the OVH and Telegram answers and request outcomes are parameters.
The modules follow the program's files:

| module | models |
|---|---|
| `Text` | string helpers shared by all modules: Python/JS lower-casing and trimming, `str(int)`, `split`, list filtering, subsequences |
| `LogBuffer` | `add_log`: the 1000-entry log buffer and its batched file writes |
| `PurchaseQueue` | the queue routes and the `process_queue` worker |
| `Purchase` | `check_server_availability` and `purchase_server` |
| `Stats` | `update_stats` |
| `Standardize` | `standardize_config`: hand-written matchers for its twenty-three removal patterns |
| `ConfigSniper` | catalogue matching, sniper tasks, the monitor loop's handlers |
| `ServerMonitor` | the `ServerMonitor` class |
| `VpsMonitor` | `vps_monitor_loop` and the VPS routes |
| `ApiAuth` | `require_api_key` and `verify_api_key`, with Python's `int()` |
| `Constants` | the front-end constants and their three helpers |
| `QueuePage`, `ServersPage`, `AvailabilityPage`, `LogsPage`, `Dashboard`, `MonitorPage` | the pages' state updates, filters and sorts |
| `BrowserCache`, `CacheManager` | the browser cache of the server list and its display |

Where behaviour depends on state the source mutates in place, the model
returns the new state. Examples are a subscription's `lastStatus` and
history, or the queue and the deleted-id set. A Python dict whose insertion
order matters is a sequence of pairs (`StatusMap`, `DcRow`).

Some functions are plain code with no contract. For those, the lemma or
method named in the table states the property.

## Model

| member | source | states |
|---|---|---|
| LogBuffer.AddLog | backend/app.py:291-317 | the entry is appended and the buffer keeps the newest 1000 entries; the pending-write counter resets exactly when a write was due (10 pending or an ERROR) and succeeded, otherwise it grows by one |
| LogBuffer.AddLogBelowCap | backend/app.py:300-304 | below the cap nothing is dropped |
| LogBuffer.AddLogDropsOldest | backend/app.py:300-304 | at the cap exactly the oldest entry is dropped |
| LogBuffer.AddLogsKeepsNewest | backend/app.py:300-304 | after any run of additions the buffer is the newest 1000 of all entries ever added, in order |
| LogBuffer.UnwrittenStaysBelowThreshold | backend/app.py:306-314 | when writes succeed, fewer than 10 entries are ever unwritten |
| LogBuffer.ErrorAlwaysWritten | backend/app.py:308-314 | an ERROR entry is flushed at once |
| PurchaseQueue.ParseStatus | backend/app.py:2022 | a stored status string reads back as itself; it is `Other` exactly when it is none of the five known names |
| PurchaseQueue.ParseStatusName | backend/app.py:1955 | the five known statuses round-trip through their names |
| PurchaseQueue.AddQueueItem | backend/app.py:1946-1968 | one item is appended and the rest are untouched; it is running, never tried, with the request's fields or their defaults (retry interval 30) |
| PurchaseQueue.RemoveQueueItem | backend/app.py:1970-1985 | an unknown id changes nothing; a known id is marked deleted and every item with it leaves the queue, and every other item stays |
| PurchaseQueue.RemoveQueueItemKeepsOrder | backend/app.py:1980 | the remaining items keep their order |
| PurchaseQueue.ClearAllQueue | backend/app.py:1987-2014 | the count is the old length, the queue is empty, every id already marked deleted stays marked and every listed id is now marked; no other id is |
| PurchaseQueue.ClearedItemNeverAttempted | backend/app.py:1992-1994 | after the queue is cleared, no item it held is tried, whatever snapshot the worker holds |
| PurchaseQueue.FindItem | backend/app.py:2019 | the first item with the id, or none exactly when no item has it |
| PurchaseQueue.UpdateQueueStatus | backend/app.py:2016-2029 | only the first item with the id changes; its status is the requested one or "pending" |
| PurchaseQueue.StepItem | backend/app.py:742-794 | an item is tried exactly when it is running, not deleted, still queued and due (first try or its interval elapsed); a tried item is stamped and counted, and completes exactly when the purchase succeeds; an item gone from the queue is added to the deleted set |
| PurchaseQueue.StepLeavesIdleUntouched | backend/app.py:744-756 | deleted or non-running items are left as they are |
| PurchaseQueue.NoSecondAttemptAtSameInstant | backend/app.py:761 | a second step at the same instant does not try again |
| PurchaseQueue.NewItemIsDue | backend/app.py:1960 | a freshly added item is due on the next pass |
| PurchaseQueue.RemovedItemNeverAttempted | backend/app.py:744-746 | after removal the item is never tried, whatever snapshot the worker holds |
| PurchaseQueue.ProcessPass | backend/app.py:741-794 | a pass keeps the queue's length and deleted set; each item becomes its step result; the number of attempts is the number of due items |
| Stats.UpdateStats | backend/app.py:338-360 | the counters are the number of active items, of plans, of plans with an in-stock datacenter (at most all plans), and of success and failed history records |
| Purchase.FoundInItem | backend/app.py:445-451 | the scan of one plan entry finds the datacenter exactly when some entry names it and is neither "unavailable" nor "unknown" |
| Purchase.FoundAvailableIff | backend/app.py:444-454 | the nested scan with early exits finds the datacenter exactly when some entry of some plan offers it in stock |
| Purchase.NormaliseAvailability | backend/app.py:411-421 | the value is never empty; it is "unknown" exactly for a missing, empty or "unknown" availability; otherwise it is the raw value |
| Purchase.InStockAgreesWithNormalise | backend/app.py:411-421 | for a present non-empty value both code paths agree on what counts as in stock; a missing value is "unknown" in the listing but counts as in stock in the purchase scan |
| Purchase.AvailabilityMap | backend/app.py:405-421 | the keys are exactly the datacenters that occur |
| Purchase.AvailabilityMapLastWins | backend/app.py:410-421 | each datacenter maps to the normalised value of its last entry |
| Purchase.InferRegion | backend/app.py:482-492 | Europe exactly for a European prefix; no region exactly when no prefix list matches |
| Purchase.InferRegionByGroup | backend/app.py:484-492 | each region is chosen exactly when the code starts with one of its prefixes, so the order of the tests does not matter |
| Purchase.CartConfiguration | backend/app.py:494-499 | datacenter and OS are always set, and the region exactly when one was inferred |
| Purchase.FilterHardwareOptions | backend/app.py:517-532 | the kept options are non-empty strings naming no software or licence, and every such requested option is kept |
| Purchase.FilterHardwareOptionsSubseq | backend/app.py:521-532 | the kept options keep their requested order |
| Purchase.FindHistory | backend/app.py:594 | the first history record of the task, or none exactly when there is none |
| Purchase.Outcome | backend/app.py:597-618 | a record becomes "success" with no error after an order and "failed" with the error otherwise, with the item's try count and options |
| Purchase.RecordAttempt | backend/app.py:594-620 | the task's first record is updated in place or a new one appended; no other record changes and the task then has a record with the outcome |
| Purchase.RecordAttemptKeepsTasksUnique | backend/app.py:594-620 | recording an attempt never creates a second record for a task |
| Purchase.PurchaseServer | backend/app.py:431-731 | the purchase succeeds exactly when there is a client, the listing was fetched and offers the datacenter, and the order went through; without a client or stock the history is untouched; a failed fetch or order records a failure |
| Standardize.MatchAt | backend/app.py:2406-2440 | a match of a removal pattern is non-empty and ends inside the string |
| Standardize.SubSubseq | backend/app.py:2430 | what one removal pass keeps is a subsequence of its input |
| Standardize.SubNoMatch | backend/app.py:2430 | a pattern that matches nowhere leaves the string unchanged |
| Standardize.PassesSubseq | backend/app.py:2429-2440 | the passes in sequence only delete characters |
| Standardize.StandardizeConfigShape | backend/app.py:2398-2442 | the empty string stays empty; any other result is a subsequence of the lower-cased, stripped input and holds no upper-case letter |
| ConfigSniper.FamilyAddons | backend/app.py:2476-2478 | the add-ons of exactly the families whose lower-cased name is the wanted one |
| ConfigSniper.Candidates | backend/app.py:2480-2491 | the candidates are exactly the add-ons of the wanted families whose standard form is the target's |
| ConfigSniper.PlanMatchesIff | backend/app.py:2468-2518 | a plan matches exactly when the fingerprint is fixed by a second standardization and the plan offers memory and storage add-ons with those forms |
| ConfigSniper.CollectMatches | backend/app.py:2464-2518 | the matched plan codes, each once, are exactly those of matching plans |
| ConfigSniper.FindMatchingPlans | backend/app.py:2444-2525 | no client or catalogue gives no plans; otherwise exactly the matching plan codes, without duplicates |
| ConfigSniper.CreateTask | backend/app.py:2926-2992 | a task is created exactly when the plan code and a non-empty bound configuration with memory and storage are given; pending mode records the current matches as known codes, and matched mode records them as matched, falling back to pending when there are none |
| ConfigSniper.FindTask | backend/app.py:2997 | the first task with the id, or none exactly when there is none |
| ConfigSniper.ToggleTask | backend/app.py:3010-3027 | an unknown id fails; otherwise only the first task with the id changes, and only its enabled flag, which flips |
| ConfigSniper.ToggleTwice | backend/app.py:3017 | toggling twice restores the task list |
| ConfigSniper.DeleteTask | backend/app.py:2995-3007 | an unknown id fails; otherwise exactly the first task with the id is removed |
| ConfigSniper.FirstWithStandard | backend/app.py:2724-2737 | at most one add-on is picked: the first with the wanted standard form, or none exactly when no add-on has it |
| ConfigSniper.PickOfUnique | backend/app.py:2724-2737 | the pick of one family is determined: two results meeting the first-match description are equal |
| ConfigSniper.FamilyPick | backend/app.py:2717-2737 | a memory family contributes the first add-on with the memory's standard form (none if it has none), a storage family likewise with the storage's, any other family nothing |
| ConfigSniper.FirstCandidates | backend/app.py:2717-2737 | the options are the families' picks in family order: family k's pick comes right after the picks of the families before it; each has one of the two standard forms |
| ConfigSniper.HardwareOptions | backend/app.py:2708-2741 | without a catalogue, or without a plan with the code, no options are sent; otherwise exactly the family picks of the first plan with the code |
| ConfigSniper.FirstPlan | backend/app.py:2712-2713 | the first catalogue plan with the code |
| ConfigSniper.QueueInStock | backend/app.py:2679-2760 | the queue only grows, by one item per counted datacenter; every added item is for this plan code and task, running, never retried or checked, with interval 30 and the given options, for an in-stock listed datacenter that had no item before |
| ConfigSniper.QueueInStockKeepsKeysUnique | backend/app.py:2692-2700 | no two items of a task ever share plan code and datacenter |
| ConfigSniper.QueueInStockCovers | backend/app.py:2679-2757 | afterwards every in-stock datacenter of the listing is queued for the task |
| ConfigSniper.CheckAndQueue | backend/app.py:2665-2778 | a failed fetch gives nothing; otherwise every in-stock datacenter of the listing ends up queued, every added item is a fresh sniper item with the plan's hardware options, the result is true exactly when some in-stock datacenter had no item (and so the queue grew), and keys stay unique |
| ConfigSniper.GrewIffMissing | backend/app.py:2692-2778 | with fresh additions and full coverage, the queue grew exactly when some in-stock datacenter was missing |
| ConfigSniper.QueueAll | backend/app.py:2643-2648 | over several plan codes, failed fetches skipped: every in-stock datacenter of every fetched code ends up queued, each added item is a fresh sniper item for one of the codes, and the result is true exactly when some in-stock datacenter was missing; keys stay unique |
| ConfigSniper.NewPlanCodes | backend/app.py:2613-2618 | the new codes are exactly the current matches neither known nor already matched |
| ConfigSniper.HandlePendingMatch | backend/app.py:2602-2663 | the matched list becomes the old one followed by the new matching codes; nothing else but the status changes; the task completes exactly when it was complete or something was queued; the new codes' in-stock datacenters end up queued and every added item is a fresh sniper item for one of them |
| ConfigSniper.HandleMatched | backend/app.py:2780-2808 | without a client nothing happens; the task completes exactly when it was complete or something was queued; with a client every in-stock datacenter of every matched code ends up queued, and every added item is a fresh sniper item for a matched code |
| ConfigSniper.MonitorTask | backend/app.py:2567-2589 | disabled and completed tasks are skipped; any other task is stamped with the check time and ends completed exactly when the round queued something; a matched task never goes back to pending; every added item is a fresh sniper item for one of the task's matched codes |
| ConfigSniper.CompletedIsFinal | backend/app.py:2585-2586 | a completed task is never handled again |
| ServerMonitor.Lookup | backend/server_monitor.py:119 | a status exactly for a datacenter present in the map, and it is one of the stored statuses |
| ServerMonitor.FindSub | backend/server_monitor.py:47 | the first subscription for the plan code, or none exactly when there is none |
| ServerMonitor.AddSubscription | backend/server_monitor.py:36-69 | an existing plan code is updated in place with its history kept; a new one is appended with empty status and history |
| ServerMonitor.AddSubscriptionKeepsUnique | backend/server_monitor.py:46-68 | adding keeps one subscription per plan code and the plan is then subscribed |
| ServerMonitor.RemoveSubscription | backend/server_monitor.py:71-79 | the result is true exactly when the plan was subscribed; every subscription for it goes and the others stay, in order |
| ServerMonitor.RemoveShrinksIffPresent | backend/server_monitor.py:73-79 | the list shrinks exactly when the plan code was present |
| ServerMonitor.ClearSubscriptions | backend/server_monitor.py:81-86 | the registry becomes empty and the old count is returned |
| ServerMonitor.Classify | backend/server_monitor.py:125-144 | an "available" alert exactly for a first sighting or a restock with available alerts on; an "unavailable" one exactly for a sell-out with unavailable alerts on |
| ServerMonitor.Fire | backend/server_monitor.py:113-161 | an entry exactly for a watched datacenter whose change is alerted, carrying the datacenter, status, time and previous status |
| ServerMonitor.Alerts | backend/server_monitor.py:113-162 | the recorded entries are each datacenter's fired entry, once each, concatenated in availability order; each is justified by the current availability |
| ServerMonitor.AppendCappedIsLast | backend/server_monitor.py:162-166 | trimming to 100 after each entry keeps the same newest 100 as trimming once at the end |
| ServerMonitor.CheckAvailabilityChange | backend/server_monitor.py:88-169 | an empty lookup changes nothing; otherwise the new status map is stored and the alerts are appended to the capped history; nothing else changes |
| ServerMonitor.CheckKeepsHistoryBounded | backend/server_monitor.py:164-166 | the history stays within 100 entries, each old or a justified new alert |
| ServerMonitor.UnlistedDatacenterIsSilent | backend/server_monitor.py:115-117 | with an explicit datacenter list, an unlisted datacenter never gets an entry |
| ServerMonitor.InitMonitor | backend/server_monitor.py:28-31 | a new monitor is stopped, empty and has a legal interval |
| ServerMonitor.SetCheckInterval | backend/server_monitor.py:335-343 | an interval is accepted exactly when it is at least 60, and only then replaces the old one |
| ServerMonitor.Start | backend/server_monitor.py:296-307 | start succeeds exactly when the monitor was stopped, and leaves it running |
| ServerMonitor.Stop | backend/server_monitor.py:309-323 | stop succeeds exactly when the monitor was running, and leaves it stopped |
| ServerMonitor.StartStopRestores | backend/server_monitor.py:296-323 | a start followed by a stop restores the monitor |
| ServerMonitor.CheckNewServers | backend/server_monitor.py:208-235 | the first run only records the codes; later runs announce exactly the unknown current codes and then know all current codes |
| ServerMonitor.AnnouncedCodeHasServer | backend/server_monitor.py:228-231 | every announced code belongs to a listed server |
| ServerMonitor.MonitorPass | backend/server_monitor.py:265-275 | a pass checks each subscription once and keeps plan codes |
| ServerMonitor.MonitorPassKeepsUnique | backend/server_monitor.py:271-274 | a pass keeps the registry keyed by plan code |
| VpsMonitor.ClassifyVps | backend/app.py:3796-3862 | a datacenter lands in "initial" exactly on its first sighting, in "new available" exactly on a restock and in "new unavailable" exactly on a sell-out |
| VpsMonitor.EntryFor | backend/app.py:3800-3862 | a first sighting is recorded only when in stock, changes always, with the code, status and previous status |
| VpsMonitor.ScanStep | backend/app.py:3785-3865 | an unwatched row changes nothing; a watched row is appended to exactly the list `ClassifyVps` names for its previous and current status (to none when it names none), adds that list's `EntryFor` entry, if any, to the history and stores its status |
| VpsMonitor.ScanAll | backend/app.py:3785-3865 | each list grows by exactly the rows that land in it, in row order, and the history by exactly their entries, every row classified against the status the rows before it left; the final status map is that of the rows seen in order; the history only grows |
| VpsMonitor.StatusAfterFacts | backend/app.py:3792-3865 | after the rows, the status map gains exactly the watched codes, keeps the others, and stores each code's last watched status |
| VpsMonitor.ListedIffLands | backend/app.py:3796-3862 | a row is in a list after the pass exactly when it was there before or some row equal to it lands there |
| VpsMonitor.FirstRowOfCode | backend/app.py:3796-3838 | the first row with a code is judged against the stored status: an unseen code is listed as initial, a restocked one as newly available |
| VpsMonitor.Notices | backend/app.py:3867-3882 | the initial summary is sent exactly on a first check with sightings and available alerts on; the restock and sell-out summaries likewise; no summary is empty |
| VpsMonitor.CheckVps | backend/app.py:3762-3889 | a failed lookup changes nothing; otherwise the status map is the one the rows leave in order (it gains exactly the watched codes, keeps the others' statuses, and stores each watched code's last row status), the history is the newest 100 of the old entries and the pass's row entries, and the notices are those `Notices` picks for the pass's lists, with "first check" meaning an empty stored status; nothing else changes |
| VpsMonitor.CheckVpsKeepsNewest | backend/app.py:3887-3889 | the kept history is the newest 100 of the old and new entries |
| VpsMonitor.AddVps | backend/app.py:3919-3968 | a missing plan code and a duplicate (plan code, subsidiary) are refused; otherwise the new subscription is appended with empty state and the monitor is running |
| VpsMonitor.AddVpsKeepsKeysUnique | backend/app.py:3936-3939 | adding keeps one subscription per (plan code, subsidiary) |
| VpsMonitor.RemoveVps | backend/app.py:3970-3989 | the result is true exactly when the id was present; its subscriptions go and the others stay in order; the monitor stops when none remain |
| VpsMonitor.RemoveShrinksIffPresent | backend/app.py:3975-3978 | the list shrinks exactly when the id was present |
| VpsMonitor.ClearVps | backend/app.py:3991-4007 | the registry is empty, the monitor stopped, the old count returned |
| VpsMonitor.SetVpsInterval | backend/app.py:4064-4079 | an interval is accepted exactly when present and at least 60, and only then replaces the old one |
| ApiAuth.PyIntRoundTrip | backend/api_auth_middleware.py:107 | `int(str(i)) == i` for every integer of at most 4300 digits (CPython's default `int_max_str_digits`); a longer rendering raises ValueError |
| ApiAuth.CheckKey | backend/api_auth_middleware.py:27-59 | a missing or empty key is "no key", a wrong key "invalid"; the request passes exactly with the secret and no live-skew violation; it is "expired" exactly with the secret and a timestamp `int()` accepts (at most 4300 digits) that is more than five minutes off |
| ApiAuth.VerifyApiKey | backend/api_auth_middleware.py:70-124 | disabled auth, OPTIONS, non-`/api/` and whitelisted paths pass; otherwise the decision is exactly `CheckKey`'s: no key, invalid key, expired timestamp or allow |
| ApiAuth.RequireApiKey | backend/api_auth_middleware.py:17-59 | disabled auth and whitelisted paths pass; otherwise the decision is exactly `CheckKey`'s: no key, invalid key, expired timestamp or allow |
| ApiAuth.StaleTimestampExpires | backend/api_auth_middleware.py:42-122 | with the right key, both guards answer "expired" exactly when the timestamp parses and is more than five minutes off, and the hook lets the request through otherwise |
| ApiAuth.GuardsAgree | backend/api_auth_middleware.py:11-124 | the decorator is at least as strict as the hook, and on a non-OPTIONS `/api/` request the two agree |
| ApiAuth.ExpiredRendered | backend/api_auth_middleware.py:106-121 | a rendered timestamp header is expired exactly when `int()` accepts it (at most 4300 digits) and it is more than five minutes from the server clock; a longer one is ignored |
| ApiAuth.SkewBoundary | backend/api_auth_middleware.py:111-113 | a timestamp exactly five minutes off is live; one millisecond more is expired whenever `int()` accepts its rendering |
| ApiAuth.BadTimestampIgnored | backend/api_auth_middleware.py:105-121 | an unparsable timestamp decides like an absent one |
| Constants.DefaultRetryIntervalValid | src/config/constants.ts:12-24 | the default interval is valid and the valid range is exactly 30 to 3600 |
| Constants.FormatInterval | src/config/constants.ts:92-108 | the five display forms: seconds, minutes with or without seconds, hours with or without minutes |
| Constants.FormatIntervalInjectiveBelowHour | src/config/constants.ts:92-101 | below an hour two intervals display alike only when equal |
| Constants.FormatIntervalDropsSecondsAboveHour | src/config/constants.ts:102-107 | from an hour on, seconds are not shown: every interval displays like the same interval cut back to whole minutes |
| Constants.FormatRetryCount | src/config/constants.ts:113-119 | the attempt number, with "/limit" unless retries are unlimited |
| Constants.RetryCountShowsLimitIff | src/config/constants.ts:113-119 | a '/' appears exactly when retries are limited |
| QueuePage.ToggleStatus | src/pages/QueuePage.tsx:152-164 | "paused" exactly for a running item, "running" for any other |
| QueuePage.ToggleStatusTwice | src/pages/QueuePage.tsx:155-160 | pausing and resuming are inverse |
| QueuePage.ToggleDatacenter | src/pages/QueuePage.tsx:236-240 | the clicked code's membership flips, no other changes; it is appended when added |
| QueuePage.ToggleDatacenterKeepsNoDup | src/pages/QueuePage.tsx:238 | the selection stays free of duplicates |
| QueuePage.ToggleDatacenterTwice | src/pages/QueuePage.tsx:238 | two clicks restore the selection |
| QueuePage.AddQueueItem | src/pages/QueuePage.tsx:95-131 | a blank code or empty selection posts nothing; otherwise one post per datacenter in order, the counts add up, and the form resets exactly when something succeeded or nothing failed |
| QueuePage.PostEach | src/pages/QueuePage.tsx:101-117 | one post per datacenter with the given code and interval, in selection order; successes and failures add up to the number of datacenters, and the successes are the posts whose request went through |
| QueuePage.RetryIntervalInput | src/pages/QueuePage.tsx:315-321 | a value inside 30 to 3600 is taken; any other input keeps the field |
| QueuePage.RetryIntervalStaysValid | src/pages/QueuePage.tsx:315-321 | the field never holds an invalid interval |
| ServersPage.Get | src/pages/ServersPage.tsx:706 | a datacenter has a flag exactly when it has a key, and the flag is its entry's |
| ServersPage.SetKey | src/pages/ServersPage.tsx:704-707 | the key is set and added at the end when new; other keys and their order are kept |
| ServersPage.ToggleDc | src/pages/ServersPage.tsx:701-709 | exactly the clicked datacenter of the clicked plan flips; other plans are untouched |
| ServersPage.ToggleDcTwice | src/pages/ServersPage.tsx:701-709 | two clicks restore every selection |
| ServersPage.ToggleAll | src/pages/ServersPage.tsx:712-722 | an unknown plan is untouched; otherwise its datacenters are all selected or all cleared, with their keys kept |
| ServersPage.TickedLower | src/pages/ServersPage.tsx:728-730 | the list holds exactly the lower-cased ticked datacenters |
| ServersPage.SelectedList | src/pages/ServersPage.tsx:725-731 | an unknown plan gives no list; otherwise exactly the lower-cased selected datacenters |
| ServersPage.SelectAllLists | src/pages/ServersPage.tsx:712-731 | after "select all" every datacenter is listed; after "clear all" none |
| ServersPage.ToggleDcLists | src/pages/ServersPage.tsx:701-731 | a clicked unselected datacenter then appears in the list |
| ServersPage.DropRivals | src/pages/ServersPage.tsx:749-785 | only options of the same group are removed, and order is kept |
| ServersPage.ToggleOptionList | src/pages/ServersPage.tsx:736-790 | a selected option is removed once; an unselected one is appended last after removing its rivals, with other options kept |
| ServersPage.ToggleOptionSingleSelect | src/pages/ServersPage.tsx:744-789 | after choosing an option no other option of its group stays selected |
| ServersPage.ToggleOptionKeepsNoDup | src/pages/ServersPage.tsx:736-790 | the selection stays free of duplicates |
| ServersPage.OptionsOf | src/pages/ServersPage.tsx:746 | the options of the first server with the plan code, or none |
| ServersPage.ToggleOption | src/pages/ServersPage.tsx:734-797 | only the clicked plan's list changes, and it becomes `ToggleOptionList` of the old list (empty when absent) with the plan's first server's options: a selected option is removed, otherwise its same-group rivals are dropped and it is appended; on a duplicate-free list membership flips |
| ServersPage.ToggleOptionFlips | src/pages/ServersPage.tsx:737-790 | on a duplicate-free list the option is selected afterwards exactly when it was not before |
| ServersPage.NormDc | src/pages/ServersPage.tsx:668 | "ynm" becomes "mum"; every other code is unchanged |
| ServersPage.NormalizeAvailabilityKeys | src/pages/ServersPage.tsx:665-670 | the keys are exactly the renamed codes of the answer |
| ServersPage.NormalizeAvailabilityLastWins | src/pages/ServersPage.tsx:666-669 | each key holds the status of its last entry |
| ServersPage.NormalizeOnlyRenames | src/pages/ServersPage.tsx:665-670 | without a clash with "mum", the map is the answer with "ynm" renamed |
| ServersPage.SearchResult | src/pages/ServersPage.tsx:994-1004 | exactly `Filter(servers, Matching(lower-cased term))`: the matching servers in order, each repeat kept; an empty term keeps them all |
| ServersPage.ApplyFilters | src/pages/ServersPage.tsx:983-1025 | an empty catalogue keeps the shown list; otherwise a permutation of the search result with subscribed servers first and each class in catalogue order |
| ServersPage.StablePartition | src/pages/ServersPage.tsx:1014-1021 | a permutation with subscribed servers first and each class's order kept |
| ServersPage.ApplyFiltersIdempotent | src/pages/ServersPage.tsx:983-1025 | filtering the filtered list again changes nothing |
| ServersPage.PartitionedSplits | src/pages/ServersPage.tsx:1014-1021 | a list with subscribed servers first is its subscribed part followed by the rest |
| ServersPage.ChosenOptions | src/pages/ServersPage.tsx:818-820 | the user's options when there are any, otherwise the defaults |
| ServersPage.AddToQueue | src/pages/ServersPage.tsx:805-885 | unauthenticated and empty-selection calls post nothing; otherwise one post per datacenter with the chosen options |
| ServersPage.PickedOptionsPosted | src/pages/ServersPage.tsx:818-820 | picked options are what every post carries |
| AvailabilityPage.AvailableXorUnavailable | src/pages/OVHAvailabilityPage.tsx:109-116 | every item is either "available" or "unavailable", never both |
| AvailabilityPage.WithinHourIsAvailable | src/pages/OVHAvailabilityPage.tsx:117-120 | an item deliverable within an hour is available |
| AvailabilityPage.MemSize | src/pages/OVHAvailabilityPage.tsx:129-131 | a size is the value of the leftmost digit run directly followed by 'g' or 'G': no such run starts earlier |
| AvailabilityPage.MemSizeFoundIff | src/pages/OVHAvailabilityPage.tsx:129-130 | a size is found exactly when such a run exists |
| AvailabilityPage.Upto128Exact | src/pages/OVHAvailabilityPage.tsx:127-141 | the "up to 128" filter keeps exactly the items without a size or with at most 128 |
| AvailabilityPage.ApplyFilters | src/pages/OVHAvailabilityPage.tsx:84-142 | the shown items are exactly `Filter(items, Shown(f))`: those passing every active filter, in order, each repeat kept |
| AvailabilityPage.FourFiltersAreShown | src/pages/OVHAvailabilityPage.tsx:85-141 | the search, datacenter, availability and memory filters applied in turn equal one filter by `Passes`, order and repeats kept |
| AvailabilityPage.InStockCount | src/pages/OVHAvailabilityPage.tsx:160-165 | the in-stock count is positive exactly when the item is available |
| AvailabilityPage.Compare | src/pages/OVHAvailabilityPage.tsx:145-171 | ascending by memory or stock is the difference of the keys |
| AvailabilityPage.CompareDescNegatesAsc | src/pages/OVHAvailabilityPage.tsx:170 | descending is ascending negated, and the numeric comparisons are antisymmetric |
| AvailabilityPage.CompareIsKeyDifference | src/pages/OVHAvailabilityPage.tsx:152-170 | a numeric comparison is the difference of a per-item key |
| AvailabilityPage.SortBy | src/pages/OVHAvailabilityPage.tsx:145 | the result is ordered by the key and a permutation of the input |
| AvailabilityPage.SortByMemoryDescending | src/pages/OVHAvailabilityPage.tsx:152-170 | sorting by memory, descending, puts larger sizes first |
| AvailabilityPage.ComputeStats | src/pages/OVHAvailabilityPage.tsx:190-202 | the total is the list length, the available count is the number of available items, the within-an-hour count the number delivered within an hour, and within-an-hour ≤ available ≤ total |
| AvailabilityPage.AvailableFilterCountsAll | src/pages/OVHAvailabilityPage.tsx:109-112 | under the "available" filter every shown item counts as available |
| LogsPage.FilterLogs | src/pages/LogsPage.tsx:75-96 | with no logs the shown list stays; otherwise exactly `Filter(logs, ShownLog(level, term))`: the logs passing both filters, in order, each repeat kept, all of the chosen level |
| LogsPage.TwoFiltersAreShown | src/pages/LogsPage.tsx:78-95 | the level filter followed by the search filter equals one filter by both conditions, order and repeats kept |
| LogsPage.NoFilterShowsAll | src/pages/LogsPage.tsx:78-95 | with no filter every log is shown |
| LogsPage.RowLabels | src/pages/LogsPage.tsx:237-245 | the row numbers count down strictly from n to 1 |
| LogsPage.RowLabelsAreOneToN | src/pages/LogsPage.tsx:245 | the labels are exactly 1 to n |
| Dashboard.ActiveItems | src/pages/Dashboard.tsx:46-49 | at most three items, all active, the first ones of the active items |
| Dashboard.ActiveItemsInQueueOrder | src/pages/Dashboard.tsx:47-49 | the shown items keep queue order |
| Dashboard.FewActiveAllShown | src/pages/Dashboard.tsx:47-49 | with at most three active items all are shown |
| Dashboard.Refresh | src/pages/Dashboard.tsx:38-56 | loading ends; a failure keeps the old data; a success shows the answer |
| Dashboard.FailureKeepsLastGood | src/pages/Dashboard.tsx:51-55 | after a failure the last good data stays on screen |
| MonitorPage.ParseDatacenters | src/pages/MonitorPage.tsx:75-78 | the codes are non-empty, trimmed and comma-free, and a subsequence of the trimmed parts; every non-empty trimmed part is kept, and there are exactly as many codes as non-empty trimmed parts |
| MonitorPage.ParseDatacentersJoin | src/pages/MonitorPage.tsx:75-78 | parsing comma-joined clean codes gives them back |
| MonitorPage.AddSubscription | src/pages/MonitorPage.tsx:66-100 | a blank plan code posts nothing; otherwise the trimmed code and parsed datacenters are posted, and the form resets exactly on success |
| MonitorPage.BlankPlanCodeRejected | src/pages/MonitorPage.tsx:69-72 | a whitespace-only plan code is refused |
| MonitorPage.ToggleEndpoint | src/pages/MonitorPage.tsx:138 | "stop" exactly when running, "start" exactly when stopped |
| MonitorPage.ToggleEndpointSucceeds | src/pages/MonitorPage.tsx:135-141 | the chosen endpoint is the one the monitor accepts |
| BrowserCache.Store | src/pages/ServersPage.tsx:167-173 | the stored slot parses with the server count and the save time |
| BrowserCache.IsCacheExpired | src/pages/ServersPage.tsx:112-124 | a missing or unreadable cache is expired; a timestamp-less one never; otherwise exactly when more than two hours old |
| BrowserCache.StoredCacheLifetime | src/pages/ServersPage.tsx:112-124 | a saved cache is live for exactly two hours |
| BrowserCache.ExpiryIsMonotone | src/pages/ServersPage.tsx:119 | an expired cache stays expired |
| CacheManager.JsRem | src/components/CacheManager.tsx:43 | JavaScript's remainder: it lies strictly between -d and d with the dividend's sign, and dividend = d × (quotient rounded toward zero) + remainder |
| CacheManager.FormatCacheAge | src/components/CacheManager.tsx:39-52 | `null` shows "no cache", NaN "just now"; otherwise hours with minutes, minutes, or "just now", by age |
| CacheManager.SameMinuteSameText | src/components/CacheManager.tsx:39-52 | ages in the same minute display alike |
| CacheManager.SameTextSameMinute | src/components/CacheManager.tsx:42-48 | from a minute on, ages that display alike are in the same minute |
| CacheManager.FrontendCacheInfo | src/components/CacheManager.tsx:111-129 | no info exactly for a missing or unreadable cache; the count defaults to 0; the age is the elapsed time floored to seconds, or NaN (never `null`) without a timestamp |
| CacheManager.AgeAgreesWithExpiry | src/components/CacheManager.tsx:118 | the displayed age agrees with the page's expiry test |
| CacheManager.InfoAfterStore | src/components/CacheManager.tsx:111-129 | right after a save the info shows its count and the elapsed seconds |

## Left out

- Files, threads and sleeps are not modelled. Neither are logging to the console, Telegram messages, toasts and rendering. Each is I/O or timing; outcomes that matter enter as parameters.
- The OVH client calls are parameters (`Fetch`, `OrderOutcome`, catalogues). These cover the cart steps, option adding and the required-configuration check in `purchase_server`. Which API error a call raises is not modelled.
- Clocks and UUIDs are parameters. Times are whole seconds or milliseconds; `time.time()` fractions are not modelled.
- `Text`: lower-casing is ASCII only; Python's and JavaScript's full Unicode case mapping is not modelled. Whitespace is modelled in full: `IsPySpace` is Python's `str.isspace()` and `IsJsSpace` is ECMAScript's WhiteSpace and LineTerminator set.
- ConfigSniper.QueueInStock: a listing entry without a `datacenter` field is read as datacenter "" (`DcName`), where backend/app.py:2682 reads `None` and queues an item whose datacenter is `None`. Such an entry therefore counts as already queued when an item with datacenter "" exists, where the source would treat the two as different.
- ApiAuth.PyIntRoundTrip: `int()` is modelled on ASCII digits with underscores; Unicode digits are not modelled.
- ApiAuth.PyIntMaxStrDigits: the digit limit is CPython's default of 4300; a limit changed through `sys.set_int_max_str_digits` or `PYTHONINTMAXSTRDIGITS`, and interpreters older than the limit, are not modelled.
- Constants: the helpers take whole numbers. `formatInterval` on fractional seconds is not modelled.
- AvailabilityPage.Compare: `localeCompare` is a parameter `planOrder`. Its collation is outside this model.
- AvailabilityPage.SortBy: it models the sort as an ordering and a permutation only. The stability of `Array.prototype.sort` is not stated.
- AvailabilityPage.MemSize: `parseInt` is exact here. Double-precision rounding of huge numbers is not modelled.
- ServersPage: the JS object holding selections keeps string keys in insertion order. The rule that integer-like keys sort first is not modelled, because datacenter codes are letters.
- ServersPage.NormalizeAvailability: its contract only states that "ynm" never survives. Its keys and values are stated by NormalizeAvailabilityKeys and NormalizeAvailabilityLastWins.
- ServersPage.AddToQueue: `categorizeOption` and the success message only build display text, so they are not modelled.
- CacheManager: `clearFrontendCache`, `clearBackendCache` and the backend cache info only delete or report storage, so they are not modelled.
- LogsPage: the auto-scroll only affects the view, so it is not modelled.
- MonitorPage: loading, removal and clearing only call the backend routes, which ServerMonitor models.
- VpsMonitor: the start, stop, status and history routes only flip the running flag or read state. The monitor's summary message text is not modelled.
- ServerMonitor: alert and new-server message texts are not modelled. `get_status` only reads state.
- Standardize: `\d` and `\w` are read as ASCII. Python's `str` patterns also match other Unicode digits and word characters. The hand-written matchers are not proved equal to a general regular-expression engine.
- PurchaseQueue.AddQueueItem: an explicit JSON `null` for `retryInterval` cannot be expressed; the request's field is either a number or absent (and then 30). In the source, `data.get` keeps the `None` (backend/app.py:1958).
- QueuePage.RetryIntervalInput: the input is a whole number. Fractional values from `Number(...)` are not modelled.
- Standardize.StandardizeConfig: the function itself has no contract. Its properties are stated by StandardizeConfigShape and the pass lemmas.
- Standardize: idempotence of `standardize_config` is not stated. ConfigSniper.PlanMatchesIff shows that a fingerprint it would change again matches no plan.
- Purchase.PurchaseServer: checkout's order id and URL are kept opaque.

=== FILE: api_auth.dfy ===
// The backend's API-key check.  `verify_api_key` runs before every request
// and `require_api_key` guards single endpoints; both compare the
// `X-API-Key` header with the configured secret and reject a
// `X-Request-Time` header more than five minutes away from the server
// clock.  The configuration module and the clock are parameters.

module ApiAuth {
  import opened Text

  /** Allowed clock skew of the request timestamp, in milliseconds. */
  const MaxSkewMs: int := 5 * 60 * 1000

  /** `ENABLE_API_KEY_AUTH`, `API_SECRET_KEY` and `WHITELIST_PATHS`. */
  datatype AuthConfig = AuthConfig(enabled: bool, secretKey: string, whitelist: set<string>)

  /** The parts of a request the check reads; absent headers are None. */
  datatype Request = Request(verb: string, path: string, apiKey: Option<string>, requestTime: Option<string>)

  datatype Denial = NoApiKey | InvalidApiKey | TimestampExpired

  /** None: the request goes on to its handler; otherwise a 401 with the code. */
  datatype Decision = Allow | Deny(reason: Denial)

  // ---------------------------------------------------------------------
  // Python's int() on a header value
  // ---------------------------------------------------------------------

  /** Decimal digits, optionally grouped by single underscores
      (`1_000`), neither starting nor ending with one. */
  predicate DigitGroups(s: string)
  {
    && |s| > 0
    && IsDigit(s[0]) && IsDigit(s[|s| - 1])
    && (forall i :: 0 <= i < |s| ==> IsDigit(s[i]) || s[i] == '_')
    && (forall i :: 0 <= i < |s| - 1 ==> !DoubleUnderscoreAt(s, i))
  }

  predicate DoubleUnderscoreAt(s: string, i: nat)
    requires i < |s| - 1
  {
    s[i] == '_' && s[i + 1] == '_'
  }

  function DropUnderscores(s: string): (r: string)
    requires forall i :: 0 <= i < |s| ==> IsDigit(s[i]) || s[i] == '_'
    ensures AllDigits(r) && |r| <= |s|
    ensures AllDigits(s) ==> r == s
    decreases |s|
  {
    if s == [] then []
    else (if s[0] == '_' then [] else [s[0]]) + DropUnderscores(s[1..])
  }

  /** CPython's default `sys.get_int_max_str_digits()`: `int()` refuses a
      decimal string with more digits than this (underscores not counted). */
  const PyIntMaxStrDigits: nat := 4300

  /** `int(s)` for a string: surrounding whitespace, an optional sign, then
      digit groups of at most `PyIntMaxStrDigits` digits; None where Python
      raises ValueError. */
  function PyInt(s: string): (r: Option<int>)
  {
    ParseStripped(PyStrip(s))
  }

  /** `int()` once the surrounding whitespace is gone. */
  function ParseStripped(t: string): (r: Option<int>)
  {
    var signed := |t| > 0 && (t[0] == '-' || t[0] == '+');
    var body := if signed then t[1..] else t;
    if !DigitGroups(body) then None
    else if |DropUnderscores(body)| > PyIntMaxStrDigits then None
    else
      var v: int := DigitsValue(DropUnderscores(body));
      Some(if signed && t[0] == '-' then -v else v)
  }

  /** Digits are not whitespace, so a rendered number strips to itself. */
  lemma StripNumber(s: string)
    requires |s| > 0 && (IsDigit(s[0]) || s[0] == '-') && IsDigit(s[|s| - 1])
    ensures PyStrip(s) == s && PyInt(s) == ParseStripped(s)
  {
    assert !IsPySpace(s[0]) && !IsPySpace(s[|s| - 1]);
    assert TrimStart(s, IsPySpace) == s;
    assert TrimEnd(s, IsPySpace) == s;
  }

  /** The integer's decimal rendering is short enough for `int()`. */
  predicate Renderable(i: int)
  {
    |NatToString(Abs(i))| <= PyIntMaxStrDigits
  }

  /** `int(str(i)) == i` for every integer of at most 4300 digits; a longer
      rendering is refused. */
  lemma PyIntRoundTrip(i: int)
    ensures Renderable(i) ==> PyInt(IntToString(i)) == Some(i)
    ensures !Renderable(i) ==> PyInt(IntToString(i)) == None
  {
    if i < 0 {
      ParseNegative(i);
    } else {
      ParseNatural(i);
    }
  }

  lemma ParseNatural(i: int)
    requires i >= 0
    ensures PyInt(IntToString(i)) == if Renderable(i) then Some(i) else None
  {
    var d := NatToString(i);
    assert IntToString(i) == d;
    DigitsParse(i);
    StripNumber(d);
    assert d[0] != '-' && d[0] != '+';
  }

  lemma ParseNegative(i: int)
    requires i < 0
    ensures PyInt(IntToString(i)) == if Renderable(i) then Some(i) else None
  {
    var n: nat := -i;
    assert IntToString(i) == "-" + NatToString(n);
    ParseMinus(n);
  }

  lemma ParseMinus(n: nat)
    ensures PyInt("-" + NatToString(n)) == if Renderable(n) then Some(-(n as int)) else None
  {
    var s := "-" + NatToString(n);
    DigitsParse(n);
    assert s[1..] == NatToString(n);
    MinusDigits(s, n);
  }

  /** A minus sign before digit groups negates their value. */
  lemma MinusDigits(s: string, v: int)
    requires |s| > 1 && s[0] == '-' && DigitGroups(s[1..])
    requires v == DigitsValue(DropUnderscores(s[1..]))
    ensures PyInt(s) == if |DropUnderscores(s[1..])| <= PyIntMaxStrDigits then Some(-v) else None
  {
    assert s[|s| - 1] == s[1..][|s| - 2];
    StripNumber(s);
    ParseMinusSign(s);
  }

  lemma ParseMinusSign(s: string)
    requires |s| > 1 && s[0] == '-' && DigitGroups(s[1..])
    ensures ParseStripped(s) ==
      if |DropUnderscores(s[1..])| <= PyIntMaxStrDigits then Some(-(DigitsValue(DropUnderscores(s[1..])) as int))
      else None
  {
  }

  /** A rendered natural number is one digit group worth itself. */
  lemma DigitsParse(n: nat)
    ensures DigitGroups(NatToString(n))
    ensures DigitsValue(DropUnderscores(NatToString(n))) == n
  {
    NatToStringValue(n);
  }

  // ---------------------------------------------------------------------
  // The decision
  // ---------------------------------------------------------------------

  function Abs(x: int): nat { if x < 0 then -x else x }

  /** The timestamp header is present, non-empty, numeric and more than
      five minutes from `nowMs`. */
  predicate Expired(requestTime: Option<string>, nowMs: int)
  {
    requestTime.Some? && requestTime.value != "" && PyInt(requestTime.value).Some?
      && Abs(nowMs - PyInt(requestTime.value).value) > MaxSkewMs
  }

  /** A request with exactly the secret key (and a live timestamp) passes. */
  predicate KeyAccepted(cfg: AuthConfig, req: Request, nowMs: int)
  {
    req.apiKey == Some(cfg.secretKey) && cfg.secretKey != "" && !Expired(req.requestTime, nowMs)
  }

  /** The checks both guards share, from the key header on. */
  function CheckKey(cfg: AuthConfig, req: Request, nowMs: int): (r: Decision)
    ensures req.apiKey.None? || req.apiKey == Some("") ==> r == Deny(NoApiKey)
    ensures req.apiKey.Some? && req.apiKey.value != "" && req.apiKey.value != cfg.secretKey ==> r == Deny(InvalidApiKey)
    ensures r == Allow <==> KeyAccepted(cfg, req, nowMs)
    ensures r == Deny(TimestampExpired) <==>
      req.apiKey == Some(cfg.secretKey) && cfg.secretKey != "" && Expired(req.requestTime, nowMs)
  {
    if req.apiKey.None? || req.apiKey.value == "" then Deny(NoApiKey)
    else if req.apiKey.value != cfg.secretKey then Deny(InvalidApiKey)
    else if req.requestTime.Some? && req.requestTime.value != "" then
      match PyInt(req.requestTime.value)
      case None => Allow
      case Some(t) => if Abs(nowMs - t) > MaxSkewMs then Deny(TimestampExpired) else Allow
    else Allow
  }

  /** The requests `verify_api_key` lets through without looking at keys. */
  predicate ExemptFromVerify(cfg: AuthConfig, req: Request)
  {
    req.verb == "OPTIONS" || !StartsWith(req.path, "/api/") || req.path in cfg.whitelist
  }

  /** `verify_api_key` (the before-request hook). */
  function VerifyApiKey(cfg: AuthConfig, req: Request, nowMs: int): (r: Decision)
    ensures !cfg.enabled || ExemptFromVerify(cfg, req) ==> r == Allow
    ensures cfg.enabled && !ExemptFromVerify(cfg, req) ==>
      (r == Allow <==> KeyAccepted(cfg, req, nowMs))
    ensures cfg.enabled && !ExemptFromVerify(cfg, req) && (req.apiKey.None? || req.apiKey == Some("")) ==>
      r == Deny(NoApiKey)
    ensures cfg.enabled && !ExemptFromVerify(cfg, req) && req.apiKey.Some? && req.apiKey.value != "" ==>
      (req.apiKey.value != cfg.secretKey ==> r == Deny(InvalidApiKey))
    ensures r == Deny(TimestampExpired) ==> Expired(req.requestTime, nowMs)
    ensures cfg.enabled && !ExemptFromVerify(cfg, req) ==> r == CheckKey(cfg, req, nowMs)
  {
    if !cfg.enabled then Allow
    else if req.verb == "OPTIONS" then Allow
    else if !StartsWith(req.path, "/api/") then Allow
    else if req.path in cfg.whitelist then Allow
    else CheckKey(cfg, req, nowMs)
  }

  /** `require_api_key` (the endpoint decorator): the same key and timestamp
      rules, exempting only whitelisted paths. */
  function RequireApiKey(cfg: AuthConfig, req: Request, nowMs: int): (r: Decision)
    ensures !cfg.enabled || req.path in cfg.whitelist ==> r == Allow
    ensures cfg.enabled && req.path !in cfg.whitelist ==> (r == Allow <==> KeyAccepted(cfg, req, nowMs))
    ensures cfg.enabled && req.path !in cfg.whitelist && (req.apiKey.None? || req.apiKey == Some("")) ==>
      r == Deny(NoApiKey)
    ensures cfg.enabled && req.path !in cfg.whitelist ==> r == CheckKey(cfg, req, nowMs)
  {
    if !cfg.enabled then Allow
    else if req.path in cfg.whitelist then Allow
    else CheckKey(cfg, req, nowMs)
  }

  /** The decorator is at least as strict as the hook, and on a non-OPTIONS
      `/api/` request the two agree. */
  lemma GuardsAgree(cfg: AuthConfig, req: Request, nowMs: int)
    ensures RequireApiKey(cfg, req, nowMs) == Allow ==> VerifyApiKey(cfg, req, nowMs) == Allow
    ensures req.verb != "OPTIONS" && StartsWith(req.path, "/api/") ==>
      RequireApiKey(cfg, req, nowMs) == VerifyApiKey(cfg, req, nowMs)
  {
  }

  /** A timestamp exactly five minutes behind or ahead of the clock is
      still live; one a millisecond further behind has expired (unless its
      rendering is too long for `int()`).  With the right key, the first
      two pass and the third is rejected. */
  lemma SkewBoundary(nowMs: int)
    ensures !Expired(Some(IntToString(nowMs - MaxSkewMs)), nowMs)
    ensures !Expired(Some(IntToString(nowMs + MaxSkewMs)), nowMs)
    ensures Renderable(nowMs - MaxSkewMs - 1) ==> Expired(Some(IntToString(nowMs - MaxSkewMs - 1)), nowMs)
  {
    ExpiredRendered(nowMs - MaxSkewMs, nowMs);
    ExpiredRendered(nowMs + MaxSkewMs, nowMs);
    ExpiredRendered(nowMs - MaxSkewMs - 1, nowMs);
  }

  /** A rendered timestamp is expired exactly when `int()` accepts it and
      it is more than five minutes from `nowMs`. */
  lemma ExpiredRendered(t: int, nowMs: int)
    ensures Expired(Some(IntToString(t)), nowMs) <==> Renderable(t) && Abs(nowMs - t) > MaxSkewMs
  {
    PyIntRoundTrip(t);
    var s := IntToString(t);
    assert s != "";
    if Renderable(t) {
      assert PyInt(s) == Some(t);
    } else {
      assert PyInt(s) == None;
    }
  }

  /** With the right key on a guarded request, both guards answer
      "expired" exactly when the rendered timestamp is accepted by `int()`
      and more than five minutes off, and let the request through otherwise. */
  lemma StaleTimestampExpires(cfg: AuthConfig, req: Request, nowMs: int, t: int)
    requires cfg.enabled && req.apiKey == Some(cfg.secretKey) && cfg.secretKey != ""
    requires req.requestTime == Some(IntToString(t))
    ensures !ExemptFromVerify(cfg, req) ==>
      (VerifyApiKey(cfg, req, nowMs) == Deny(TimestampExpired) <==> Renderable(t) && Abs(nowMs - t) > MaxSkewMs)
    ensures req.path !in cfg.whitelist ==>
      (RequireApiKey(cfg, req, nowMs) == Deny(TimestampExpired) <==> Renderable(t) && Abs(nowMs - t) > MaxSkewMs)
    ensures !ExemptFromVerify(cfg, req) ==>
      (VerifyApiKey(cfg, req, nowMs) == Allow <==> !(Renderable(t) && Abs(nowMs - t) > MaxSkewMs))
  {
    ExpiredRendered(t, nowMs);
  }

  /** An unparsable timestamp header is ignored: the decision is the one
      for a request without it. */
  lemma BadTimestampIgnored(cfg: AuthConfig, req: Request, nowMs: int)
    requires req.requestTime.Some? && PyInt(req.requestTime.value).None?
    ensures VerifyApiKey(cfg, req, nowMs) == VerifyApiKey(cfg, req.(requestTime := None), nowMs)
    ensures RequireApiKey(cfg, req, nowMs) == RequireApiKey(cfg, req.(requestTime := None), nowMs)
  {
  }
}

=== FILE: availability_page.dfy ===
// The datacenter-availability page: OVH's public availability list,
// narrowed by a search term, a datacenter, an availability state and a
// memory class, sorted by plan code, memory or number of datacenters with
// stock, with summary counts.  The list itself is a parameter.

module AvailabilityPage {
  import opened Text

  datatype DcAvailability = DcAvailability(datacenter: string, availability: string)

  datatype AvailabilityItem = AvailabilityItem(
    fqn: string,
    memory: string,
    planCode: string,
    server: string,
    storage: string,
    datacenters: seq<DcAvailability>)

  // ---------------------------------------------------------------------
  // Filters
  // ---------------------------------------------------------------------

  /** The item mentions the lower-cased term in its plan code, server, fqn,
      memory or storage, case-insensitively. */
  predicate MatchesSearch(item: AvailabilityItem, term: string)
  {
    || Contains(Lower(item.planCode), term) || Contains(Lower(item.server), term)
    || Contains(Lower(item.fqn), term) || Contains(Lower(item.memory), term)
    || Contains(Lower(item.storage), term)
  }

  /** Some datacenter of the item is the filter's, case-insensitively. */
  predicate InDatacenter(item: AvailabilityItem, dc: string)
  {
    exists i :: 0 <= i < |item.datacenters| && Lower(item.datacenters[i].datacenter) == Lower(dc)
  }

  predicate InStock(d: DcAvailability)
  {
    d.availability != "unavailable" && d.availability != "unknown"
  }

  predicate WithinHour(d: DcAvailability)
  {
    d.availability == "1H-low" || d.availability == "1H-high"
  }

  /** "available": some datacenter has stock. */
  predicate IsAvailable(item: AvailabilityItem)
  {
    exists i :: 0 <= i < |item.datacenters| && InStock(item.datacenters[i])
  }

  /** "unavailable": no datacenter has stock. */
  predicate IsUnavailable(item: AvailabilityItem)
  {
    forall i :: 0 <= i < |item.datacenters| ==> !InStock(item.datacenters[i])
  }

  /** "1h": some datacenter delivers within the hour. */
  predicate WithinHourItem(item: AvailabilityItem)
  {
    exists i :: 0 <= i < |item.datacenters| && WithinHour(item.datacenters[i])
  }

  /** Every item is exactly one of "available" and "unavailable". */
  lemma AvailableXorUnavailable(item: AvailabilityItem)
    ensures IsAvailable(item) <==> !IsUnavailable(item)
  {
  }

  /** Delivery within the hour implies stock. */
  lemma WithinHourIsAvailable(item: AvailabilityItem)
    requires WithinHourItem(item)
    ensures IsAvailable(item)
  {
    var i :| 0 <= i < |item.datacenters| && WithinHour(item.datacenters[i]);
    assert InStock(item.datacenters[i]);
  }

  /** The availability selector; an unknown choice keeps every item. */
  predicate AvailabilityPasses(item: AvailabilityItem, choice: string)
  {
    if choice == "available" then IsAvailable(item)
    else if choice == "unavailable" then IsUnavailable(item)
    else if choice == "1h" then WithinHourItem(item)
    else true
  }

  // ---------------------------------------------------------------------
  // Memory size: the first match of /(\d+)g/i
  // ---------------------------------------------------------------------

  /** Length of the run of digits at the start of `s`. */
  function DigitRun(s: string): (k: nat)
    ensures k <= |s| && AllDigits(s[..k])
    ensures k < |s| ==> !IsDigit(s[k])
    decreases |s|
  {
    if s == [] || !IsDigit(s[0]) then 0
    else
      var k := DigitRun(s[1..]) + 1;
      assert s[..k] == [s[0]] + s[1..][..k - 1];
      k
  }

  predicate IsG(c: char) { c == 'g' || c == 'G' }

  /** `s[i..j]` is a run of digits directly followed by a 'g' or 'G'. */
  predicate GigabyteAt(s: string, i: int, j: int)
  {
    0 <= i < j < |s| && AllDigits(s[i..j]) && IsG(s[j])
  }

  /** The regular expression matches somewhere. */
  predicate HasGigabytes(s: string)
  {
    exists i, j :: 0 <= i < j < |s| && GigabyteAt(s, i, j)
  }

  /** `s[i..j]` is the leftmost match: no match starts before `i`. */
  predicate FirstGigabytes(s: string, i: int, j: int)
  {
    GigabyteAt(s, i, j) && forall i2, j2 :: 0 <= i2 < j2 < |s| && GigabyteAt(s, i2, j2) ==> i <= i2
  }

  /** `parseInt` of the first match's digits: the first digit run followed
      by 'g'.  A shorter run from inside a digit run is never followed by
      'g', so the leftmost match takes its run whole. */
  function MemSize(s: string): (r: Option<nat>)
    ensures r.Some? ==> exists i, j :: FirstGigabytes(s, i, j) && r.value == DigitsValue(s[i..j])
    decreases |s|
  {
    if s == [] then None
    else if IsDigit(s[0]) then
      var k := DigitRun(s);
      if k < |s| && IsG(s[k]) then
        assert FirstGigabytes(s, 0, k) && s[0..k] == s[..k];
        Some(DigitsValue(s[..k]))
      else
        var r := MemSize(s[k..]);
        if r.Some? then
          var i, j :| FirstGigabytes(s[k..], i, j) && r.value == DigitsValue(s[k..][i..j]);
          MatchesStartAfter(s, k);
          ShiftFirst(s, k, i, j);
          r
        else r
    else
      var r := MemSize(s[1..]);
      if r.Some? then
        var i, j :| FirstGigabytes(s[1..], i, j) && r.value == DigitsValue(s[1..][i..j]);
        NoMatchAtNonDigit(s);
        ShiftFirst(s, 1, i, j);
        r
      else r
  }

  /** The leftmost match of the text after `k` is the leftmost match of the
      whole text when no match starts before `k`. */
  lemma ShiftFirst(s: string, k: nat, i: int, j: int)
    requires k <= |s| && FirstGigabytes(s[k..], i, j)
    requires forall i2, j2 :: GigabyteAt(s, i2, j2) ==> k <= i2
    ensures FirstGigabytes(s, k + i, k + j) && s[k..][i..j] == s[k + i..k + j]
  {
    assert s[k..][i..j] == s[k + i..k + j];
    forall i2, j2 | GigabyteAt(s, i2, j2) ensures k + i <= i2 {
      assert s[k..][i2 - k..j2 - k] == s[i2..j2];
      assert GigabyteAt(s[k..], i2 - k, j2 - k);
    }
  }

  lemma MatchesStartAfter(s: string, k: nat)
    requires k <= |s| && AllDigits(s[..k]) && (k < |s| ==> !IsDigit(s[k]))
    requires !(k < |s| && IsG(s[k]))
    ensures forall i2, j2 :: GigabyteAt(s, i2, j2) ==> k <= i2
  {
    forall i2, j2 | GigabyteAt(s, i2, j2) ensures k <= i2 {
      NoMatchInsideRun(s, k, i2, j2);
    }
  }

  lemma NoMatchAtNonDigit(s: string)
    requires s != [] && !IsDigit(s[0])
    ensures forall i2, j2 :: GigabyteAt(s, i2, j2) ==> 1 <= i2
  {
    forall i2, j2 | GigabyteAt(s, i2, j2) ensures 1 <= i2 {
      assert s[i2] == s[i2..j2][0];
    }
  }

  /** The memory size is found exactly when the regular expression
      matches somewhere in the text. */
  lemma {:induction false} MemSizeFoundIff(s: string)
    ensures MemSize(s).Some? <==> HasGigabytes(s)
    decreases |s|
  {
    if s == [] {
    } else if IsDigit(s[0]) {
      var k := DigitRun(s);
      if !(k < |s| && IsG(s[k])) {
        MemSizeFoundIff(s[k..]);
        if HasGigabytes(s) {
          var i, j :| 0 <= i < j < |s| && GigabyteAt(s, i, j);
          NoMatchInsideRun(s, k, i, j);
          assert GigabyteAt(s[k..], i - k, j - k) by {
            assert s[k..][i - k..j - k] == s[i..j];
          }
        }
      }
    } else {
      MemSizeFoundIff(s[1..]);
      if HasGigabytes(s) {
        var i, j :| 0 <= i < j < |s| && GigabyteAt(s, i, j);
        assert s[i] == s[i..j][0];
        assert GigabyteAt(s[1..], i - 1, j - 1) by {
          assert s[1..][i - 1..j - 1] == s[i..j];
        }
      }
    }
  }

  /** A match cannot start inside the leading digit run when that run is
      not followed by 'g'. */
  lemma NoMatchInsideRun(s: string, k: nat, i: int, j: int)
    requires k <= |s| && AllDigits(s[..k]) && (k < |s| ==> !IsDigit(s[k]))
    requires !(k < |s| && IsG(s[k]))
    requires GigabyteAt(s, i, j)
    ensures i >= k
  {
  }

  /** The memory selector.  Text without a size passes every choice. */
  predicate MemoryPasses(item: AvailabilityItem, choice: string)
  {
    match MemSize(item.memory)
    case None => true
    case Some(size) =>
      if choice == "<=128" then size <= 128
      else if choice == "256" then 128 <= size <= 256
      else if choice == "512" then 256 <= size <= 512
      else if choice == ">=1024" then size >= 1024
      else true
  }

  /** "<=128" keeps exactly the items whose size is at most 128 GB, and
      those without a size. */
  lemma Upto128Exact(item: AvailabilityItem)
    ensures MemoryPasses(item, "<=128") <==> MemSize(item.memory).None? || MemSize(item.memory).value <= 128
  {
  }

  /** The four selectors, in the order the page applies them; "all" (and
      an empty search) switches one off. */
  datatype Filters = Filters(searchTerm: string, datacenter: string, availability: string, memory: string)

  predicate Passes(item: AvailabilityItem, f: Filters)
  {
    && (f.searchTerm == "" || MatchesSearch(item, Lower(f.searchTerm)))
    && (f.datacenter == "all" || InDatacenter(item, f.datacenter))
    && (f.availability == "all" || AvailabilityPasses(item, f.availability))
    && (f.memory == "all" || MemoryPasses(item, f.memory))
  }

  /** An item the page shows under `f`. */
  function Shown(f: Filters): AvailabilityItem -> bool
  {
    (x: AvailabilityItem) => Passes(x, f)
  }

  /** The four tests the effect applies, each when its selector is on. */
  function SearchTest(f: Filters): AvailabilityItem -> bool
  {
    (x: AvailabilityItem) => MatchesSearch(x, Lower(f.searchTerm))
  }

  function DatacenterTest(f: Filters): AvailabilityItem -> bool
  {
    (x: AvailabilityItem) => InDatacenter(x, f.datacenter)
  }

  function AvailabilityTest(f: Filters): AvailabilityItem -> bool
  {
    (x: AvailabilityItem) => AvailabilityPasses(x, f.availability)
  }

  function MemoryTest(f: Filters): AvailabilityItem -> bool
  {
    (x: AvailabilityItem) => MemoryPasses(x, f.memory)
  }

  /** Applying the four selector tests in turn is one filter by `Passes`. */
  lemma {:induction false} TestsArePasses(items: seq<AvailabilityItem>, f: Filters)
    ensures Filter(items, Both(Both(Both(When(f.searchTerm != "", SearchTest(f)),
                                          When(f.datacenter != "all", DatacenterTest(f))),
                                     When(f.availability != "all", AvailabilityTest(f))),
                                When(f.memory != "all", MemoryTest(f))))
      == Filter(items, Shown(f))
  {
    var p := Both(Both(Both(When(f.searchTerm != "", SearchTest(f)),
                            When(f.datacenter != "all", DatacenterTest(f))),
                       When(f.availability != "all", AvailabilityTest(f))),
                  When(f.memory != "all", MemoryTest(f)));
    forall i | 0 <= i < |items| ensures p(items[i]) == Shown(f)(items[i]) {
      var x := items[i];
      assert p(x) == Passes(x, f);
    }
    FilterExt(items, p, Shown(f));
  }

  /** The four conditional filters in a row keep exactly the items passing
      every selector, in their order and with their repeats. */
  lemma FourFiltersAreShown(items: seq<AvailabilityItem>, f: Filters)
    ensures FilterWhen(FilterWhen(FilterWhen(FilterWhen(items,
              f.searchTerm != "", SearchTest(f)),
              f.datacenter != "all", DatacenterTest(f)),
              f.availability != "all", AvailabilityTest(f)),
              f.memory != "all", MemoryTest(f))
      == Filter(items, Shown(f))
  {
    var p1 := When(f.searchTerm != "", SearchTest(f));
    var p2 := When(f.datacenter != "all", DatacenterTest(f));
    var p3 := When(f.availability != "all", AvailabilityTest(f));
    var p4 := When(f.memory != "all", MemoryTest(f));
    var a := FilterWhen(items, f.searchTerm != "", SearchTest(f));
    var b := FilterWhen(a, f.datacenter != "all", DatacenterTest(f));
    FilterWhenTwice(items, f.searchTerm != "", SearchTest(f), f.datacenter != "all", DatacenterTest(f));
    FilterWhenIs(b, f.availability != "all", AvailabilityTest(f));
    FilterWhenIs(FilterWhen(b, f.availability != "all", AvailabilityTest(f)), f.memory != "all", MemoryTest(f));
    FilterFilter(items, Both(p1, p2), p3);
    FilterFilter(items, Both(Both(p1, p2), p3), p4);
    TestsArePasses(items, f);
  }

  /** The filtering part of the effect: the items passing every selector,
      in their original order. */
  function ApplyFilters(items: seq<AvailabilityItem>, f: Filters): (r: seq<AvailabilityItem>)
    ensures r == Filter(items, Shown(f))
    ensures Subseq(r, items)
    ensures forall x :: x in r <==> x in items && Passes(x, f)
  {
    var a := FilterWhen(items, f.searchTerm != "", SearchTest(f));
    var b := FilterWhen(a, f.datacenter != "all", DatacenterTest(f));
    var c := FilterWhen(b, f.availability != "all", AvailabilityTest(f));
    var d := FilterWhen(c, f.memory != "all", MemoryTest(f));
    FourFiltersAreShown(items, f);
    FilterSubseq(items, Shown(f));
    forall x ensures x in d <==> x in items && Passes(x, f) {
      FilterMembers(items, Shown(f), x);
    }
    d
  }

  // ---------------------------------------------------------------------
  // Sorting
  // ---------------------------------------------------------------------

  datatype SortKey = ByPlanCode | ByMemory | ByAvailability

  /** Memory for sorting: no size counts as 0. */
  function MemOrZero(item: AvailabilityItem): (r: nat)
    ensures MemSize(item.memory).None? ==> r == 0
  {
    match MemSize(item.memory)
    case None => 0
    case Some(size) => size
  }

  function InStockCount(item: AvailabilityItem): (r: nat)
    ensures r <= |item.datacenters|
    ensures r > 0 <==> IsAvailable(item)
  {
    CountPositive(item.datacenters);
    Count(item.datacenters, InStock)
  }

  lemma {:induction false} CountPositive(ds: seq<DcAvailability>)
    ensures Count(ds, InStock) > 0 <==> exists i :: 0 <= i < |ds| && InStock(ds[i])
    decreases |ds|
  {
    if ds != [] {
      CountPositive(ds[1..]);
      if exists i :: 0 <= i < |ds| && InStock(ds[i]) {
        var i :| 0 <= i < |ds| && InStock(ds[i]);
        if i > 0 {
          assert ds[1..][i - 1] == ds[i];
        }
      }
      if exists i :: 0 <= i < |ds[1..]| && InStock(ds[1..][i]) {
        var i :| 0 <= i < |ds[1..]| && InStock(ds[1..][i]);
        assert ds[i + 1] == ds[1..][i];
      }
    }
  }

  /** The comparator of the sort.  `localeCompare` is the parameter
      `planOrder`, any function with its sign conventions. */
  function Compare(a: AvailabilityItem, b: AvailabilityItem, key: SortKey, ascending: bool, planOrder: (string, string) -> int)
    : (r: int)
    ensures key == ByMemory && ascending ==> r == MemOrZero(a) - MemOrZero(b)
    ensures key == ByAvailability && ascending ==> r == InStockCount(a) - InStockCount(b)
  {
    var c := match key
      case ByPlanCode => planOrder(a.planCode, b.planCode)
      case ByMemory => MemOrZero(a) - MemOrZero(b)
      case ByAvailability => InStockCount(a) - InStockCount(b);
    if ascending then c else -c
  }

  /** Descending order is ascending order negated, and the numeric
      comparators are antisymmetric. */
  lemma CompareDescNegatesAsc(a: AvailabilityItem, b: AvailabilityItem, key: SortKey, planOrder: (string, string) -> int)
    ensures Compare(a, b, key, false, planOrder) == -Compare(a, b, key, true, planOrder)
    ensures key != ByPlanCode ==> Compare(a, b, key, true, planOrder) == -Compare(b, a, key, true, planOrder)
  {
  }

  /** The numeric sort key; `Compare` is its difference. */
  function KeyOf(item: AvailabilityItem, key: SortKey, ascending: bool): int
    requires key != ByPlanCode
  {
    var k := if key == ByMemory then MemOrZero(item) else InStockCount(item);
    if ascending then k else -k
  }

  lemma CompareIsKeyDifference(a: AvailabilityItem, b: AvailabilityItem, key: SortKey, ascending: bool, planOrder: (string, string) -> int)
    requires key != ByPlanCode
    ensures Compare(a, b, key, ascending, planOrder) == KeyOf(a, key, ascending) - KeyOf(b, key, ascending)
  {
  }

  predicate SortedBy(s: seq<AvailabilityItem>, key: AvailabilityItem -> int)
  {
    forall i, j :: 0 <= i < j < |s| ==> key(s[i]) <= key(s[j])
  }

  /** Insertion of one item before the first one with a key at least its
      own. */
  function InsertBy(x: AvailabilityItem, s: seq<AvailabilityItem>, key: AvailabilityItem -> int): (r: seq<AvailabilityItem>)
    requires SortedBy(s, key)
    ensures SortedBy(r, key)
    ensures multiset(r) == multiset(s) + multiset{x}
    ensures forall i :: 0 <= i < |r| ==> r[i] == x || r[i] in s
    decreases |s|
  {
    if s == [] then [x]
    else if key(x) <= key(s[0]) then
      InsertFront(x, s, key);
      [x] + s
    else
      var rest := InsertBy(x, s[1..], key);
      InsertAfterHead(x, s, rest, key);
      [s[0]] + rest
  }

  lemma InsertFront(x: AvailabilityItem, s: seq<AvailabilityItem>, key: AvailabilityItem -> int)
    requires SortedBy(s, key) && s != [] && key(x) <= key(s[0])
    ensures SortedBy([x] + s, key)
  {
    var r := [x] + s;
    forall i, j | 0 <= i < j < |r| ensures key(r[i]) <= key(r[j]) {
      if i > 0 {
        assert r[i] == s[i - 1] && r[j] == s[j - 1];
      } else {
        assert r[j] == s[j - 1];
      }
    }
  }

  lemma InsertAfterHead(x: AvailabilityItem, s: seq<AvailabilityItem>, rest: seq<AvailabilityItem>, key: AvailabilityItem -> int)
    requires SortedBy(s, key) && s != [] && key(s[0]) < key(x)
    requires SortedBy(rest, key)
    requires multiset(rest) == multiset(s[1..]) + multiset{x}
    requires forall i :: 0 <= i < |rest| ==> rest[i] == x || rest[i] in s[1..]
    ensures SortedBy([s[0]] + rest, key)
    ensures multiset([s[0]] + rest) == multiset(s) + multiset{x}
    ensures forall i :: 0 <= i < |[s[0]] + rest| ==> ([s[0]] + rest)[i] == x || ([s[0]] + rest)[i] in s
  {
    var r := [s[0]] + rest;
    assert s == [s[0]] + s[1..];
    forall k | 0 <= k < |rest| ensures key(s[0]) <= key(rest[k]) {
      if rest[k] != x {
        var m :| 0 <= m < |s[1..]| && s[1..][m] == rest[k];
        assert s[1..][m] == s[m + 1];
      }
    }
    forall i, j | 0 <= i < j < |r| ensures key(r[i]) <= key(r[j]) {
      assert r[j] == rest[j - 1];
      if i > 0 {
        assert r[i] == rest[i - 1];
      }
    }
  }

  /** The items ordered by a numeric key (memory or stock count). */
  function SortBy(s: seq<AvailabilityItem>, key: AvailabilityItem -> int): (r: seq<AvailabilityItem>)
    ensures SortedBy(r, key)
    ensures multiset(r) == multiset(s)
    decreases |s|
  {
    if s == [] then []
    else
      assert s == [s[0]] + s[1..];
      InsertBy(s[0], SortBy(s[1..], key), key)
  }

  /** The key of the memory sort, descending. */
  function MemoryDescending(item: AvailabilityItem): int
  {
    KeyOf(item, ByMemory, false)
  }

  /** Sorting by memory, descending: largest first, items without a size
      counting as 0. */
  lemma SortByMemoryDescending(s: seq<AvailabilityItem>, i: int, j: int)
    requires 0 <= i < j < |s|
    ensures |SortBy(s, MemoryDescending)| == |s|
    ensures MemOrZero(SortBy(s, MemoryDescending)[i]) >= MemOrZero(SortBy(s, MemoryDescending)[j])
  {
    var r := SortBy(s, MemoryDescending);
    assert |r| == |multiset(r)| == |multiset(s)| == |s|;
    assert MemoryDescending(r[i]) <= MemoryDescending(r[j]);
  }

  // ---------------------------------------------------------------------
  // Summary counts
  // ---------------------------------------------------------------------

  datatype Stats = Stats(total: nat, available: nat, oneHour: nat)

  /** The counts over the shown list. */
  function ComputeStats(shown: seq<AvailabilityItem>): (r: Stats)
    ensures r.total == |shown|
    ensures r.available == |Filter(shown, IsAvailable)|
    ensures r.oneHour == |Filter(shown, WithinHourItem)|
    ensures r.oneHour <= r.available <= r.total
  {
    forall x | WithinHourItem(x) ensures IsAvailable(x) {
      WithinHourIsAvailable(x);
    }
    CountMonotone(shown, WithinHourItem, IsAvailable);
    CountIsFilterLength(shown, IsAvailable);
    CountIsFilterLength(shown, WithinHourItem);
    Stats(|shown|, Count(shown, IsAvailable), Count(shown, WithinHourItem))
  }

  /** Filtering for "available" leaves every shown item counted as
      available. */
  lemma AvailableFilterCountsAll(items: seq<AvailabilityItem>, f: Filters)
    requires f.availability == "available"
    ensures ComputeStats(ApplyFilters(items, f)).available == |ApplyFilters(items, f)|
  {
    var shown := ApplyFilters(items, f);
    CountAll(shown);
  }

  lemma {:induction false} CountAll(s: seq<AvailabilityItem>)
    requires forall x :: x in s ==> IsAvailable(x)
    ensures Count(s, IsAvailable) == |s|
    decreases |s|
  {
    if s != [] {
      CountAll(s[1..]);
    }
  }
}

=== FILE: browser_cache.dfy ===
// The server-list cache the front end keeps in the browser's local storage
// under "ovh-servers-cache": a JSON object holding the server list and the
// time (in ms) it was written.  Local storage and JSON parsing are not
// modelled; a slot records only what the readers of the cache look at.

module BrowserCache {
  import opened Text
  import opened Constants

  /** The stored item as its readers see it: absent (or the empty string),
      not valid JSON, or parsed with an optional numeric `timestamp` and,
      when `data` has a length, that length. */
  datatype CacheSlot =
    | Missing
    | Unparsable
    | Parsed(timestamp: Option<int>, dataLength: Option<nat>)

  /** `saveToCache`: the slot written after fetching `serverCount` plans at
      `nowMs`. */
  function Store(serverCount: nat, nowMs: int): (s: CacheSlot)
    ensures s.Parsed? && s.timestamp == Some(nowMs) && s.dataLength == Some(serverCount)
  {
    Parsed(Some(nowMs), Some(serverCount))
  }

  /** `isCacheExpired` of the servers page: a missing or unreadable cache is
      expired; a readable one is expired once more than two hours have
      passed since its timestamp.  A missing timestamp compares as NaN, so
      such a cache never expires. */
  function IsCacheExpired(slot: CacheSlot, nowMs: int): (r: bool)
    ensures slot.Missing? || slot.Unparsable? ==> r
    ensures slot.Parsed? && slot.timestamp.None? ==> !r
    ensures slot.Parsed? && slot.timestamp.Some? ==> (r <==> nowMs > slot.timestamp.value + CacheExpiryMs)
  {
    match slot
    case Missing => true
    case Unparsable => true
    case Parsed(timestamp, _) =>
      match timestamp
      case None => false
      case Some(t) => nowMs - t > CacheExpiryMs
  }

  /** A freshly stored cache is used for exactly two hours: it is still
      live at the two-hour mark and expired a millisecond later. */
  lemma StoredCacheLifetime(serverCount: nat, savedMs: int)
    ensures !IsCacheExpired(Store(serverCount, savedMs), savedMs)
    ensures !IsCacheExpired(Store(serverCount, savedMs), savedMs + CacheExpiryMs)
    ensures IsCacheExpired(Store(serverCount, savedMs), savedMs + CacheExpiryMs + 1)
  {
  }

  /** Once expired, a cache stays expired as time goes on. */
  lemma ExpiryIsMonotone(slot: CacheSlot, nowMs: int, laterMs: int)
    requires nowMs <= laterMs && IsCacheExpired(slot, nowMs)
    ensures IsCacheExpired(slot, laterMs)
  {
  }
}

=== FILE: cache_manager.dfy ===
// The cache-management panel: the age display shared by the front-end and
// back-end cache rows, and the summary of the browser's server-list cache.
// The clock is a parameter; date rendering is not modelled.

module CacheManager {
  import opened Text
  import opened Constants
  import opened BrowserCache

  /** JavaScript's `%`: the remainder takes the sign of the dividend. */
  function JsRem(a: int, d: int): (r: int)
    requires d > 0
    ensures a >= 0 ==> 0 <= r < d && r == a % d
    ensures a < 0 ==> -d < r <= 0
    ensures a == d * TruncDiv(a, d) + r
  {
    if a >= 0 then a % d
    else
      var k := (-a) / d;
      assert -a == d * k + (-a) % d;
      assert d * -k == -(d * k);
      -((-a) % d)
  }

  /** Division rounding toward zero, the quotient JavaScript's `%` leaves
      a remainder from. */
  function TruncDiv(a: int, d: int): int
    requires d > 0
  {
    if a >= 0 then a / d else -((-a) / d)
  }

  /** An age as the page holds it: `null` (no cache), `NaN` (a cache
      without a timestamp) or a whole number of seconds. */
  datatype Age = NoAge | NotANumber | Seconds(value: int)

  /** `formatCacheAge`: `null` shows "no cache"; otherwise whole hours and
      minutes, whole minutes, or "just now".  `Math.floor` of a quotient by
      a positive divisor is Dafny's `/`.  `NaN` passes neither `> 0` test
      and shows "just now". */
  function FormatCacheAge(ageSeconds: Age): (r: string)
    ensures ageSeconds.NoAge? ==> r == "无缓存"
    ensures ageSeconds.NotANumber? ==> r == "刚刚"
    ensures ageSeconds.Seconds? && ageSeconds.value >= 3600 ==>
      r == NatToString(ageSeconds.value / 3600) + "小时" + NatToString((ageSeconds.value % 3600) / 60) + "分钟前"
    ensures ageSeconds.Seconds? && 60 <= ageSeconds.value < 3600 ==>
      r == NatToString(ageSeconds.value / 60) + "分钟前"
    ensures ageSeconds.Seconds? && ageSeconds.value < 60 ==> r == "刚刚"
  {
    match ageSeconds
    case NoAge => "无缓存"
    case NotANumber => "刚刚"
    case Seconds(age) =>
      var hours := age / 3600;
      var minutes := JsRem(age, 3600) / 60;
      if hours > 0 then IntToString(hours) + "小时" + IntToString(minutes) + "分钟前"
      else if minutes > 0 then IntToString(minutes) + "分钟前"
      else "刚刚"
  }

  /** The minute count of an age splits into whole hours and the minutes
      left over. */
  lemma MinuteOfAge(a: nat)
    ensures a / 60 == (a / 3600) * 60 + (a % 3600) / 60
    ensures (a % 3600) / 60 < 60
  {
    var q := a / 3600;
    var m := (a % 3600) / 60;
    var s := (a % 3600) % 60;
    assert a == 3600 * q + 60 * m + s;
    assert a == 60 * (60 * q + m) + s && 0 <= s < 60;
  }

  /** Ages within the same whole minute show the same text. */
  lemma SameMinuteSameText(a: nat, b: nat)
    requires a / 60 == b / 60
    ensures FormatCacheAge(Seconds(a)) == FormatCacheAge(Seconds(b))
  {
    HoursOfMinutes(a);
    HoursOfMinutes(b);
  }

  /** Hours and left-over minutes are functions of the whole minutes. */
  lemma HoursOfMinutes(a: nat)
    ensures a / 3600 == (a / 60) / 60 && (a % 3600) / 60 == (a / 60) % 60
  {
    MinuteOfAge(a);
  }

  /** From a minute on, the text pins the age down to the minute: two ages
      that show the same text fall in the same whole minute. */
  lemma SameTextSameMinute(a: nat, b: nat)
    requires a >= 60 && b >= 60
    requires FormatCacheAge(Seconds(a)) == FormatCacheAge(Seconds(b))
    ensures a / 60 == b / 60
  {
    MinuteOfAge(a);
    MinuteOfAge(b);
    if a >= 3600 && b >= 3600 {
      HoursText(a, b);
    } else if a >= 3600 {
      HoursNotMinutes(a, b);
    } else if b >= 3600 {
      HoursNotMinutes(b, a);
    } else {
      SuffixCancel(NatToString(a / 60), NatToString(b / 60), "分钟前");
      NatToStringInjective(a / 60, b / 60);
    }
  }

  lemma HoursText(a: nat, b: nat)
    requires a >= 3600 && b >= 3600
    requires FormatCacheAge(Seconds(a)) == FormatCacheAge(Seconds(b))
    ensures a / 3600 == b / 3600 && (a % 3600) / 60 == (b % 3600) / 60
  {
    var x := "小时" + NatToString((a % 3600) / 60) + "分钟前";
    var y := "小时" + NatToString((b % 3600) / 60) + "分钟前";
    assert FormatCacheAge(Seconds(a)) == NatToString(a / 3600) + x;
    assert FormatCacheAge(Seconds(b)) == NatToString(b / 3600) + y;
    DigitPrefixSplit(NatToString(a / 3600), x, NatToString(b / 3600), y);
    NatToStringInjective(a / 3600, b / 3600);
    assert x[2..] == NatToString((a % 3600) / 60) + "分钟前";
    assert y[2..] == NatToString((b % 3600) / 60) + "分钟前";
    SuffixCancel(NatToString((a % 3600) / 60), NatToString((b % 3600) / 60), "分钟前");
    NatToStringInjective((a % 3600) / 60, (b % 3600) / 60);
  }

  lemma HoursNotMinutes(a: nat, b: nat)
    requires a >= 3600 && 60 <= b < 3600
    ensures FormatCacheAge(Seconds(a)) != FormatCacheAge(Seconds(b))
  {
    var x := "小时" + NatToString((a % 3600) / 60) + "分钟前";
    assert FormatCacheAge(Seconds(a)) == NatToString(a / 3600) + x;
    if FormatCacheAge(Seconds(a)) == FormatCacheAge(Seconds(b)) {
      DigitPrefixSplit(NatToString(a / 3600), x, NatToString(b / 60), "分钟前");
    }
  }

  /** What the panel shows about the browser cache. */
  datatype FrontendInfo = FrontendInfo(serverCount: nat, ageSeconds: Age, timestamp: Option<int>)

  /** `getFrontendCacheInfo`: None for a missing or unreadable cache;
      otherwise the length of the cached list (0 without one) and the age in
      whole seconds, rounded down.  A missing timestamp gives NaN, never
      `null`, so a readable cache never shows "no cache". */
  function FrontendCacheInfo(slot: CacheSlot, nowMs: int): (r: Option<FrontendInfo>)
    ensures r.None? <==> slot.Missing? || slot.Unparsable?
    ensures r.Some? ==> r.value.timestamp == slot.timestamp
    ensures r.Some? ==> r.value.serverCount == (if slot.dataLength.Some? then slot.dataLength.value else 0)
    ensures r.Some? ==> (r.value.ageSeconds.Seconds? <==> slot.timestamp.Some?)
    ensures r.Some? && slot.timestamp.None? ==> r.value.ageSeconds == NotANumber
    ensures r.Some? && slot.timestamp.Some? ==>
      r.value.ageSeconds.value * 1000 <= nowMs - slot.timestamp.value < (r.value.ageSeconds.value + 1) * 1000
  {
    match slot
    case Missing => None
    case Unparsable => None
    case Parsed(timestamp, dataLength) =>
      var count := if dataLength.Some? then dataLength.value else 0;
      var age := if timestamp.Some? then Seconds((nowMs - timestamp.value) / 1000) else NotANumber;
      Some(FrontendInfo(count, age, timestamp))
  }

  /** The panel and the servers page agree on staleness: an age shown as
      more than two hours means the servers page refetches, and a cache the
      servers page treats as expired shows at least two hours. */
  lemma AgeAgreesWithExpiry(slot: CacheSlot, nowMs: int)
    requires FrontendCacheInfo(slot, nowMs).Some?
    requires FrontendCacheInfo(slot, nowMs).value.ageSeconds.Seconds?
    ensures FrontendCacheInfo(slot, nowMs).value.ageSeconds.value > CacheExpiryMs / 1000 ==> IsCacheExpired(slot, nowMs)
    ensures IsCacheExpired(slot, nowMs) ==> FrontendCacheInfo(slot, nowMs).value.ageSeconds.value >= CacheExpiryMs / 1000
  {
  }

  /** Right after a save the panel shows the saved count and an age of
      `elapsed` seconds, rounded down. */
  lemma InfoAfterStore(serverCount: nat, savedMs: int, elapsedMs: nat)
    ensures FrontendCacheInfo(Store(serverCount, savedMs), savedMs + elapsedMs)
      == Some(FrontendInfo(serverCount, Seconds(elapsedMs / 1000), Some(savedMs)))
  {
  }
}

=== FILE: config_sniper.dfy ===
// Config sniper: a task binds a memory/storage configuration seen on one
// plan and watches the OVH catalogue for plans (possibly new ones) offering
// the same configuration; when such a plan is in stock somewhere it queues
// purchases for it. The catalogue, the availability listings and the
// client's presence are parameters.

module ConfigSniper {
  import opened Text
  import opened Standardize
  import opened PurchaseQueue
  import opened Purchase

  /** Catalogue data: a plan's add-on families and their add-on codes. */
  datatype AddonFamily = AddonFamily(name: string, addons: seq<string>)
  datatype CatalogPlan = CatalogPlan(planCode: string, families: seq<AddonFamily>)

  /** The standardized (memory, storage) pair of a bound configuration. */
  datatype Fingerprint = Fingerprint(memory: string, storage: string)

  function FingerprintOf(memory: string, storage: string): Fingerprint
  {
    Fingerprint(StandardizeConfig(memory), StandardizeConfig(storage))
  }

  /** All add-ons of the families whose lower-cased name is `family`, in order. */
  function FamilyAddons(fams: seq<AddonFamily>, family: string): (r: seq<string>)
    ensures forall a :: a in r <==> exists k :: 0 <= k < |fams| && Lower(fams[k].name) == family && a in fams[k].addons
  {
    if fams == [] then []
    else (if Lower(fams[0].name) == family then fams[0].addons else []) + FamilyAddons(fams[1..], family)
  }

  /** The add-ons of a family whose standard form equals that of `target`:
      `memory_options` / `storage_options`. */
  function Candidates(fams: seq<AddonFamily>, family: string, target: string): (r: seq<string>)
    ensures forall i :: 0 <= i < |r| ==> StandardizeConfig(r[i]) == StandardizeConfig(target)
    ensures forall a :: a in FamilyAddons(fams, family) && StandardizeConfig(a) == StandardizeConfig(target) ==> a in r
  {
    Filter(FamilyAddons(fams, family), (a: string) => StandardizeConfig(a) == StandardizeConfig(target))
  }

  /** The plan test of `find_matching_api2_plans`: candidates are taken
      against the standard form of the fingerprint, and a candidate pair
      must then standardize to the fingerprint itself. */
  predicate PlanMatches(plan: CatalogPlan, fp: Fingerprint)
  {
    var mem := Candidates(plan.families, "memory", fp.memory);
    var sto := Candidates(plan.families, "storage", fp.storage);
    |mem| > 0 && |sto| > 0
    && exists i, j :: 0 <= i < |mem| && 0 <= j < |sto|
         && StandardizeConfig(mem[i]) == fp.memory && StandardizeConfig(sto[j]) == fp.storage
  }

  predicate Offers(plan: CatalogPlan, family: string, std: string)
  {
    exists a :: a in FamilyAddons(plan.families, family) && StandardizeConfig(a) == std
  }

  /** A plan matches exactly when the fingerprint is left unchanged by a
      second standardization and the plan offers a memory and a storage
      add-on with those standard forms. Fingerprints built by task creation
      are standardized once already, so a fingerprint that standardization
      would change further never matches any plan. */
  lemma PlanMatchesIff(plan: CatalogPlan, fp: Fingerprint)
    ensures PlanMatches(plan, fp) <==>
      StandardizeConfig(fp.memory) == fp.memory && StandardizeConfig(fp.storage) == fp.storage
      && Offers(plan, "memory", fp.memory) && Offers(plan, "storage", fp.storage)
  {
    var mem := Candidates(plan.families, "memory", fp.memory);
    var sto := Candidates(plan.families, "storage", fp.storage);
    var p := (a: string) => StandardizeConfig(a) == StandardizeConfig(fp.memory);
    var q := (a: string) => StandardizeConfig(a) == StandardizeConfig(fp.storage);
    if PlanMatches(plan, fp) {
      var i, j :| 0 <= i < |mem| && 0 <= j < |sto|
         && StandardizeConfig(mem[i]) == fp.memory && StandardizeConfig(sto[j]) == fp.storage;
      assert mem[i] in FamilyAddons(plan.families, "memory");
      assert sto[j] in FamilyAddons(plan.families, "storage");
    }
    if StandardizeConfig(fp.memory) == fp.memory && StandardizeConfig(fp.storage) == fp.storage
      && Offers(plan, "memory", fp.memory) && Offers(plan, "storage", fp.storage)
    {
      var a :| a in FamilyAddons(plan.families, "memory") && StandardizeConfig(a) == fp.memory;
      var b :| b in FamilyAddons(plan.families, "storage") && StandardizeConfig(b) == fp.storage;
      var ka :| 0 <= ka < |FamilyAddons(plan.families, "memory")| && FamilyAddons(plan.families, "memory")[ka] == a;
      var kb :| 0 <= kb < |FamilyAddons(plan.families, "storage")| && FamilyAddons(plan.families, "storage")[kb] == b;
      assert p(FamilyAddons(plan.families, "memory")[ka]);
      assert q(FamilyAddons(plan.families, "storage")[kb]);
      var i :| 0 <= i < |mem| && mem[i] == a;
      var j :| 0 <= j < |sto| && sto[j] == b;
    }
  }

  /** The plan codes of the plans passing `matches`, in catalogue order,
      each once: the `matched_plancodes` accumulation. */
  function CollectMatches(plans: seq<CatalogPlan>, matches: CatalogPlan -> bool): (r: seq<string>)
    ensures NoDup(r)
    ensures forall x :: x in r <==> exists i :: 0 <= i < |plans| && plans[i].planCode == x && matches(plans[i])
    decreases |plans|
  {
    if plans == [] then []
    else
      var init := plans[..|plans| - 1];
      var last := plans[|plans| - 1];
      var acc := CollectMatches(init, matches);
      assert forall i :: 0 <= i < |init| ==> init[i] == plans[i];
      if matches(last) && last.planCode !in acc then acc + [last.planCode] else acc
  }

  /** `find_matching_api2_plans`: `None` stands for a missing client or a
      failed catalogue fetch, both of which give the empty list. */
  function FindMatchingPlans(catalog: Option<seq<CatalogPlan>>, fp: Fingerprint): (r: seq<string>)
    ensures catalog.None? ==> r == []
    ensures NoDup(r)
    ensures catalog.Some? ==> forall x :: x in r <==>
      exists i :: 0 <= i < |catalog.value| && catalog.value[i].planCode == x && PlanMatches(catalog.value[i], fp)
  {
    if catalog.None? then [] else CollectMatches(catalog.value, (p: CatalogPlan) => PlanMatches(p, fp))
  }

  // ---------------------------------------------------------------------
  // Tasks
  // ---------------------------------------------------------------------

  datatype MatchStatus = PendingMatch | Matched | MatchCompleted

  /** A sniper task; the bound configuration is kept raw. */
  datatype Task = Task(
    id: string,
    api1PlanCode: string,
    memory: string,
    storage: string,
    matchStatus: MatchStatus,
    matchedApi2: seq<string>,
    knownPlanCodes: seq<string>,
    enabled: bool,
    lastCheck: Option<string>,
    createdAt: string)

  datatype Created = Created(task: Task) | CreateError(message: string)

  /** `create_config_sniper_task`. `bound` is the `bound_config` object, absent
      as `None`; an empty object counts as missing, and a missing `memory` or
      `storage` key fails. Any `mode` other than "pending_match" means
      "matched". */
  function CreateTask(api1: Option<string>, bound: Option<map<string, string>>, mode: Option<string>,
                      catalog: Option<seq<CatalogPlan>>, newId: string, now: string): (r: Created)
    ensures r.Created? <==> api1.Some? && api1.value != "" && bound.Some? && bound.value != map[]
                            && "memory" in bound.value && "storage" in bound.value
    ensures r.Created? ==> r.task.enabled && r.task.lastCheck.None? && r.task.id == newId
    ensures r.Created? && mode == Some("pending_match") ==>
      r.task.matchStatus == PendingMatch && r.task.matchedApi2 == []
      && r.task.knownPlanCodes == FindMatchingPlans(catalog, FingerprintOf(bound.value["memory"], bound.value["storage"]))
    ensures r.Created? && mode != Some("pending_match") ==>
      r.task.knownPlanCodes == []
      && r.task.matchedApi2 == FindMatchingPlans(catalog, FingerprintOf(bound.value["memory"], bound.value["storage"]))
      && (r.task.matchStatus == Matched <==> r.task.matchedApi2 != [])
      && (r.task.matchStatus == PendingMatch <==> r.task.matchedApi2 == [])
  {
    if api1.None? || api1.value == "" || bound.None? || bound.value == map[] then CreateError("missing parameters")
    else if "memory" !in bound.value || "storage" !in bound.value then CreateError("missing configuration key")
    else
      var b := bound.value;
      var current := FindMatchingPlans(catalog, FingerprintOf(b["memory"], b["storage"]));
      if mode == Some("pending_match") then
        Created(Task(newId, api1.value, b["memory"], b["storage"], PendingMatch, [], current, true, None, now))
      else
        Created(Task(newId, api1.value, b["memory"], b["storage"], if |current| > 0 then Matched else PendingMatch,
                     current, [], true, None, now))
  }

  function FindTask(tasks: seq<Task>, id: string): (r: Option<nat>)
    ensures r.None? <==> forall j :: 0 <= j < |tasks| ==> tasks[j].id != id
    ensures r.Some? ==> r.value < |tasks| && tasks[r.value].id == id
    ensures r.Some? ==> forall j :: 0 <= j < r.value ==> tasks[j].id != id
  {
    if tasks == [] then None
    else if tasks[0].id == id then Some(0)
    else match FindTask(tasks[1..], id)
      case None => None
      case Some(k) => Some(k + 1)
  }

  /** `toggle_config_sniper_task`: flips the first matching task's flag;
      `None` when no task has the id. */
  function ToggleTask(tasks: seq<Task>, id: string): (r: Option<seq<Task>>)
    ensures r.None? <==> FindTask(tasks, id).None?
    ensures r.Some? ==> |r.value| == |tasks|
    ensures r.Some? ==> var k := FindTask(tasks, id).value;
      r.value[k] == tasks[k].(enabled := !tasks[k].enabled)
      && forall j :: 0 <= j < |tasks| && j != k ==> r.value[j] == tasks[j]
  {
    match FindTask(tasks, id)
    case None => None
    case Some(k) => Some(tasks[k := tasks[k].(enabled := !tasks[k].enabled)])
  }

  /** Toggling twice restores the task list. */
  lemma ToggleTwice(tasks: seq<Task>, id: string)
    requires FindTask(tasks, id).Some?
    ensures ToggleTask(ToggleTask(tasks, id).value, id) == Some(tasks)
  {
    var k := FindTask(tasks, id).value;
    var once := ToggleTask(tasks, id).value;
    assert forall j :: 0 <= j < |tasks| ==> once[j].id == tasks[j].id;
    var k2 := FindTask(once, id).value;
    assert k2 == k;
    var twice := ToggleTask(once, id).value;
    assert twice[k] == tasks[k];
    assert twice == tasks;
  }

  /** `delete_config_sniper_task`: removes the first task with the id. */
  function DeleteTask(tasks: seq<Task>, id: string): (r: Option<seq<Task>>)
    ensures r.None? <==> FindTask(tasks, id).None?
    ensures r.Some? ==> var k := FindTask(tasks, id).value;
      r.value == tasks[..k] + tasks[k + 1..]
  {
    match FindTask(tasks, id)
    case None => None
    case Some(k) => Some(tasks[..k] + tasks[k + 1..])
  }

  // ---------------------------------------------------------------------
  // Queueing matched plans
  // ---------------------------------------------------------------------

  /** `x` is the first add-on of `addons` whose normal form under `norm`
      is `std`. */
  predicate FirstWith(addons: seq<string>, norm: string -> string, std: string, x: string)
  {
    exists k :: 0 <= k < |addons| && addons[k] == x && norm(x) == std
      && forall j :: 0 <= j < k ==> norm(addons[j]) != std
  }

  /** What the scan of one family's add-ons contributes: the first add-on
      with normal form `std` (the loop breaks there), or nothing when no
      add-on has it. */
  predicate PickOf(addons: seq<string>, norm: string -> string, std: string, r: seq<string>)
  {
    if exists i :: 0 <= i < |addons| && norm(addons[i]) == std then |r| == 1 && FirstWith(addons, norm, std, r[0])
    else r == []
  }

  /** The first add-on whose normal form under `norm` is `std`, if any.
      `norm` is the configuration standardiser; it is a parameter here so
      that the selection logic is stated independently of its definition. */
  function FirstWithStandard(addons: seq<string>, norm: string -> string, std: string): (r: seq<string>)
    ensures |r| <= 1
    ensures |r| == 1 ==> r[0] in addons && norm(r[0]) == std
    ensures |r| == 1 ==> FirstWith(addons, norm, std, r[0])
    ensures |r| == 0 <==> forall i :: 0 <= i < |addons| ==> norm(addons[i]) != std
  {
    if addons == [] then []
    else if norm(addons[0]) == std then
      assert addons[0] == addons[0];
      [addons[0]]
    else
      var r := FirstWithStandard(addons[1..], norm, std);
      assert forall i :: 1 <= i < |addons| ==> addons[i] == addons[1..][i - 1];
      if |r| == 1 then FirstWithSkip(addons, norm, std, r[0]); r else r
  }

  /** A first match after a non-matching head is a first match of the whole. */
  lemma FirstWithSkip(addons: seq<string>, norm: string -> string, std: string, x: string)
    requires addons != [] && norm(addons[0]) != std && FirstWith(addons[1..], norm, std, x)
    ensures FirstWith(addons, norm, std, x)
  {
    var k :| 0 <= k < |addons[1..]| && addons[1..][k] == x && norm(x) == std
      && forall j :: 0 <= j < k ==> norm(addons[1..][j]) != std;
    assert addons[k + 1] == x;
    forall j | 0 < j < k + 1 ensures norm(addons[j]) != std {
      assert addons[j] == addons[1..][j - 1];
    }
  }

  /** The scan's contribution is determined: two results meeting `PickOf`
      are equal. */
  lemma PickOfUnique(addons: seq<string>, norm: string -> string, std: string, r1: seq<string>, r2: seq<string>)
    requires PickOf(addons, norm, std, r1) && PickOf(addons, norm, std, r2)
    ensures r1 == r2
  {
    if exists i :: 0 <= i < |addons| && norm(addons[i]) == std {
      var k1 :| 0 <= k1 < |addons| && addons[k1] == r1[0] && norm(r1[0]) == std
        && forall j :: 0 <= j < k1 ==> norm(addons[j]) != std;
      var k2 :| 0 <= k2 < |addons| && addons[k2] == r2[0] && norm(r2[0]) == std
        && forall j :: 0 <= j < k2 ==> norm(addons[j]) != std;
      assert k1 == k2;
      assert r1 == [r1[0]] && r2 == [r2[0]];
    }
  }

  /** The add-on one family contributes: for a "memory" (or "storage")
      family, the first add-on with the bound memory's (storage's) normal
      form; nothing for any other family. */
  function FamilyPick(f: AddonFamily, norm: string -> string, memoryStd: string, storageStd: string): (r: seq<string>)
    ensures |r| <= 1
    ensures Lower(f.name) == "memory" ==> PickOf(f.addons, norm, memoryStd, r)
    ensures Lower(f.name) == "storage" ==> PickOf(f.addons, norm, storageStd, r)
    ensures Lower(f.name) != "memory" && Lower(f.name) != "storage" ==> r == []
    ensures |r| == 1 ==> r[0] in f.addons
  {
    var name := Lower(f.name);
    if name == "memory" then FirstWithStandard(f.addons, norm, memoryStd)
    else if name == "storage" then FirstWithStandard(f.addons, norm, storageStd)
    else []
  }

  /** The pick of each family, family by family. */
  function Picks(fams: seq<AddonFamily>, norm: string -> string, memoryStd: string, storageStd: string)
    : (r: seq<seq<string>>)
    ensures |r| == |fams|
    ensures forall k :: 0 <= k < |fams| ==> r[k] == FamilyPick(fams[k], norm, memoryStd, storageStd)
  {
    seq(|fams|, k requires 0 <= k < |fams| => FamilyPick(fams[k], norm, memoryStd, storageStd))
  }

  /** The picks of all families of one plan, in family order: the pick of
      family `k` comes right after the picks of the families before it, and
      every pick has the bound memory's or storage's normal form. */
  function FirstCandidates(fams: seq<AddonFamily>, norm: string -> string, memoryStd: string, storageStd: string): (r: seq<string>)
    ensures forall k :: 0 <= k < |fams| ==>
      r == Concat(Picks(fams, norm, memoryStd, storageStd)[..k]) + FamilyPick(fams[k], norm, memoryStd, storageStd)
             + Concat(Picks(fams, norm, memoryStd, storageStd)[k + 1..])
    ensures forall x :: x in r ==> norm(x) == memoryStd || norm(x) == storageStd
  {
    var ps := Picks(fams, norm, memoryStd, storageStd);
    var r := Concat(ps);
    forall k | 0 <= k < |fams| ensures r == Concat(ps[..k]) + FamilyPick(fams[k], norm, memoryStd, storageStd) + Concat(ps[k + 1..]) {
      ConcatAt(ps, k);
    }
    forall x | x in r ensures norm(x) == memoryStd || norm(x) == storageStd {
      var k :| 0 <= k < |ps| && x in ps[k];
      FamilyPickNorm(fams[k], norm, memoryStd, storageStd);
    }
    r
  }

  lemma FamilyPickNorm(f: AddonFamily, norm: string -> string, memoryStd: string, storageStd: string)
    ensures forall x :: x in FamilyPick(f, norm, memoryStd, storageStd) ==> norm(x) == memoryStd || norm(x) == storageStd
  {
    var r := FamilyPick(f, norm, memoryStd, storageStd);
    if |r| == 1 {
      assert forall x :: x in r ==> x == r[0];
    }
  }

  /** The hardware options put on a queued item: the picks of the first
      catalogue plan with the plan code, or none when no plan has it (also
      when the catalogue fetch failed). */
  function HardwareOptions(catalog: Option<seq<CatalogPlan>>, planCode: string, memory: string, storage: string)
    : (r: seq<string>)
    ensures catalog.None? ==> r == []
    ensures catalog.Some? && (forall i :: 0 <= i < |catalog.value| ==> catalog.value[i].planCode != planCode) ==> r == []
    ensures catalog.Some? ==> forall k :: IsFirstPlan(catalog.value, planCode, k) ==>
      r == FirstCandidates(catalog.value[k].families, StandardizeConfig, StandardizeConfig(memory), StandardizeConfig(storage))
  {
    if catalog.None? then []
    else
      var plans := catalog.value;
      if exists i :: 0 <= i < |plans| && plans[i].planCode == planCode then
        var i := FirstPlan(plans, planCode);
        FirstPlanUnique(plans, planCode, i);
        FirstCandidates(plans[i].families, StandardizeConfig, StandardizeConfig(memory), StandardizeConfig(storage))
      else []
  }

  /** Only one index is the first with a plan code. */
  lemma FirstPlanUnique(plans: seq<CatalogPlan>, planCode: string, i: nat)
    requires i < |plans| && plans[i].planCode == planCode
    requires forall j :: 0 <= j < i ==> plans[j].planCode != planCode
    ensures forall k :: IsFirstPlan(plans, planCode, k) ==> k == i
  {
  }

  /** Plan `k` is the first of `plans` with the plan code. */
  predicate IsFirstPlan(plans: seq<CatalogPlan>, planCode: string, k: int)
  {
    0 <= k < |plans| && plans[k].planCode == planCode
    && forall j :: 0 <= j < k ==> plans[j].planCode != planCode
  }

  function FirstPlan(plans: seq<CatalogPlan>, planCode: string): (i: nat)
    requires exists i :: 0 <= i < |plans| && plans[i].planCode == planCode
    ensures i < |plans| && plans[i].planCode == planCode
    ensures forall j :: 0 <= j < i ==> plans[j].planCode != planCode
  {
    if plans[0].planCode == planCode then 0
    else
      assert exists i :: 0 <= i < |plans[1..]| && plans[1..][i].planCode == planCode by {
        var i :| 0 <= i < |plans| && plans[i].planCode == planCode;
        assert plans[1..][i - 1] == plans[i];
      }
      1 + FirstPlan(plans[1..], planCode)
  }

  /** The dedup key of a sniper's queue item. */
  predicate SameKey(it: QueueItem, planCode: string, dc: string, taskId: string)
  {
    it.planCode == planCode && it.datacenter == dc && it.configSniperTaskId == Some(taskId)
  }

  predicate Queued(q: seq<QueueItem>, planCode: string, dc: string, taskId: string)
  {
    exists i :: 0 <= i < |q| && SameKey(q[i], planCode, dc, taskId)
  }

  /** No two items of a sniper task share plan code and datacenter. */
  predicate KeysUnique(q: seq<QueueItem>)
  {
    forall i, j :: 0 <= i < j < |q| && q[i].configSniperTaskId.Some? ==>
      !SameKey(q[j], q[i].planCode, q[i].datacenter, q[i].configSniperTaskId.value)
  }

  /** The item queued for an in-stock datacenter. */
  function SniperItem(id: string, planCode: string, dc: string, options: seq<string>, taskId: string, now: string)
    : QueueItem
  {
    QueueItem(id, planCode, dc, options, Running, now, now, 30, 0, 0, Some(taskId))
  }

  /** The datacenter name a listing entry is queued under ("" when the
      entry has none). */
  function DcName(d: DcInfo): string { GetOr(d.datacenter, "") }

  /** `dc` is the name of an in-stock entry of the listing. */
  predicate ListedInStock(dcs: seq<DcInfo>, dc: string)
  {
    exists k :: 0 <= k < |dcs| && InStock(dcs[k].availability) && DcName(dcs[k]) == dc
  }

  /** Some in-stock entry of the listing has no item of this task and plan
      code in `q`. */
  predicate SomeMissing(q: seq<QueueItem>, dcs: seq<DcInfo>, planCode: string, taskId: string)
  {
    exists k :: 0 <= k < |dcs| && InStock(dcs[k].availability) && !Queued(q, planCode, DcName(dcs[k]), taskId)
  }

  /** Every in-stock entry of the listing has an item of this task and plan
      code in `q`. */
  predicate Covers(q: seq<QueueItem>, dcs: seq<DcInfo>, planCode: string, taskId: string)
  {
    forall k :: 0 <= k < |dcs| && InStock(dcs[k].availability) ==> Queued(q, planCode, DcName(dcs[k]), taskId)
  }

  /** An item the sniper adds to queue `q`: running, never retried, never
      checked, retried every 30 seconds, carrying the hardware options, for
      an in-stock datacenter of the listing that had no item yet. */
  predicate Fresh(it: QueueItem, q: seq<QueueItem>, dcs: seq<DcInfo>, planCode: string, taskId: string,
                  options: seq<string>)
  {
    it.planCode == planCode && it.configSniperTaskId == Some(taskId) && it.status == Running
    && it.retryCount == 0 && it.lastCheckTime == 0 && it.retryInterval == 30 && it.options == options
    && ListedInStock(dcs, it.datacenter) && !Queued(q, planCode, it.datacenter, taskId)
  }

  /** An item queued under a key stays queued when the queue grows at the
      end. */
  lemma QueuedExtends(q: seq<QueueItem>, r: seq<QueueItem>, planCode: string, dc: string, taskId: string)
    requires |q| <= |r| && r[..|q|] == q && Queued(q, planCode, dc, taskId)
    ensures Queued(r, planCode, dc, taskId)
  {
    var i :| 0 <= i < |q| && SameKey(q[i], planCode, dc, taskId);
    assert r[i] == q[i];
  }

  lemma CoversExtends(q: seq<QueueItem>, r: seq<QueueItem>, dcs: seq<DcInfo>, planCode: string, taskId: string)
    requires |q| <= |r| && r[..|q|] == q && Covers(q, dcs, planCode, taskId)
    ensures Covers(r, dcs, planCode, taskId)
  {
    forall k | 0 <= k < |dcs| && InStock(dcs[k].availability) ensures Queued(r, planCode, DcName(dcs[k]), taskId) {
      QueuedExtends(q, r, planCode, DcName(dcs[k]), taskId);
    }
  }

  /** Freshness against a longer queue implies freshness against its
      prefix, and against a longer listing. */
  lemma FreshWiden(it: QueueItem, q: seq<QueueItem>, q1: seq<QueueItem>, dcs: seq<DcInfo>, drop: nat,
                   planCode: string, taskId: string, options: seq<string>)
    requires |q| <= |q1| && q1[..|q|] == q && drop <= |dcs|
    requires Fresh(it, q1, dcs[drop..], planCode, taskId, options)
    ensures Fresh(it, q, dcs, planCode, taskId, options)
  {
    if Queued(q, planCode, it.datacenter, taskId) {
      QueuedExtends(q, q1, planCode, it.datacenter, taskId);
    }
    var k :| 0 <= k < |dcs[drop..]| && InStock(dcs[drop..][k].availability) && DcName(dcs[drop..][k]) == it.datacenter;
    assert dcs[drop + k] == dcs[drop..][k];
  }

  /** With every added item fresh and the listing covered, the queue grew
      exactly when some in-stock datacenter was missing. */
  lemma GrewIffMissing(q: seq<QueueItem>, r: seq<QueueItem>, dcs: seq<DcInfo>, planCode: string, taskId: string,
                       options: seq<string>)
    requires |q| <= |r| && r[..|q|] == q
    requires forall i :: |q| <= i < |r| ==> Fresh(r[i], q, dcs, planCode, taskId, options)
    requires Covers(r, dcs, planCode, taskId)
    ensures |r| > |q| <==> SomeMissing(q, dcs, planCode, taskId)
  {
    if |r| > |q| {
      assert Fresh(r[|q|], q, dcs, planCode, taskId, options);
      var k :| 0 <= k < |dcs| && InStock(dcs[k].availability) && DcName(dcs[k]) == r[|q|].datacenter;
      assert !Queued(q, planCode, DcName(dcs[k]), taskId);
    }
    if SomeMissing(q, dcs, planCode, taskId) {
      var k :| 0 <= k < |dcs| && InStock(dcs[k].availability) && !Queued(q, planCode, DcName(dcs[k]), taskId);
      var i :| 0 <= i < |r| && SameKey(r[i], planCode, DcName(dcs[k]), taskId);
    }
  }

  /** The loop of `check_and_queue_plancode` over the flattened listing: each
      in-stock datacenter not already queued for this task and plan gets a
      new item. `nextId(k)` is the id of the k-th item this call adds; a
      listing entry without a datacenter name is queued under "". */
  function QueueInStock(dcs: seq<DcInfo>, planCode: string, taskId: string, options: seq<string>,
                        q: seq<QueueItem>, nextId: nat -> string, added: nat, now: string)
    : (r: (seq<QueueItem>, nat))
    ensures |r.0| == |q| + (r.1 - added) && r.1 >= added && r.0[..|q|] == q
    ensures forall i :: |q| <= i < |r.0| ==> Fresh(r.0[i], q, dcs, planCode, taskId, options)
    decreases |dcs|
  {
    if dcs == [] then (q, added)
    else
      var d := dcs[0];
      var dc := DcName(d);
      if !InStock(d.availability) || Queued(q, planCode, dc, taskId) then
        var r := QueueInStock(dcs[1..], planCode, taskId, options, q, nextId, added, now);
        FreshLift(r.0, q, q, dcs, planCode, taskId, options);
        r
      else
        var q1 := q + [SniperItem(nextId(added), planCode, dc, options, taskId, now)];
        var r := QueueInStock(dcs[1..], planCode, taskId, options, q1, nextId, added + 1, now);
        assert r.0[..|q|] == r.0[..|q1|][..|q|];
        assert ListedInStock(dcs, dc) by { assert DcName(dcs[0]) == dc; }
        FreshLift(r.0, q, q1, dcs, planCode, taskId, options);
        r
  }

  /** The step of `QueueInStock`: items fresh against the longer queue and
      the rest of the listing are fresh against the original ones. */
  lemma FreshLift(r: seq<QueueItem>, q: seq<QueueItem>, q1: seq<QueueItem>, dcs: seq<DcInfo>,
                  planCode: string, taskId: string, options: seq<string>)
    requires dcs != [] && |q| <= |q1| <= |r| && r[..|q1|] == q1 && q1[..|q|] == q
    requires forall i :: |q| <= i < |q1| ==> Fresh(q1[i], q, dcs, planCode, taskId, options)
    requires forall i :: |q1| <= i < |r| ==> Fresh(r[i], q1, dcs[1..], planCode, taskId, options)
    ensures forall i :: |q| <= i < |r| ==> Fresh(r[i], q, dcs, planCode, taskId, options)
  {
    forall i | |q| <= i < |r| ensures Fresh(r[i], q, dcs, planCode, taskId, options) {
      if i < |q1| {
        assert r[i] == q1[i];
      } else {
        FreshWiden(r[i], q, q1, dcs, 1, planCode, taskId, options);
      }
    }
  }

  /** The loop never queues a second item under one key. */
  lemma {:induction false} QueueInStockKeepsKeysUnique(dcs: seq<DcInfo>, planCode: string, taskId: string,
      options: seq<string>, q: seq<QueueItem>, nextId: nat -> string, added: nat, now: string)
    ensures KeysUnique(q) ==> KeysUnique(QueueInStock(dcs, planCode, taskId, options, q, nextId, added, now).0)
    decreases |dcs|
  {
    if dcs != [] && KeysUnique(q) {
      var d := dcs[0];
      var dc := DcName(d);
      if !InStock(d.availability) || Queued(q, planCode, dc, taskId) {
        QueueInStockKeepsKeysUnique(dcs[1..], planCode, taskId, options, q, nextId, added, now);
      } else {
        var q1 := q + [SniperItem(nextId(added), planCode, dc, options, taskId, now)];
        forall i, j | 0 <= i < j < |q1| && q1[i].configSniperTaskId.Some?
          ensures !SameKey(q1[j], q1[i].planCode, q1[i].datacenter, q1[i].configSniperTaskId.value)
        {
          if j == |q| {
            assert q1[i] == q[i] && !SameKey(q[i], planCode, dc, taskId);
          }
        }
        QueueInStockKeepsKeysUnique(dcs[1..], planCode, taskId, options, q1, nextId, added + 1, now);
      }
    }
  }

  /** After the loop, every in-stock datacenter of the listing is queued
      under this task and plan code (once, by the lemma above). */
  lemma {:induction false} QueueInStockCovers(dcs: seq<DcInfo>, planCode: string, taskId: string,
      options: seq<string>, q: seq<QueueItem>, nextId: nat -> string, added: nat, now: string)
    ensures Covers(QueueInStock(dcs, planCode, taskId, options, q, nextId, added, now).0, dcs, planCode, taskId)
    decreases |dcs|
  {
    if dcs != [] {
      var d := dcs[0];
      var dc := DcName(d);
      var q1 := if !InStock(d.availability) || Queued(q, planCode, dc, taskId) then q
                else q + [SniperItem(nextId(added), planCode, dc, options, taskId, now)];
      var added1 := if q1 == q then added else added + 1;
      assert QueueInStock(dcs, planCode, taskId, options, q, nextId, added, now)
          == QueueInStock(dcs[1..], planCode, taskId, options, q1, nextId, added1, now);
      QueueInStockCovers(dcs[1..], planCode, taskId, options, q1, nextId, added1, now);
      var r := QueueInStock(dcs, planCode, taskId, options, q, nextId, added, now).0;
      if InStock(d.availability) {
        assert Queued(q1, planCode, dc, taskId) by {
          if Queued(q, planCode, dc, taskId) {
            var i :| 0 <= i < |q| && SameKey(q[i], planCode, dc, taskId);
            assert q1[i] == q[i];
          } else {
            assert SameKey(q1[|q|], planCode, dc, taskId);
          }
        }
        QueuedExtends(q1, r, planCode, dc, taskId);
      }
      forall k | 0 <= k < |dcs| && InStock(dcs[k].availability)
        ensures Queued(r, planCode, DcName(dcs[k]), taskId)
      {
        if k > 0 {
          assert dcs[1..][k - 1] == dcs[k];
        }
      }
    }
  }

  /** `check_and_queue_plancode`: `None` when the availability fetch fails
      (the error propagates to the caller); otherwise the new queue, in
      which every in-stock datacenter of the listing is queued under this
      task and plan code, every added item is a fresh sniper item with the
      plan's hardware options, and the flag says whether some in-stock
      datacenter was missing before. */
  function CheckAndQueue(planCode: string, task: Task, fetch: Fetch, catalog: Option<seq<CatalogPlan>>,
                         q: seq<QueueItem>, nextId: nat -> string, now: string): (r: Option<(seq<QueueItem>, bool)>)
    ensures r.None? <==> fetch.FetchError?
    ensures r.Some? ==> |r.value.0| >= |q| && r.value.0[..|q|] == q
    ensures r.Some? ==> Covers(r.value.0, Flatten(fetch.items), planCode, task.id)
    ensures r.Some? ==> forall i :: |q| <= i < |r.value.0| ==>
      Fresh(r.value.0[i], q, Flatten(fetch.items), planCode, task.id, HardwareOptions(catalog, planCode, task.memory, task.storage))
    ensures r.Some? ==> (r.value.1 <==> |r.value.0| > |q|)
    ensures r.Some? ==> (r.value.1 <==> SomeMissing(q, Flatten(fetch.items), planCode, task.id))
    ensures r.Some? && KeysUnique(q) ==> KeysUnique(r.value.0)
  {
    match fetch
    case FetchError(_) => None
    case Fetched(items) =>
      var options := HardwareOptions(catalog, planCode, task.memory, task.storage);
      QueueInStockKeepsKeysUnique(Flatten(items), planCode, task.id, options, q, nextId, 0, now);
      QueueInStockCovers(Flatten(items), planCode, task.id, options, q, nextId, 0, now);
      var res := QueueInStock(Flatten(items), planCode, task.id, options, q, nextId, 0, now);
      GrewIffMissing(q, res.0, Flatten(items), planCode, task.id, options);
      Some((res.0, res.1 > 0))
  }

  // ---------------------------------------------------------------------
  // The monitor's handlers
  // ---------------------------------------------------------------------

  /** What the OVH side answers for the duration of one handler call. */
  datatype Env = Env(clientOk: bool, catalog: Option<seq<CatalogPlan>>, availability: string -> Fetch,
                     nextId: nat -> string, now: string)

  /** The flattened listing of a plan code; empty when the fetch fails. */
  function Listing(env: Env, planCode: string): seq<DcInfo>
  {
    var f := env.availability(planCode);
    if f.Fetched? then Flatten(f.items) else []
  }

  /** `it` is a fresh sniper item of the task for one of `codes`. */
  predicate FreshFrom(it: QueueItem, q: seq<QueueItem>, codes: seq<string>, task: Task, env: Env)
  {
    exists m :: 0 <= m < |codes|
      && Fresh(it, q, Listing(env, codes[m]), codes[m], task.id, HardwareOptions(env.catalog, codes[m], task.memory, task.storage))
  }

  /** Every in-stock datacenter of every code's listing is queued. */
  predicate CoversAll(q: seq<QueueItem>, codes: seq<string>, task: Task, env: Env)
  {
    forall m :: 0 <= m < |codes| ==> Covers(q, Listing(env, codes[m]), codes[m], task.id)
  }

  /** Some in-stock datacenter of some code's listing is missing from `q`. */
  predicate AnyMissing(q: seq<QueueItem>, codes: seq<string>, task: Task, env: Env)
  {
    exists m :: 0 <= m < |codes| && SomeMissing(q, Listing(env, codes[m]), codes[m], task.id)
  }

  /** Queues each plan code in turn, skipping those whose fetch fails;
      returns the queue and whether anything was queued. Afterwards every
      in-stock datacenter of every fetched code is queued, every added item
      is a fresh sniper item for one of the codes, and something was queued
      exactly when some in-stock datacenter was missing. */
  function QueueAll(codes: seq<string>, task: Task, env: Env, q: seq<QueueItem>, offset: nat)
    : (r: (seq<QueueItem>, bool))
    ensures |r.0| >= |q| && r.0[..|q|] == q
    ensures CoversAll(r.0, codes, task, env)
    ensures forall i :: |q| <= i < |r.0| ==> FreshFrom(r.0[i], q, codes, task, env)
    ensures r.1 <==> |r.0| > |q|
    ensures r.1 <==> AnyMissing(q, codes, task, env)
    ensures KeysUnique(q) ==> KeysUnique(r.0)
    decreases |codes|
  {
    if codes == [] then (q, false)
    else
      var nextId := (k: nat) => env.nextId(offset + k);
      var step := CheckAndQueue(codes[0], task, env.availability(codes[0]), env.catalog, q, nextId, env.now);
      var q1 := if step.Some? then step.value.0 else q;
      var r := QueueAll(codes[1..], task, env, q1, offset + |q1| - |q|);
      assert r.0[..|q|] == r.0[..|q1|][..|q|];
      QueueAllStep(codes, task, env, q, q1, r.0);
      (r.0, |r.0| > |q|)
  }

  /** The step of `QueueAll`: the first code's call followed by the rest. */
  lemma QueueAllStep(codes: seq<string>, task: Task, env: Env, q: seq<QueueItem>, q1: seq<QueueItem>,
                     r: seq<QueueItem>)
    requires codes != [] && |q| <= |q1| <= |r| && q1[..|q|] == q && r[..|q1|] == q1 && r[..|q|] == q
    requires Covers(q1, Listing(env, codes[0]), codes[0], task.id)
    requires forall i :: |q| <= i < |q1| ==> Fresh(q1[i], q, Listing(env, codes[0]), codes[0], task.id,
      HardwareOptions(env.catalog, codes[0], task.memory, task.storage))
    requires |q1| > |q| <==> SomeMissing(q, Listing(env, codes[0]), codes[0], task.id)
    requires CoversAll(r, codes[1..], task, env)
    requires forall i :: |q1| <= i < |r| ==> FreshFrom(r[i], q1, codes[1..], task, env)
    requires |r| > |q1| <==> AnyMissing(q1, codes[1..], task, env)
    ensures CoversAll(r, codes, task, env)
    ensures forall i :: |q| <= i < |r| ==> FreshFrom(r[i], q, codes, task, env)
    ensures |r| > |q| <==> AnyMissing(q, codes, task, env)
  {
    CoversExtends(q1, r, Listing(env, codes[0]), codes[0], task.id);
    forall m | 0 <= m < |codes| ensures Covers(r, Listing(env, codes[m]), codes[m], task.id) {
      if m > 0 {
        assert codes[1..][m - 1] == codes[m];
      }
    }
    forall i | |q| <= i < |r| ensures FreshFrom(r[i], q, codes, task, env) {
      if i < |q1| {
        assert r[i] == q1[i];
        assert codes[0] == codes[0];
      } else {
        var m :| 0 <= m < |codes[1..]| && Fresh(r[i], q1, Listing(env, codes[1..][m]), codes[1..][m], task.id,
          HardwareOptions(env.catalog, codes[1..][m], task.memory, task.storage));
        assert codes[1..][m] == codes[m + 1];
        FreshWiden(r[i], q, q1, Listing(env, codes[m + 1]), 0, codes[m + 1], task.id,
          HardwareOptions(env.catalog, codes[m + 1], task.memory, task.storage));
      }
    }
    if |r| > |q| && |q1| == |q| {
      var m :| 0 <= m < |codes[1..]| && SomeMissing(q1, Listing(env, codes[1..][m]), codes[1..][m], task.id);
      assert q1 == q;
      assert codes[1..][m] == codes[m + 1];
    }
    if AnyMissing(q, codes, task, env) {
      var m :| 0 <= m < |codes| && SomeMissing(q, Listing(env, codes[m]), codes[m], task.id);
      if m > 0 && |q1| == |q| {
        assert q1 == q;
        assert codes[1..][m - 1] == codes[m];
      }
    }
  }

  /** The plan codes of `current` not yet known to the task. */
  function NewPlanCodes(current: seq<string>, task: Task): (r: seq<string>)
    ensures forall i :: 0 <= i < |r| ==> r[i] !in task.knownPlanCodes && r[i] !in task.matchedApi2 && r[i] in current
    ensures forall x :: x in current && x !in task.knownPlanCodes && x !in task.matchedApi2 ==> x in r
  {
    Filter(current, (pc: string) => pc !in task.knownPlanCodes + task.matchedApi2)
  }

  /** The plan codes a pending task newly finds: matching plans of the
      catalogue (none without a client) it has not seen before. */
  function FoundCodes(task: Task, env: Env): seq<string>
  {
    NewPlanCodes(FindMatchingPlans(if env.clientOk then env.catalog else None, FingerprintOf(task.memory, task.storage)), task)
  }

  /** `handle_pending_match_task`: records the matching plans the task has
      not seen after the ones it has, queues their in-stock datacenters and
      completes the task exactly when something was queued. */
  function HandlePendingMatch(task: Task, env: Env, q: seq<QueueItem>): (r: (Task, seq<QueueItem>))
    ensures r.0.matchedApi2 == task.matchedApi2 + FoundCodes(task, env)
    ensures r.0 == task.(matchedApi2 := r.0.matchedApi2, matchStatus := r.0.matchStatus)
    ensures r.0.matchStatus == task.matchStatus || r.0.matchStatus == MatchCompleted
    ensures r.0.matchStatus == MatchCompleted <==> task.matchStatus == MatchCompleted || |r.1| > |q|
    ensures |r.1| >= |q| && r.1[..|q|] == q
    ensures CoversAll(r.1, FoundCodes(task, env), task, env)
    ensures forall i :: |q| <= i < |r.1| ==> FreshFrom(r.1[i], q, FoundCodes(task, env), task, env)
    ensures KeysUnique(q) ==> KeysUnique(r.1)
  {
    var found := FoundCodes(task, env);
    if found == [] then (task, q)
    else
      var t1 := task.(matchedApi2 := task.matchedApi2 + found);
      if !env.clientOk then (t1, q)
      else
        // only the id and the bound configuration of the task are read
        var res := QueueAll(found, task, env, q, 0);
        (if res.1 then t1.(matchStatus := MatchCompleted) else t1, res.0)
  }

  /** `handle_matched_task`: queues the in-stock datacenters of the matched
      plans and completes the task exactly when something was queued;
      without a client nothing happens. */
  function HandleMatched(task: Task, env: Env, q: seq<QueueItem>): (r: (Task, seq<QueueItem>))
    ensures !env.clientOk ==> r == (task, q)
    ensures r.0 == task || r.0 == task.(matchStatus := MatchCompleted)
    ensures r.0.matchStatus == MatchCompleted <==> task.matchStatus == MatchCompleted || |r.1| > |q|
    ensures |r.1| >= |q| && r.1[..|q|] == q
    ensures env.clientOk ==> CoversAll(r.1, task.matchedApi2, task, env)
    ensures forall i :: |q| <= i < |r.1| ==> FreshFrom(r.1[i], q, task.matchedApi2, task, env)
    ensures KeysUnique(q) ==> KeysUnique(r.1)
  {
    if !env.clientOk then (task, q)
    else
      var res := QueueAll(task.matchedApi2, task, env, q, 0);
      (if res.1 then task.(matchStatus := MatchCompleted) else task, res.0)
  }

  /** A fresh item for one of the later codes is a fresh item for one of
      all codes. */
  lemma FreshFromSuffix(it: QueueItem, q: seq<QueueItem>, codes: seq<string>, n: nat, task: Task, env: Env)
    requires n <= |codes| && FreshFrom(it, q, codes[n..], task, env)
    ensures FreshFrom(it, q, codes, task, env)
  {
    var m :| 0 <= m < |codes[n..]| && Fresh(it, q, Listing(env, codes[n..][m]), codes[n..][m], task.id,
      HardwareOptions(env.catalog, codes[n..][m], task.memory, task.storage));
    assert codes[n..][m] == codes[n + m];
  }

  /** One task in one round of `config_sniper_monitor_loop`: disabled and
      completed tasks are skipped; others are handled by status and stamped
      with the check time. A handled task ends completed exactly when the
      round queued something, and every queued item is a fresh sniper item
      for one of its matched plans. */
  function MonitorTask(task: Task, env: Env, q: seq<QueueItem>): (r: (Task, seq<QueueItem>))
    ensures !task.enabled || task.matchStatus == MatchCompleted ==> r == (task, q)
    ensures task.enabled && task.matchStatus != MatchCompleted ==> r.0.lastCheck == Some(env.now)
    ensures task.matchStatus == Matched ==> r.0.matchStatus != PendingMatch
    ensures task.enabled && task.matchStatus != MatchCompleted ==> (r.0.matchStatus == MatchCompleted <==> |r.1| > |q|)
    ensures |r.1| >= |q| && r.1[..|q|] == q
    ensures forall i :: |q| <= i < |r.1| ==> FreshFrom(r.1[i], q, r.0.matchedApi2, task, env)
    ensures r.0.id == task.id && r.0.enabled == task.enabled
  {
    if !task.enabled then (task, q)
    else match task.matchStatus
      case MatchCompleted => (task, q)
      case PendingMatch =>
        var r := HandlePendingMatch(task, env, q);
        assert r.0.matchedApi2[|task.matchedApi2|..] == FoundCodes(task, env);
        forall i | |q| <= i < |r.1| ensures FreshFrom(r.1[i], q, r.0.matchedApi2, task, env) {
          FreshFromSuffix(r.1[i], q, r.0.matchedApi2, |task.matchedApi2|, task, env);
        }
        (r.0.(lastCheck := Some(env.now)), r.1)
      case Matched =>
        var r := HandleMatched(task, env, q);
        (r.0.(lastCheck := Some(env.now)), r.1)
  }

  /** Once completed, a task is never handled again. */
  lemma CompletedIsFinal(task: Task, env: Env, q: seq<QueueItem>)
    requires task.matchStatus == MatchCompleted
    ensures MonitorTask(task, env, q) == (task, q)
  {
  }
}

=== FILE: constants.dfy ===
// The shared front-end constants and their helpers: the retry-interval
// bounds and validation, the interval display and the retry-count display.
// Numbers are whole numbers here (the helpers are only ever given whole
// seconds and counts).

module Constants {
  import opened Text

  const TaskRetryInterval: int := 60
  const MinRetryInterval: int := 30
  const MaxRetryInterval: int := 3600
  /** -1: retry forever. */
  const MaxRetries: int := -1
  const QueuePollingIntervalMs: int := 10000
  const StatsRefreshIntervalMs: int := 30000
  const LogsRefreshIntervalMs: int := 5000
  const CacheExpiryMs: int := 2 * 60 * 60 * 1000
  const CacheKey := "ovh-servers-cache"

  /** `validateRetryInterval`. */
  predicate ValidRetryInterval(interval: int)
  {
    interval >= MinRetryInterval && interval <= MaxRetryInterval
  }

  /** The default interval is within the accepted range, and the range is
      exactly [30, 3600]. */
  lemma DefaultRetryIntervalValid()
    ensures ValidRetryInterval(TaskRetryInterval)
    ensures ValidRetryInterval(MinRetryInterval) && ValidRetryInterval(MaxRetryInterval)
    ensures !ValidRetryInterval(MinRetryInterval - 1) && !ValidRetryInterval(MaxRetryInterval + 1)
  {
  }

  /** `formatInterval`: seconds below a minute as "N秒", below an hour as
      minutes and seconds, otherwise hours and whole minutes. */
  function FormatInterval(seconds: int): (r: string)
    ensures seconds < 60 ==> r == IntToString(seconds) + "秒"
    ensures 60 <= seconds < 3600 && seconds % 60 > 0 ==>
      r == NatToString(seconds / 60) + "分" + NatToString(seconds % 60) + "秒"
    ensures 60 <= seconds < 3600 && seconds % 60 == 0 ==> r == NatToString(seconds / 60) + "分钟"
    ensures seconds >= 3600 && (seconds % 3600) / 60 > 0 ==>
      r == NatToString(seconds / 3600) + "小时" + NatToString((seconds % 3600) / 60) + "分钟"
    ensures seconds >= 3600 && (seconds % 3600) / 60 == 0 ==> r == NatToString(seconds / 3600) + "小时"
  {
    if seconds < 60 then IntToString(seconds) + "秒"
    else if seconds < 3600 then
      var minutes := seconds / 60;
      var remaining := seconds % 60;
      if remaining > 0 then NatToString(minutes) + "分" + NatToString(remaining) + "秒"
      else NatToString(minutes) + "分钟"
    else
      var hours := seconds / 3600;
      var minutes := (seconds % 3600) / 60;
      if minutes > 0 then NatToString(hours) + "小时" + NatToString(minutes) + "分钟"
      else NatToString(hours) + "小时"
  }

  /** Below an hour the display is exact: two different non-negative
      intervals never look the same. */
  lemma FormatIntervalInjectiveBelowHour(s: int, t: int)
    requires 0 <= s < 3600 && 0 <= t < 3600
    requires FormatInterval(s) == FormatInterval(t)
    ensures s == t
  {
    if s < 60 && t < 60 {
      SecondsInjective(s, t);
    } else if s < 60 {
      SecondsDifferFromMinutes(s, t);
    } else if t < 60 {
      SecondsDifferFromMinutes(t, s);
    } else {
      MinutesInjective(s, t);
    }
  }

  lemma SecondsInjective(s: nat, t: nat)
    requires s < 60 && t < 60 && FormatInterval(s) == FormatInterval(t)
    ensures s == t
  {
    SuffixCancel(NatToString(s), NatToString(t), "秒");
    NatToStringInjective(s, t);
  }

  /** The text after the leading number: "分S秒" or "分钟". */
  function MinuteTail(t: nat): string
  {
    if t % 60 > 0 then "分" + NatToString(t % 60) + "秒" else "分钟"
  }

  lemma SecondsDifferFromMinutes(s: nat, t: nat)
    requires s < 60 <= t < 3600
    ensures FormatInterval(s) != FormatInterval(t)
  {
    FormatMinutes(t);
    if FormatInterval(s) == FormatInterval(t) {
      DigitPrefixSplit(NatToString(s), "秒", NatToString(t / 60), MinuteTail(t));
    }
  }

  lemma MinutesInjective(s: nat, t: nat)
    requires 60 <= s < 3600 && 60 <= t < 3600 && FormatInterval(s) == FormatInterval(t)
    ensures s == t
  {
    MinutesSplit(s, t);
    TailInjective(s, t);
    assert s == (s / 60) * 60 + s % 60;
    assert t == (t / 60) * 60 + t % 60;
  }

  lemma MinutesSplit(s: nat, t: nat)
    requires 60 <= s < 3600 && 60 <= t < 3600 && FormatInterval(s) == FormatInterval(t)
    ensures s / 60 == t / 60 && MinuteTail(s) == MinuteTail(t)
  {
    FormatMinutes(s);
    FormatMinutes(t);
    DigitPrefixSplit(NatToString(s / 60), MinuteTail(s), NatToString(t / 60), MinuteTail(t));
    NatToStringInjective(s / 60, t / 60);
  }

  /** Below an hour the display is the minute count and then its tail. */
  lemma FormatMinutes(t: nat)
    requires 60 <= t < 3600
    ensures FormatInterval(t) == NatToString(t / 60) + MinuteTail(t)
  {
  }

  lemma TailInjective(s: nat, t: nat)
    requires MinuteTail(s) == MinuteTail(t)
    ensures s % 60 == t % 60
  {
    if s % 60 > 0 && t % 60 > 0 {
      var ss := NatToString(s % 60);
      var ts := NatToString(t % 60);
      assert MinuteTail(s)[1..] == ss + "秒" && MinuteTail(t)[1..] == ts + "秒";
      SuffixCancel(ss, ts, "秒");
      NatToStringInjective(s % 60, t % 60);
    }
  }

  /** From an hour on, leftover seconds are not shown: every interval
      displays like the same interval cut back to whole minutes. */
  lemma FormatIntervalDropsSecondsAboveHour(s: int)
    requires s >= 3600
    ensures FormatInterval(s) == FormatInterval(s - s % 60)
  {
    var h, m, x := s / 3600, (s % 3600) / 60, s % 60;
    var t := s - x;
    HourMinuteSplit(s, h, m, x);
    DivHour(t, h, 60 * m);
    DivMinute(60 * m, m, 0);
    DivMinute(t, 60 * h + m, 0);
  }

  /** The hour/minute/second split of an interval. */
  lemma HourMinuteSplit(s: int, h: int, m: int, x: int)
    requires s >= 3600 && h == s / 3600 && m == (s % 3600) / 60 && x == s % 60
    ensures s == 3600 * h + 60 * m + x && 0 <= m < 60 && 0 <= x < 60
  {
    var rest := s % 3600;
    DivMinute(s, 60 * h + m, rest % 60);
  }

  /** Division by an hour is determined by its defining identity. */
  lemma DivHour(a: int, q: int, r: int)
    requires a == 3600 * q + r && 0 <= r < 3600
    ensures a / 3600 == q && a % 3600 == r
  {
  }

  /** Division by a minute is determined by its defining identity. */
  lemma DivMinute(a: int, q: int, r: int)
    requires a == 60 * q + r && 0 <= r < 60
    ensures a / 60 == q && a % 60 == r
  {
  }

  /** `formatRetryCount`: the attempt number, with the limit as a
      denominator unless retries are unlimited. */
  function FormatRetryCount(count: int, maxRetries: int): (r: string)
    ensures maxRetries == -1 ==> r == "第 " + IntToString(count) + " 次尝试"
    ensures maxRetries != -1 ==> r == "第 " + IntToString(count) + "/" + IntToString(maxRetries) + " 次尝试"
  {
    if maxRetries == -1 then "第 " + IntToString(count) + " 次尝试"
    else "第 " + IntToString(count) + "/" + IntToString(maxRetries) + " 次尝试"
  }

  lemma IntToStringHasNoSlash(i: int)
    ensures '/' !in IntToString(i)
  {
    var r := IntToString(i);
    var n: nat := if i < 0 then -i else i;
    assert AllDigits(NatToString(n));
    if i < 0 {
      assert r == "-" + NatToString(n);
      assert forall k :: 1 <= k < |r| ==> r[k] == NatToString(n)[k - 1];
    }
  }

  /** The denominator (a '/') is shown exactly when retries are limited. */
  lemma RetryCountShowsLimitIff(count: int, maxRetries: int)
    ensures '/' in FormatRetryCount(count, maxRetries) <==> maxRetries != -1
  {
    var c := IntToString(count);
    IntToStringHasNoSlash(count);
    var r := FormatRetryCount(count, maxRetries);
    if maxRetries == -1 {
      assert r == "第 " + c + " 次尝试";
      assert forall k :: 0 <= k < |r| ==> r[k] == '第' || r[k] == ' ' || r[k] in c || r[k] == '次' || r[k] == '尝' || r[k] == '试';
    } else {
      assert r[2 + |c|] == '/';
    }
  }
}

=== FILE: dashboard.dfy ===
// The dashboard: the counters from `/stats` and a short list of the
// active purchase-queue items, refreshed every thirty seconds.  The two
// responses are a parameter; None stands for a failed fetch.

module Dashboard {
  import opened Text
  import opened PurchaseQueue
  import Stats

  /** How many active items the dashboard lists. */
  const ShownActive: nat := 3

  /** The queue items with an active status (running, pending or paused),
      in queue order, cut to the first three. */
  function ActiveItems(queue: seq<QueueItem>): (r: seq<QueueItem>)
    ensures |r| <= ShownActive
    ensures forall i :: 0 <= i < |r| ==> IsActive(r[i].status)
    ensures |r| <= |Filter(queue, Stats.ItemActive)| && r == Filter(queue, Stats.ItemActive)[..|r|]
    ensures |r| == if Count(queue, Stats.ItemActive) < ShownActive then Count(queue, Stats.ItemActive) else ShownActive
  {
    var active := Filter(queue, Stats.ItemActive);
    CountIsFilterLength(queue, Stats.ItemActive);
    if |active| <= ShownActive then active else active[..ShownActive]
  }

  /** The list keeps queue order: it is a subsequence of the queue. */
  lemma ActiveItemsInQueueOrder(queue: seq<QueueItem>)
    ensures Subseq(ActiveItems(queue), queue)
  {
    var active := Filter(queue, Stats.ItemActive);
    FilterSubseq(queue, Stats.ItemActive);
    PrefixSubseq(active, |ActiveItems(queue)|);
    SubseqTrans(ActiveItems(queue), active, queue);
  }

  lemma {:induction false} PrefixSubseq<T>(s: seq<T>, n: nat)
    requires n <= |s|
    ensures Subseq(s[..n], s)
    decreases |s|
  {
    if n == 0 {
    } else {
      PrefixSubseq(s[1..], n - 1);
      assert s[..n][1..] == s[1..][..n - 1];
    }
  }

  /** With at most three active items, the dashboard lists every item the
      backend's `activeQueues` counter counts. */
  lemma FewActiveAllShown(queue: seq<QueueItem>)
    requires Count(queue, Stats.ItemActive) <= ShownActive
    ensures ActiveItems(queue) == Filter(queue, Stats.ItemActive)
  {
    CountIsFilterLength(queue, Stats.ItemActive);
  }

  datatype DashboardState = DashboardState(stats: Stats.Stats, items: seq<QueueItem>, loading: bool)

  /** One `fetchData`: both answers replace the shown values; on a failure
      neither does. */
  function Refresh(st: DashboardState, answer: Option<(Stats.Stats, seq<QueueItem>)>): (r: DashboardState)
    ensures !r.loading
    ensures answer.None? ==> r.stats == st.stats && r.items == st.items
    ensures answer.Some? ==> r.stats == answer.value.0 && r.items == ActiveItems(answer.value.1)
  {
    match answer
    case None => st.(loading := false)
    case Some((stats, queue)) => DashboardState(stats, ActiveItems(queue), false)
  }

  /** A failed refresh after a successful one keeps the successful values. */
  lemma FailureKeepsLastGood(st: DashboardState, stats: Stats.Stats, queue: seq<QueueItem>)
    ensures Refresh(Refresh(st, Some((stats, queue))), None).items == ActiveItems(queue)
    ensures Refresh(Refresh(st, Some((stats, queue))), None).stats == stats
  {
  }
}

=== FILE: log_buffer.dfy ===
// The in-memory log buffer of the backend: `add_log` appends an entry,
// keeps only the newest 1000, and counts entries since the last file write
// so that the file is rewritten every tenth entry or on an error.

module LogBuffer {
  import opened Text

  const MaxLogs: nat := 1000
  const WriteThreshold: nat := 10

  /** One log record; the identifier and timestamp come from the caller
      (uuid generator and wall clock). */
  datatype LogEntry = LogEntry(id: string, timestamp: string, level: string, message: string, source: string)

  /** The retained entries and the number of entries appended since the
      log file was last written. */
  datatype LogState = LogState(logs: seq<LogEntry>, unwritten: nat)

  /** Whether appending an entry of `level` triggers a write of the log file. */
  predicate ShouldWrite(st: LogState, level: string)
  {
    st.unwritten + 1 >= WriteThreshold || level == "ERROR"
  }

  /** `add_log`: append, cap at the newest `MaxLogs`, and reset the unwritten
      counter when the file write was attempted and `writeOk` says it succeeded. */
  function AddLog(st: LogState, e: LogEntry, writeOk: bool): (r: LogState)
    ensures |r.logs| == if |st.logs| < MaxLogs then |st.logs| + 1 else MaxLogs
    ensures r.logs[|r.logs| - 1] == e
    ensures r.logs == (st.logs + [e])[|st.logs| + 1 - |r.logs|..]
    ensures ShouldWrite(st, e.level) && writeOk ==> r.unwritten == 0
    ensures !(ShouldWrite(st, e.level) && writeOk) ==> r.unwritten == st.unwritten + 1
  {
    var logs := Last(MaxLogs, st.logs + [e]);
    var unwritten := if ShouldWrite(st, e.level) && writeOk then 0 else st.unwritten + 1;
    LogState(logs, unwritten)
  }

  /** Below the cap nothing is dropped: the entry is simply appended. */
  lemma AddLogBelowCap(st: LogState, e: LogEntry, writeOk: bool)
    requires |st.logs| < MaxLogs
    ensures AddLog(st, e, writeOk).logs == st.logs + [e]
  {
  }

  /** At or above the cap exactly the oldest entries are dropped: every
      retained older entry keeps its relative order. */
  lemma AddLogDropsOldest(st: LogState, e: LogEntry, writeOk: bool)
    requires |st.logs| >= MaxLogs
    ensures AddLog(st, e, writeOk).logs == st.logs[|st.logs| - MaxLogs + 1..] + [e]
  {
  }

  /** Appending several entries one at a time. */
  function AddLogs(st: LogState, es: seq<LogEntry>, writeOk: bool): LogState
    decreases |es|
  {
    if es == [] then st else AddLogs(AddLog(st, es[0], writeOk), es[1..], writeOk)
  }

  /** Whatever the history of calls, the buffer holds exactly the newest
      `MaxLogs` entries ever appended, in order (a buffer loaded over the cap
      is cut down by the first append). */
  lemma {:induction false} AddLogsKeepsNewest(st: LogState, es: seq<LogEntry>, writeOk: bool)
    ensures es != [] || |st.logs| <= MaxLogs ==> AddLogs(st, es, writeOk).logs == Last(MaxLogs, st.logs + es)
    decreases |es|
  {
    if es != [] {
      var a := st.logs + [es[0]];
      var st1 := AddLog(st, es[0], writeOk);
      assert AddLogs(st, es, writeOk) == AddLogs(st1, es[1..], writeOk);
      AddLogsKeepsNewest(st1, es[1..], writeOk);
      assert st1.logs == Last(MaxLogs, a);
      LastAppend(MaxLogs, a, es[1..]);
      assert a + es[1..] == st.logs + es;
    }
  }

  /** When every write succeeds the counter stays below the threshold, so
      at most `WriteThreshold` entries are ever missing from the file. */
  lemma UnwrittenStaysBelowThreshold(st: LogState, e: LogEntry)
    requires st.unwritten < WriteThreshold
    ensures AddLog(st, e, true).unwritten < WriteThreshold
  {
  }

  /** An error entry is always followed by a write attempt. */
  lemma ErrorAlwaysWritten(st: LogState, e: LogEntry)
    requires e.level == "ERROR"
    ensures AddLog(st, e, true).unwritten == 0
  {
  }
}

=== FILE: logs_page.dfy ===
// The log viewer: the level and search filters over the fetched log and
// the row numbers shown beside each line.  Fetching, clearing and
// scrolling are not modelled.

module LogsPage {
  import opened Text
  import LogBuffer

  /** The page shows the entries the backend keeps. */
  type LogEntry = LogBuffer.LogEntry

  /** The level selector; "all" keeps every entry. */
  predicate LevelPasses(e: LogEntry, level: string)
  {
    level == "all" || e.level == level
  }

  /** The search box: the message or the source contains the term,
      case-insensitively; an empty box keeps every entry. */
  predicate SearchPasses(e: LogEntry, term: string)
  {
    term == "" || Contains(Lower(e.message), Lower(term)) || Contains(Lower(e.source), Lower(term))
  }

  /** A log line the page shows: it passes both controls. */
  function ShownLog(level: string, term: string): LogEntry -> bool
  {
    (e: LogEntry) => LevelPasses(e, level) && SearchPasses(e, term)
  }

  /** The level test the effect applies when a level is chosen. */
  function LevelTest(level: string): LogEntry -> bool
  {
    (e: LogEntry) => e.level == level
  }

  /** The search test the effect applies when the box is not empty. */
  function SearchTest(term: string): LogEntry -> bool
  {
    (e: LogEntry) => Contains(Lower(e.message), Lower(term)) || Contains(Lower(e.source), Lower(term))
  }

  /** The two conditional filters in a row keep exactly the shown lines, in
      log order and with their repeats. */
  lemma TwoFiltersAreShown(logs: seq<LogEntry>, level: string, term: string)
    ensures FilterWhen(FilterWhen(logs, level != "all", LevelTest(level)), term != "", SearchTest(term))
      == Filter(logs, ShownLog(level, term))
  {
    var a := FilterWhen(logs, level != "all", LevelTest(level));
    FilterWhenIs(logs, level != "all", LevelTest(level));
    FilterWhenIs(a, term != "", SearchTest(term));
    FilterFilter(logs, When(level != "all", LevelTest(level)), When(term != "", SearchTest(term)));
    FilterExt(logs, Both(When(level != "all", LevelTest(level)), When(term != "", SearchTest(term))), ShownLog(level, term));
  }

  /** The filter effect.  With no log fetched yet it does nothing, so the
      shown list keeps its value. */
  function FilterLogs(logs: seq<LogEntry>, shown: seq<LogEntry>, level: string, term: string): (r: seq<LogEntry>)
    ensures logs == [] ==> r == shown
    ensures logs != [] ==> r == Filter(logs, ShownLog(level, term))
    ensures logs != [] ==> Subseq(r, logs)
    ensures logs != [] ==> forall x :: x in r <==> x in logs && LevelPasses(x, level) && SearchPasses(x, term)
    ensures logs != [] && level != "all" ==> forall i :: 0 <= i < |r| ==> r[i].level == level
  {
    if logs == [] then shown
    else
      var a := FilterWhen(logs, level != "all", LevelTest(level));
      var b := FilterWhen(a, term != "", SearchTest(term));
      SubseqTrans(b, a, logs);
      forall x ensures x in b <==> x in logs && LevelPasses(x, level) && SearchPasses(x, term) {
        FilterWhenMembers(logs, level != "all", LevelTest(level), x);
        FilterWhenMembers(a, term != "", SearchTest(term), x);
      }
      TwoFiltersAreShown(logs, level, term);
      b
  }

  /** Clearing both controls shows the whole log. */
  lemma NoFilterShowsAll(logs: seq<LogEntry>, shown: seq<LogEntry>)
    requires logs != []
    ensures FilterLogs(logs, shown, "all", "") == logs
  {
  }

  /** The number shown on each row: the newest (last) line is 1 and the
      first line carries the count of shown lines. */
  function RowLabels(n: nat): (r: seq<nat>)
    ensures |r| == n
    ensures n > 0 ==> r[0] == n && r[n - 1] == 1
    ensures forall i, j :: 0 <= i < j < n ==> r[i] > r[j]
    ensures forall i :: 0 <= i < n ==> 1 <= r[i] <= n
  {
    seq(n, i requires 0 <= i < n => n - i)
  }

  /** The numbers are exactly 1 to n, each once. */
  lemma RowLabelsAreOneToN(n: nat)
    ensures forall k :: k in RowLabels(n) <==> 1 <= k <= n
  {
    var r := RowLabels(n);
    forall k | 1 <= k <= n ensures k in r {
      assert r[n - k] == k;
    }
  }
}

=== FILE: monitor_page.dfy ===
// The availability-monitor page: the subscription form (plan code,
// comma-separated datacenters, notification switches) and the start/stop
// button.  Request outcomes are parameters.

module MonitorPage {
  import opened Text
  import ServerMonitor

  /** Neither starts nor ends with JavaScript whitespace. */
  predicate Trimmed(s: string)
  {
    |s| > 0 ==> !IsJsSpace(s[0]) && !IsJsSpace(s[|s| - 1])
  }

  /** Trimming a trimmed string changes nothing. */
  lemma TrimmedIsFixed(s: string)
    requires Trimmed(s)
    ensures JsTrim(s) == s
  {
    if |s| > 0 {
      assert TrimStart(s, IsJsSpace) == s;
      assert TrimEnd(s, IsJsSpace) == s;
    }
  }

  function TrimAll(parts: seq<string>): (r: seq<string>)
    ensures |r| == |parts|
    ensures forall i :: 0 <= i < |r| ==> r[i] == JsTrim(parts[i])
  {
    seq(|parts|, i requires 0 <= i < |parts| => JsTrim(parts[i]))
  }

  function NonEmpty(): string -> bool
  {
    (d: string) => d != ""
  }

  /** `datacenters.split(',').map(dc => dc.trim()).filter(dc => dc)`. */
  function ParseDatacenters(input: string): (r: seq<string>)
    ensures forall i :: 0 <= i < |r| ==> r[i] != "" && ',' !in r[i] && Trimmed(r[i])
    ensures Subseq(r, TrimAll(Split(input, ',')))
    ensures forall p :: p in TrimAll(Split(input, ',')) && p != "" ==> p in r
    ensures |r| == Count(TrimAll(Split(input, ',')), NonEmpty())
  {
    var parts := Split(input, ',');
    var trimmed := TrimAll(parts);
    FilterSubseq(trimmed, NonEmpty());
    CountIsFilterLength(trimmed, NonEmpty());
    var r := Filter(trimmed, NonEmpty());
    forall i | 0 <= i < |r| ensures ',' !in r[i] && Trimmed(r[i]) {
      var k :| 0 <= k < |trimmed| && trimmed[k] == r[i];
      assert ',' !in parts[k];
    }
    r
  }

  /** Typing a list of codes separated by commas gives the list back. */
  lemma ParseDatacentersJoin(codes: seq<string>)
    requires forall i :: 0 <= i < |codes| ==> codes[i] != "" && ',' !in codes[i] && Trimmed(codes[i])
    ensures ParseDatacenters(Join(codes, ',')) == codes
  {
    if codes == [] {
      assert Split("", ',') == [""];
    } else {
      JoinSplit(codes, ',');
      var trimmed := TrimAll(codes);
      forall i | 0 <= i < |codes| ensures trimmed[i] == codes[i] {
        TrimmedIsFixed(codes[i]);
      }
      assert trimmed == codes;
      KeepNonEmpty(codes);
    }
  }

  lemma {:induction false} KeepNonEmpty(s: seq<string>)
    requires forall i :: 0 <= i < |s| ==> s[i] != ""
    ensures Filter(s, NonEmpty()) == s
    decreases |s|
  {
    if s != [] {
      KeepNonEmpty(s[1..]);
      assert s == [s[0]] + s[1..];
    }
  }

  /** Splitting pieces joined by a separator they do not contain gives the
      pieces back. */
  lemma {:induction false} JoinSplit(parts: seq<string>, c: char)
    requires |parts| > 0
    requires forall i :: 0 <= i < |parts| ==> c !in parts[i]
    ensures Split(Join(parts, c), c) == parts
    decreases |parts|
  {
    if |parts| > 1 {
      var head := parts[0];
      var rest := Join(parts[1..], c);
      var s := Join(parts, c);
      assert s == head + [c] + rest;
      assert s[|head|] == c;
      var i := IndexOf(s, c);
      assert s[..i] == head;
      assert s[i + 1..] == rest;
      JoinSplit(parts[1..], c);
    }
  }

  datatype SubscribeForm = SubscribeForm(planCode: string, datacenters: string, notifyAvailable: bool, notifyUnavailable: bool)

  /** The form's initial values, restored after a successful add. */
  const DefaultForm := SubscribeForm("", "", true, false)

  /** The body of `POST /monitor/subscriptions`. */
  datatype SubscribePost = SubscribePost(planCode: string, datacenters: seq<string>, notifyAvailable: bool, notifyUnavailable: bool)

  /** `handleAddSubscription`: a blank plan code sends nothing; otherwise
      the trimmed code and the parsed datacenter list are posted, and the
      form returns to its defaults when the post succeeds. */
  function AddSubscription(form: SubscribeForm, succeeded: bool): (r: (Option<SubscribePost>, SubscribeForm))
    ensures r.0.None? <==> JsTrim(form.planCode) == ""
    ensures r.0.Some? ==> r.0.value.planCode == JsTrim(form.planCode) && r.0.value.planCode != ""
    ensures r.0.Some? ==> r.0.value.datacenters == ParseDatacenters(form.datacenters)
    ensures r.0.Some? ==> r.0.value.notifyAvailable == form.notifyAvailable && r.0.value.notifyUnavailable == form.notifyUnavailable
    ensures r.1 == if r.0.Some? && succeeded then DefaultForm else form
  {
    var code := JsTrim(form.planCode);
    if code == "" then (None, form)
    else
      var post := SubscribePost(code, ParseDatacenters(form.datacenters), form.notifyAvailable, form.notifyUnavailable);
      (Some(post), if succeeded then DefaultForm else form)
  }

  /** A whitespace-only plan code is refused before any request. */
  lemma BlankPlanCodeRejected(form: SubscribeForm, succeeded: bool)
    requires forall i :: 0 <= i < |form.planCode| ==> IsJsSpace(form.planCode[i])
    ensures AddSubscription(form, succeeded).0.None?
  {
    TrimEmptyIffAllSpace(form.planCode, IsJsSpace);
  }

  /** `toggleMonitor`: stop a running monitor, start a stopped one. */
  function ToggleEndpoint(running: bool): (r: string)
    ensures r == "/monitor/stop" <==> running
    ensures r == "/monitor/start" <==> !running
  {
    if running then "/monitor/stop" else "/monitor/start"
  }

  /** When the page's status matches the monitor, the endpoint it calls
      succeeds and flips the monitor's state. */
  lemma ToggleEndpointSucceeds(m: ServerMonitor.Monitor)
    ensures ToggleEndpoint(m.running) == "/monitor/stop" ==>
      ServerMonitor.Stop(m).1 && !ServerMonitor.Stop(m).0.running
    ensures ToggleEndpoint(m.running) == "/monitor/start" ==>
      ServerMonitor.Start(m).1 && ServerMonitor.Start(m).0.running
  {
  }
}

=== FILE: purchase.dfy ===
// The decisions `purchase_server` and `check_server_availability` make
// without talking to OVH: whether the wanted datacenter is in stock, the
// region inferred from a datacenter code, which requested options are
// hardware, and how an attempt is recorded in the purchase history. The OVH
// availability listing and the outcome of the cart/checkout calls are
// parameters.

module Purchase {
  import opened Text
  import opened PurchaseQueue

  /** One datacenter entry of `/dedicated/server/datacenter/availabilities`;
      a field missing from the JSON is `None`. */
  datatype DcInfo = DcInfo(datacenter: Option<string>, availability: Option<string>)

  /** One plan entry of that listing (a missing `datacenters` is empty). */
  datatype AvailabilityItem = AvailabilityItem(datacenters: seq<DcInfo>)

  /** The availability test of `purchase_server`: anything except the two
      out-of-stock words counts, including a missing value. */
  predicate InStock(a: Option<string>)
  {
    a != Some("unavailable") && a != Some("unknown")
  }

  /** Scans one plan entry's datacenters for the wanted one, in stock. */
  function FoundInItem(dcs: seq<DcInfo>, dc: string): (r: bool)
    ensures r <==> exists j :: 0 <= j < |dcs| && dcs[j].datacenter == Some(dc) && InStock(dcs[j].availability)
  {
    if dcs == [] then false
    else if dcs[0].datacenter == Some(dc) && InStock(dcs[0].availability) then true
    else FoundInItem(dcs[1..], dc)
  }

  /** `found_available`: the nested scan with early exit. */
  function FoundAvailable(avail: seq<AvailabilityItem>, dc: string): (r: bool)
  {
    if avail == [] then false
    else if FoundInItem(avail[0].datacenters, dc) then true
    else FoundAvailable(avail[1..], dc)
  }

  /** Entry `j` of plan entry `i` offers the datacenter in stock. */
  predicate OfferedAt(avail: seq<AvailabilityItem>, dc: string, i: int, j: int)
  {
    0 <= i < |avail| && 0 <= j < |avail[i].datacenters|
    && avail[i].datacenters[j].datacenter == Some(dc) && InStock(avail[i].datacenters[j].availability)
  }

  /** The scan finds the datacenter exactly when some entry anywhere names
      it with an in-stock availability. */
  lemma {:induction false} FoundAvailableIff(avail: seq<AvailabilityItem>, dc: string)
    ensures FoundAvailable(avail, dc) <==> exists i, j :: OfferedAt(avail, dc, i, j)
    decreases |avail|
  {
    if avail != [] {
      FoundAvailableIff(avail[1..], dc);
      var dcs := avail[0].datacenters;
      if FoundInItem(dcs, dc) {
        var j :| 0 <= j < |dcs| && dcs[j].datacenter == Some(dc) && InStock(dcs[j].availability);
        assert OfferedAt(avail, dc, 0, j);
      }
      if FoundAvailable(avail[1..], dc) {
        var i, j :| OfferedAt(avail[1..], dc, i, j);
        assert OfferedAt(avail, dc, i + 1, j);
      }
      if exists i, j :: OfferedAt(avail, dc, i, j) {
        var i, j :| OfferedAt(avail, dc, i, j);
        if i > 0 {
          assert OfferedAt(avail[1..], dc, i - 1, j);
        } else {
          assert FoundInItem(avail[0].datacenters, dc);
        }
      }
    }
  }

  /** `check_server_availability`, per entry: a missing, empty or "unknown"
      value reads "unknown", "unavailable" stays, anything else is kept. */
  function NormaliseAvailability(a: Option<string>): (r: string)
    ensures r != ""
    ensures r == "unknown" <==> a.None? || a == Some("") || a == Some("unknown")
    ensures r != "unknown" && r != "unavailable" ==> a == Some(r)
  {
    if a.None? || a.value == "" || a.value == "unknown" then "unknown"
    else if a.value == "unavailable" then "unavailable"
    else a.value
  }

  /** For a present, non-empty value the two code paths agree on what is in
      stock; they part ways only on a missing or empty value, which the
      purchase treats as in stock and the listing as "unknown". */
  lemma InStockAgreesWithNormalise(a: Option<string>)
    ensures a.Some? && a.value != "" ==>
      (InStock(a) <==> NormaliseAvailability(a) != "unknown" && NormaliseAvailability(a) != "unavailable")
    ensures a.None? ==> InStock(a) && NormaliseAvailability(a) == "unknown"
  {
  }

  /** The result map of `check_server_availability`: later entries for the
      same datacenter overwrite earlier ones. */
  function AvailabilityMap(dcs: seq<DcInfo>): (m: map<Option<string>, string>)
    ensures forall k :: k in m <==> exists j :: 0 <= j < |dcs| && dcs[j].datacenter == k
    decreases |dcs|
  {
    if dcs == [] then map[]
    else
      var m := AvailabilityMap(dcs[..|dcs| - 1]);
      var d := dcs[|dcs| - 1];
      assert forall j :: 0 <= j < |dcs| - 1 ==> dcs[..|dcs| - 1][j] == dcs[j];
      m[d.datacenter := NormaliseAvailability(d.availability)]
  }

  /** Each datacenter's value in the map is the normalised value of its last
      entry in the listing. */
  lemma {:induction false} AvailabilityMapLastWins(dcs: seq<DcInfo>, j: nat)
    requires j < |dcs|
    requires forall k :: j < k < |dcs| ==> dcs[k].datacenter != dcs[j].datacenter
    ensures AvailabilityMap(dcs)[dcs[j].datacenter] == NormaliseAvailability(dcs[j].availability)
    decreases |dcs|
  {
    if j < |dcs| - 1 {
      var init := dcs[..|dcs| - 1];
      assert init[j] == dcs[j];
      AvailabilityMapLastWins(init, j);
    }
  }

  /** The listing over all plan entries, in order. */
  function AvailabilityResult(avail: seq<AvailabilityItem>): map<Option<string>, string>
  {
    AvailabilityMap(Flatten(avail))
  }

  function Flatten(avail: seq<AvailabilityItem>): seq<DcInfo>
  {
    if avail == [] then [] else avail[0].datacenters + Flatten(avail[1..])
  }

  // ---------------------------------------------------------------------
  // Region inference
  // ---------------------------------------------------------------------

  datatype Region = Europe | Canada | Usa | Apac

  function RegionName(r: Region): string
  {
    match r
    case Europe => "europe"
    case Canada => "canada"
    case Usa => "usa"
    case Apac => "apac"
  }

  const EuPrefixes: seq<string> := ["gra", "rbx", "sbg", "eri", "lim", "waw", "par", "fra", "lon"]
  const CanadaPrefixes: seq<string> := ["bhs"]
  const UsPrefixes: seq<string> := ["vin", "hil"]
  const ApacPrefixes: seq<string> := ["syd", "sgp"]

  predicate StartsWithAny(s: string, prefixes: seq<string>)
  {
    exists i :: 0 <= i < |prefixes| && StartsWith(s, prefixes[i])
  }

  /** The region sent with the order, from the lower-cased datacenter code;
      the groups are tried in the order Europe, Canada, USA, APAC. */
  function InferRegion(dc: string): (r: Option<Region>)
    ensures r == Some(Europe) <==> StartsWithAny(Lower(dc), EuPrefixes)
    ensures r.None? <==> (!StartsWithAny(Lower(dc), EuPrefixes) && !StartsWithAny(Lower(dc), CanadaPrefixes)
                          && !StartsWithAny(Lower(dc), UsPrefixes) && !StartsWithAny(Lower(dc), ApacPrefixes))
  {
    var d := Lower(dc);
    if StartsWithAny(d, EuPrefixes) then Some(Europe)
    else if StartsWithAny(d, CanadaPrefixes) then Some(Canada)
    else if StartsWithAny(d, UsPrefixes) then Some(Usa)
    else if StartsWithAny(d, ApacPrefixes) then Some(Apac)
    else None
  }

  /** Strings sharing a three-letter prefix agree on those three letters. */
  lemma PrefixesClash(s: string, a: string, b: string)
    requires |a| == 3 && |b| == 3 && StartsWith(s, a) && StartsWith(s, b)
    ensures a == b
  {
  }

  /** No code starts with prefixes of two groups, so the order in which the
      groups are tried never matters: each region is chosen exactly when
      the code starts with one of its own prefixes. */
  lemma InferRegionByGroup(dc: string)
    ensures InferRegion(dc) == Some(Canada) <==> StartsWithAny(Lower(dc), CanadaPrefixes)
    ensures InferRegion(dc) == Some(Usa) <==> StartsWithAny(Lower(dc), UsPrefixes)
    ensures InferRegion(dc) == Some(Apac) <==> StartsWithAny(Lower(dc), ApacPrefixes)
  {
    var d := Lower(dc);
    if StartsWithAny(d, CanadaPrefixes) || StartsWithAny(d, UsPrefixes) || StartsWithAny(d, ApacPrefixes) {
      assert |d| >= 3 && d[..3] in CanadaPrefixes + UsPrefixes + ApacPrefixes;
      assert !StartsWithAny(d, EuPrefixes);
    }
    if StartsWithAny(d, UsPrefixes) || StartsWithAny(d, ApacPrefixes) {
      assert !StartsWithAny(d, CanadaPrefixes);
    }
    if StartsWithAny(d, ApacPrefixes) {
      assert !StartsWithAny(d, UsPrefixes);
    }
  }

  /** The configuration items set on the cart item, in order. */
  function CartConfiguration(item: QueueItem): (r: seq<(string, string)>)
    ensures |r| >= 2 && r[0] == ("dedicated_datacenter", item.datacenter) && r[1] == ("dedicated_os", "none_64.en")
    ensures |r| == 3 <==> InferRegion(item.datacenter).Some?
    ensures |r| == 3 ==> r[2] == ("region", RegionName(InferRegion(item.datacenter).value))
  {
    var base := [("dedicated_datacenter", item.datacenter), ("dedicated_os", "none_64.en")];
    match InferRegion(item.datacenter)
    case Some(region) => base + [("region", RegionName(region))]
    case None => base
  }

  // ---------------------------------------------------------------------
  // Hardware option filter
  // ---------------------------------------------------------------------

  /** A requested option as it arrives in JSON: a string or something else. */
  datatype OptionValue = Str(s: string) | NotString

  const SkipTerms: seq<string> := ["windows-server", "sql-server", "cpanel-license", "plesk-",
    "-license-", "os-", "control-panel", "panel", "license", "security"]

  /** Whether the lower-cased option names software or a licence. */
  predicate IsSkipped(opt: string)
  {
    exists k :: 0 <= k < |SkipTerms| && Contains(Lower(opt), SkipTerms[k])
  }

  predicate KeepsOption(o: OptionValue) { o.Str? && o.s != "" && !IsSkipped(o.s) }

  /** `filtered_hardware_options`: the non-empty strings that name no
      software or licence, in request order. */
  function FilterHardwareOptions(opts: seq<OptionValue>): (r: seq<string>)
    ensures |r| <= |opts|
    ensures forall i :: 0 <= i < |r| ==> r[i] != "" && !IsSkipped(r[i]) && Str(r[i]) in opts
    ensures forall i :: 0 <= i < |opts| && KeepsOption(opts[i]) ==> opts[i].s in r
  {
    if opts == [] then []
    else if KeepsOption(opts[0]) then [opts[0].s] + FilterHardwareOptions(opts[1..])
    else FilterHardwareOptions(opts[1..])
  }

  function Strings(opts: seq<OptionValue>): seq<string>
  {
    if opts == [] then [] else (if opts[0].Str? then [opts[0].s] else []) + Strings(opts[1..])
  }

  /** The kept options are an order-preserving subsequence of the requested
      strings. */
  lemma {:induction false} FilterHardwareOptionsSubseq(opts: seq<OptionValue>)
    ensures Subseq(FilterHardwareOptions(opts), Strings(opts))
    decreases |opts|
  {
    if opts != [] {
      FilterHardwareOptionsSubseq(opts[1..]);
      if opts[0].Str? {
        if KeepsOption(opts[0]) {
          assert Strings(opts) == [opts[0].s] + Strings(opts[1..]);
        } else {
          SubseqConsRight(FilterHardwareOptions(opts[1..]), Strings(opts[1..]), opts[0].s);
          assert Strings(opts) == [opts[0].s] + Strings(opts[1..]);
        }
      } else {
        assert Strings(opts) == Strings(opts[1..]);
      }
    }
  }

  // ---------------------------------------------------------------------
  // Purchase history and the whole attempt
  // ---------------------------------------------------------------------

  /** One purchase-history record; `taskId` links it to its queue item. */
  datatype HistoryEntry = HistoryEntry(
    id: string,
    taskId: Option<string>,
    planCode: string,
    datacenter: string,
    options: seq<string>,
    status: string,
    orderId: Option<string>,
    orderUrl: Option<string>,
    errorMessage: Option<string>,
    purchaseTime: string,
    attemptCount: int)

  /** How the cart, configuration and checkout calls ended. */
  datatype OrderOutcome = Ordered(orderId: string, url: string) | OrderError(message: string)

  /** The fetch of the availability listing: its result or the error text. */
  datatype Fetch = Fetched(items: seq<AvailabilityItem>) | FetchError(message: string)

  function FindHistory(h: seq<HistoryEntry>, taskId: string): (r: Option<nat>)
    ensures r.None? <==> forall j :: 0 <= j < |h| ==> h[j].taskId != Some(taskId)
    ensures r.Some? ==> r.value < |h| && h[r.value].taskId == Some(taskId)
    ensures r.Some? ==> forall j :: 0 <= j < r.value ==> h[j].taskId != Some(taskId)
  {
    if h == [] then None
    else if h[0].taskId == Some(taskId) then Some(0)
    else match FindHistory(h[1..], taskId)
      case None => None
      case Some(k) => Some(k + 1)
  }

  /** The record an outcome leaves: "success" with the order, or "failed"
      with the error text. */
  function Outcome(e: HistoryEntry, item: QueueItem, outcome: OrderOutcome, now: string): (r: HistoryEntry)
    ensures r.id == e.id && r.taskId == e.taskId && r.planCode == e.planCode && r.datacenter == e.datacenter
    ensures r.status == (if outcome.Ordered? then "success" else "failed")
    ensures r.attemptCount == item.retryCount && r.options == item.options && r.purchaseTime == now
    ensures outcome.Ordered? <==> r.errorMessage.None?
  {
    match outcome
    case Ordered(o, u) =>
      e.(status := "success", orderId := Some(o), orderUrl := Some(u), errorMessage := None,
         purchaseTime := now, attemptCount := item.retryCount, options := item.options)
    case OrderError(msg) =>
      e.(status := "failed", orderId := None, orderUrl := None, errorMessage := Some(msg),
         purchaseTime := now, attemptCount := item.retryCount, options := item.options)
  }

  /** Updates the first record of the item's task, or appends a new one. */
  function RecordAttempt(h: seq<HistoryEntry>, item: QueueItem, outcome: OrderOutcome, newId: string, now: string)
    : (r: seq<HistoryEntry>)
    ensures FindHistory(h, item.id).Some? ==> |r| == |h|
    ensures FindHistory(h, item.id).None? ==> |r| == |h| + 1 && r[..|h|] == h
    ensures forall j :: 0 <= j < |h| && (FindHistory(h, item.id).None? || j != FindHistory(h, item.id).value) ==> r[j] == h[j]
    ensures FindHistory(r, item.id).Some?
    ensures var k := FindHistory(r, item.id).value;
      r[k].status == (if outcome.Ordered? then "success" else "failed") && r[k].attemptCount == item.retryCount
  {
    match FindHistory(h, item.id)
    case Some(k) => h[k := Outcome(h[k], item, outcome, now)]
    case None =>
      var entry := HistoryEntry(newId, Some(item.id), item.planCode, item.datacenter, item.options,
        "", None, None, None, now, item.retryCount);
      var r := h + [Outcome(entry, item, outcome, now)];
      assert r[|h|].taskId == Some(item.id);
      r
  }

  /** At most one record per task. */
  predicate UniqueTasks(h: seq<HistoryEntry>)
  {
    forall i, j :: 0 <= i < j < |h| && h[i].taskId.Some? ==> h[i].taskId != h[j].taskId
  }

  /** Recording an attempt never creates a second record for a task. */
  lemma RecordAttemptKeepsTasksUnique(h: seq<HistoryEntry>, item: QueueItem, outcome: OrderOutcome,
                                      newId: string, now: string)
    requires UniqueTasks(h)
    ensures UniqueTasks(RecordAttempt(h, item, outcome, newId, now))
  {
    var r := RecordAttempt(h, item, outcome, newId, now);
    match FindHistory(h, item.id)
    case Some(k) =>
      assert forall j :: 0 <= j < |h| ==> r[j].taskId == h[j].taskId;
    case None =>
      assert forall j :: 0 <= j < |h| ==> r[j].taskId == h[j].taskId;
  }

  /** `purchase_server`: `clientOk` says whether an OVH client could be
      built. Returns whether the order went through and the history after
      the attempt. */
  function PurchaseServer(item: QueueItem, clientOk: bool, fetch: Fetch, order: OrderOutcome,
                          h: seq<HistoryEntry>, newId: string, now: string): (r: (bool, seq<HistoryEntry>))
    ensures r.0 <==> clientOk && fetch.Fetched? && FoundAvailable(fetch.items, item.datacenter) && order.Ordered?
    ensures !clientOk || (fetch.Fetched? && !FoundAvailable(fetch.items, item.datacenter)) ==> r.1 == h
    ensures clientOk && fetch.FetchError? ==> r.1 == RecordAttempt(h, item, OrderError(fetch.message), newId, now)
    ensures clientOk && fetch.Fetched? && FoundAvailable(fetch.items, item.datacenter) ==>
      r.1 == RecordAttempt(h, item, order, newId, now)
  {
    if !clientOk then (false, h)
    else match fetch
      case FetchError(msg) => (false, RecordAttempt(h, item, OrderError(msg), newId, now))
      case Fetched(items) =>
        if !FoundAvailable(items, item.datacenter) then (false, h)
        else (order.Ordered?, RecordAttempt(h, item, order, newId, now))
  }
}

=== FILE: purchase_queue.dfy ===
// The purchase queue of the backend: queue items, the add / remove / clear /
// status-update handlers with their tombstone set of deleted ids, and one
// pass of the background `process_queue` worker.

module PurchaseQueue {
  import opened Text

  /** A queue item's status. The handlers store whatever string a client
      sends, so unknown names are kept verbatim in `Other`. */
  datatype Status = Running | Pending | Paused | Completed | Failed | Other(name: string)

  function StatusName(s: Status): string
  {
    match s
    case Running => "running"
    case Pending => "pending"
    case Paused => "paused"
    case Completed => "completed"
    case Failed => "failed"
    case Other(n) => n
  }

  /** Reads a status string as stored in the queue file. */
  function ParseStatus(name: string): (s: Status)
    ensures StatusName(s) == name
    ensures s.Other? <==> name !in KnownStatusNames
  {
    if name == "running" then Running
    else if name == "pending" then Pending
    else if name == "paused" then Paused
    else if name == "completed" then Completed
    else if name == "failed" then Failed
    else Other(name)
  }

  const KnownStatusNames: set<string> := {"running", "pending", "paused", "completed", "failed"}

  /** `Other` never hides one of the five known names. */
  predicate CanonicalStatus(s: Status) { s.Other? ==> s.name !in KnownStatusNames }

  /** Parsing the printed name of a canonical status gives it back. */
  lemma ParseStatusName(s: Status)
    requires CanonicalStatus(s)
    ensures ParseStatus(StatusName(s)) == s
  {
  }

  /** The statuses counted as active by the statistics and the dashboard. */
  predicate IsActive(s: Status) { s == Running || s == Pending || s == Paused }

  /** A queue entry. Times are whole seconds of the wall clock; `updatedAt`
      and `createdAt` are the clock's ISO rendering, passed in. */
  datatype QueueItem = QueueItem(
    id: string,
    planCode: string,
    datacenter: string,
    options: seq<string>,
    status: Status,
    createdAt: string,
    updatedAt: string,
    retryInterval: int,
    retryCount: int,
    lastCheckTime: int,
    configSniperTaskId: Option<string>)

  /** The live queue and the set of ids marked deleted. */
  datatype QueueState = QueueState(queue: seq<QueueItem>, deleted: set<string>)

  /** The wall clock at one instant: seconds and ISO text. */
  datatype Clock = Clock(seconds: int, iso: string)

  const DefaultRetryInterval: int := 30

  /** The JSON body of `POST /api/queue`; absent fields are `None`. */
  datatype AddRequest = AddRequest(
    planCode: Option<string>,
    datacenter: Option<string>,
    options: Option<seq<string>>,
    retryInterval: Option<int>)

  function GetOr<T>(o: Option<T>, d: T): T { if o.Some? then o.value else d }

  predicate HasId(q: seq<QueueItem>, id: string) { exists i :: 0 <= i < |q| && q[i].id == id }

  function Ids(q: seq<QueueItem>): set<string> { set i | 0 <= i < |q| :: q[i].id }

  /** `add_queue_item`: appends a running item that has never been tried. */
  function AddQueueItem(st: QueueState, req: AddRequest, newId: string, now: Clock): (r: QueueState)
    ensures |r.queue| == |st.queue| + 1 && r.queue[..|st.queue|] == st.queue
    ensures r.deleted == st.deleted
    ensures var it := r.queue[|st.queue|];
      && it.id == newId && it.status == Running
      && it.retryCount == 0 && it.lastCheckTime == 0
      && it.planCode == (if req.planCode.Some? then req.planCode.value else "")
      && it.datacenter == (if req.datacenter.Some? then req.datacenter.value else "")
      && it.options == (if req.options.Some? then req.options.value else [])
      && it.retryInterval == (if req.retryInterval.Some? then req.retryInterval.value else DefaultRetryInterval)
      && it.configSniperTaskId.None?
  {
    var item := QueueItem(newId, GetOr(req.planCode, ""), GetOr(req.datacenter, ""), GetOr(req.options, []),
      Running, now.iso, now.iso, GetOr(req.retryInterval, DefaultRetryInterval), 0, 0, None);
    QueueState(st.queue + [item], st.deleted)
  }

  /** `remove_queue_item`: when some item has the id, the id is marked
      deleted and every item with it is dropped; otherwise nothing changes. */
  function RemoveQueueItem(st: QueueState, id: string): (r: QueueState)
    ensures !HasId(st.queue, id) ==> r == st
    ensures HasId(st.queue, id) ==> r.deleted == st.deleted + {id}
    ensures !HasId(r.queue, id)
    ensures forall i :: 0 <= i < |st.queue| && st.queue[i].id != id ==> st.queue[i] in r.queue
    ensures forall i :: 0 <= i < |r.queue| ==> r.queue[i] in st.queue
  {
    if HasId(st.queue, id) then
      QueueState(Filter(st.queue, (it: QueueItem) => it.id != id), st.deleted + {id})
    else st
  }

  /** Removal keeps the remaining items in their original order. */
  lemma RemoveQueueItemKeepsOrder(st: QueueState, id: string)
    ensures Subseq(RemoveQueueItem(st, id).queue, st.queue)
  {
    if HasId(st.queue, id) {
      FilterSubseq(st.queue, (it: QueueItem) => it.id != id);
    } else {
      SubseqRefl(st.queue);
    }
  }

  /** `clear_all_queue`: marks every listed id deleted, empties the queue and
      reports how many items it held. */
  function ClearAllQueue(st: QueueState): (r: (QueueState, nat))
    ensures r.1 == |st.queue|
    ensures r.0.queue == []
    ensures st.deleted <= r.0.deleted
    ensures forall i :: 0 <= i < |st.queue| ==> st.queue[i].id in r.0.deleted
    ensures forall x :: x in r.0.deleted ==> x in st.deleted || HasId(st.queue, x)
  {
    (QueueState([], st.deleted + Ids(st.queue)), |st.queue|)
  }

  /** Index of the first item with the id, as Python's `next(...)` finds it. */
  function FindItem(q: seq<QueueItem>, id: string): (r: Option<nat>)
    ensures r.None? <==> !HasId(q, id)
    ensures r.Some? ==> r.value < |q| && q[r.value].id == id
    ensures r.Some? ==> forall j :: 0 <= j < r.value ==> q[j].id != id
  {
    if q == [] then None
    else if q[0].id == id then Some(0)
    else match FindItem(q[1..], id)
      case None => None
      case Some(k) => Some(k + 1)
  }

  /** `update_queue_status`: the first item with the id gets the requested
      status (default "pending"); nothing else changes. */
  function UpdateQueueStatus(st: QueueState, id: string, status: Option<string>, now: Clock): (r: QueueState)
    ensures r.deleted == st.deleted && |r.queue| == |st.queue|
    ensures !HasId(st.queue, id) ==> r == st
    ensures HasId(st.queue, id) ==>
      exists k :: 0 <= k < |st.queue| && st.queue[k].id == id
        && (forall j :: 0 <= j < k ==> st.queue[j].id != id)
        && r.queue[k] == st.queue[k].(status := ParseStatus(GetOr(status, "pending")), updatedAt := now.iso)
        && (forall j :: 0 <= j < |st.queue| && j != k ==> r.queue[j] == st.queue[j])
  {
    match FindItem(st.queue, id)
    case None => st
    case Some(k) =>
      var it := st.queue[k];
      QueueState(st.queue[k := it.(status := ParseStatus(GetOr(status, "pending")), updatedAt := now.iso)], st.deleted)
  }

  // ---------------------------------------------------------------------
  // One pass of the background worker
  // ---------------------------------------------------------------------

  /** A running item is due on its first try or once its interval has passed. */
  predicate Due(it: QueueItem, now: int)
  {
    it.lastCheckTime == 0 || now - it.lastCheckTime >= it.retryInterval
  }

  /** Whether the worker tries to buy this item on this pass. */
  predicate Attempts(it: QueueItem, deleted: set<string>, live: set<string>, now: int)
  {
    it.id !in deleted && it.id in live && it.status == Running && Due(it, now)
  }

  /** The item as handed to the purchase: checked now, one more try. */
  function Tried(it: QueueItem, now: Clock): (r: QueueItem)
    ensures r.lastCheckTime == now.seconds && r.retryCount == it.retryCount + 1
    ensures r.id == it.id && r.status == it.status && r.planCode == it.planCode && r.datacenter == it.datacenter
  {
    it.(lastCheckTime := now.seconds, retryCount := it.retryCount + 1, updatedAt := now.iso)
  }

  /** The outcome of handling one item of the worker's snapshot. */
  datatype StepResult = StepResult(item: QueueItem, deleted: set<string>, attempted: bool)

  /** `process_queue`, body of the loop for one item. `live` are the ids
      currently in the queue and `purchase` is the outcome of
      `purchase_server` for the item it is given. */
  function StepItem(it: QueueItem, deleted: set<string>, live: set<string>, now: Clock,
                    purchase: QueueItem -> bool): (r: StepResult)
    ensures r.attempted <==> Attempts(it, deleted, live, now.seconds)
    ensures !r.attempted ==> r.item == it
    ensures r.attempted ==> r.item.lastCheckTime == now.seconds && r.item.retryCount == it.retryCount + 1
    ensures r.attempted ==> (r.item.status == Completed <==> purchase(Tried(it, now)))
    ensures r.attempted && !purchase(Tried(it, now)) ==> r.item.status == Running
    ensures r.item.id == it.id
    ensures r.deleted == if it.id !in deleted && it.id !in live then deleted + {it.id} else deleted
  {
    if it.id in deleted then StepResult(it, deleted, false)
    else if it.id !in live then StepResult(it, deleted + {it.id}, false)
    else if it.status != Running || !Due(it, now.seconds) then StepResult(it, deleted, false)
    else
      var tried := Tried(it, now);
      if purchase(tried) then StepResult(tried.(status := Completed), deleted, true)
      else StepResult(tried, deleted, true)
  }

  /** Items marked deleted or not running are left exactly as they are. */
  lemma StepLeavesIdleUntouched(it: QueueItem, deleted: set<string>, live: set<string>, now: Clock,
                                purchase: QueueItem -> bool)
    requires it.id in deleted || it.status != Running
    ensures StepItem(it, deleted, live, now, purchase).item == it
  {
  }

  /** Trying an item again at the same instant does nothing: once an
      attempt has stamped a nonzero time, a positive interval must pass. */
  lemma NoSecondAttemptAtSameInstant(it: QueueItem, deleted: set<string>, live: set<string>, now: Clock,
                                     purchase: QueueItem -> bool)
    requires now.seconds != 0 && it.retryInterval > 0
    ensures var r := StepItem(it, deleted, live, now, purchase);
      !StepItem(r.item, r.deleted, live, now, purchase).attempted
  {
  }

  /** A freshly added item is tried on the worker's next pass. */
  lemma NewItemIsDue(st: QueueState, req: AddRequest, newId: string, added: Clock, now: Clock,
                     purchase: QueueItem -> bool)
    requires newId !in st.deleted
    ensures var q := AddQueueItem(st, req, newId, added).queue;
      StepItem(q[|q| - 1], st.deleted, Ids(q), now, purchase).attempted
  {
    var q := AddQueueItem(st, req, newId, added).queue;
    assert q[|q| - 1].id == newId;
    assert newId in Ids(q);
  }

  /** A removed item is never tried again, whatever snapshot the worker holds. */
  lemma RemovedItemNeverAttempted(st: QueueState, id: string, it: QueueItem, live: set<string>, now: Clock,
                                  purchase: QueueItem -> bool)
    requires HasId(st.queue, id) && it.id == id
    ensures !StepItem(it, RemoveQueueItem(st, id).deleted, live, now, purchase).attempted
  {
  }

  /** Clearing the queue stops every item it held: a worker still holding the
      old snapshot skips each of them. */
  lemma ClearedItemNeverAttempted(st: QueueState, it: QueueItem, live: set<string>, now: Clock,
                                  purchase: QueueItem -> bool)
    requires it in st.queue
    ensures !StepItem(it, ClearAllQueue(st).0.deleted, live, now, purchase).attempted
  {
  }

  /** `Attempts` as a filter over a snapshot. */
  function AttemptsNow(deleted: set<string>, live: set<string>, now: int): QueueItem -> bool
  {
    (it: QueueItem) => Attempts(it, deleted, live, now)
  }

  /** One iteration of the pass keeps its invariant. */
  lemma PassStep(items: seq<QueueItem>, deleted: set<string>, live: set<string>, now: Clock,
                 purchase: QueueItem -> bool, i: nat, out: seq<QueueItem>, attempts: nat)
    requires i < |items| && |out| == i
    requires forall j :: 0 <= j < i ==> out[j] == StepItem(items[j], deleted, live, now, purchase).item
    requires attempts == Count(items[..i], AttemptsNow(deleted, live, now.seconds))
    ensures var step := StepItem(items[i], deleted, live, now, purchase);
      && (forall j :: 0 <= j < i + 1 ==> (out + [step.item])[j] == StepItem(items[j], deleted, live, now, purchase).item)
      && attempts + (if step.attempted then 1 else 0) == Count(items[..i + 1], AttemptsNow(deleted, live, now.seconds))
  {
    CountSnoc(items[..i], items[i], AttemptsNow(deleted, live, now.seconds));
    assert items[..i + 1] == items[..i] + [items[i]];
  }

  /** Replaces each item of the snapshot by its step result; the id sets are
      those of the queue, which a pass does not change. */
  method ProcessPass(st: QueueState, now: Clock, purchase: QueueItem -> bool) returns (r: QueueState, attempts: nat)
    ensures |r.queue| == |st.queue| && r.deleted == st.deleted
    ensures forall i :: 0 <= i < |st.queue| ==>
      r.queue[i] == StepItem(st.queue[i], st.deleted, Ids(st.queue), now, purchase).item
    ensures attempts == Count(st.queue, AttemptsNow(st.deleted, Ids(st.queue), now.seconds))
  {
    // The pass edits items in place, so the live ids stay those of the
    // snapshot and no step adds to the deleted set.
    var live := Ids(st.queue);
    var out: seq<QueueItem> := [];
    attempts := 0;
    var i := 0;
    while i < |st.queue|
      invariant 0 <= i <= |st.queue| && |out| == i
      invariant forall j :: 0 <= j < i ==> out[j] == StepItem(st.queue[j], st.deleted, live, now, purchase).item
      invariant attempts == Count(st.queue[..i], AttemptsNow(st.deleted, live, now.seconds))
    {
      var step := StepItem(st.queue[i], st.deleted, live, now, purchase);
      PassStep(st.queue, st.deleted, live, now, purchase, i, out, attempts);
      out := out + [step.item];
      if step.attempted { attempts := attempts + 1; }
      i := i + 1;
    }
    assert st.queue[..i] == st.queue;
    r := QueueState(out, st.deleted);
  }
}

=== FILE: queue_page.dfy ===
// The purchase-queue page of the front end: the start/pause toggle, the
// datacenter multi-select of the add form, the add action that posts one
// queue item per selected datacenter, and the guarded retry-interval input.
// Request outcomes are parameters; toasts and rendering are not modelled.

module QueuePage {
  import opened Text
  import opened Constants

  /** `toggleQueueItemStatus`: the status sent for an item's play/pause button. */
  function ToggleStatus(current: string): (r: string)
    ensures r == "paused" <==> current == "running"
    ensures r == "running" <==> current != "running"
  {
    if current == "running" then "paused"
    else if current == "paused" then "running"
    else "running"
  }

  /** Pausing and resuming are inverse: on a running or paused item two
      clicks restore the status. */
  lemma ToggleStatusTwice(s: string)
    requires s == "running" || s == "paused"
    ensures ToggleStatus(ToggleStatus(s)) == s
  {
  }

  /** `handleDatacenterChange`: deselect a selected code, append an
      unselected one. */
  function ToggleDatacenter(selected: seq<string>, dc: string): (r: seq<string>)
    ensures dc in r <==> dc !in selected
    ensures forall x :: x != dc ==> (x in r <==> x in selected)
    ensures dc !in selected ==> r == selected + [dc]
    ensures dc in selected ==> Subseq(r, selected)
  {
    if dc in selected then
      FilterSubseq(selected, (d: string) => d != dc);
      Filter(selected, (d: string) => d != dc)
    else selected + [dc]
  }

  /** The selection stays free of duplicates. */
  lemma ToggleDatacenterKeepsNoDup(selected: seq<string>, dc: string)
    requires NoDup(selected)
    ensures NoDup(ToggleDatacenter(selected, dc))
  {
    var r := ToggleDatacenter(selected, dc);
    if dc in selected {
      FilterNoDup(selected, (d: string) => d != dc);
    }
  }

  lemma {:induction false} FilterNoDup<T>(s: seq<T>, p: T -> bool)
    requires NoDup(s)
    ensures NoDup(Filter(s, p))
    decreases |s|
  {
    if |s| > 0 {
      assert NoDup(s[1..]) by {
        forall i, j | 0 <= i < j < |s[1..]| ensures s[1..][i] != s[1..][j] {
          assert s[1..][i] == s[i + 1] && s[1..][j] == s[j + 1];
        }
      }
      FilterNoDup(s[1..], p);
      var rest := Filter(s[1..], p);
      assert s[0] !in s[1..];
      assert s[0] !in rest;
      if p(s[0]) {
        assert Filter(s, p) == [s[0]] + rest;
      }
    }
  }

  /** Selecting an unselected datacenter and clicking it again restores the
      selection. */
  lemma ToggleDatacenterTwice(selected: seq<string>, dc: string)
    requires dc !in selected
    ensures ToggleDatacenter(ToggleDatacenter(selected, dc), dc) == selected
  {
    var once := selected + [dc];
    FilterAppend(selected, [dc], (d: string) => d != dc);
    FilterAll(selected, (d: string) => d != dc);
    assert Filter([dc], (d: string) => d != dc) == [];
  }

  /** The add form. */
  datatype Form = Form(planCodeInput: string, selectedDatacenters: seq<string>, retryInterval: int, showAddForm: bool)

  /** The body of one `POST /queue`. */
  datatype QueuePost = QueuePost(planCode: string, datacenter: string, retryInterval: int)

  datatype AddResult = AddResult(
    posts: seq<QueuePost>,
    successCount: nat,
    errorCount: nat,
    form: Form,
    refreshed: bool)

  /** The form after a (partly) successful add. */
  const ResetForm: Form := Form("", [], TaskRetryInterval, false)

  /** How many of the first `n` posts succeeded. */
  function Successes(succeeded: nat -> bool, n: nat): nat
  {
    if n == 0 then 0 else Successes(succeeded, n - 1) + (if succeeded(n - 1) then 1 else 0)
  }

  /** `addQueueItem`: nothing is posted for a blank plan code or an empty
      selection; otherwise one post per selected datacenter, in selection
      order, where `succeeded(i)` is the outcome of the i-th post.  The form
      is reset (and the queue reloaded) when some post succeeded or none
      failed. */
  method AddQueueItem(f: Form, succeeded: nat -> bool) returns (r: AddResult)
    ensures JsTrim(f.planCodeInput) == "" || f.selectedDatacenters == [] ==>
      r.posts == [] && r.form == f && !r.refreshed
    ensures JsTrim(f.planCodeInput) != "" && f.selectedDatacenters != [] ==>
      && |r.posts| == |f.selectedDatacenters|
      && (forall i :: 0 <= i < |r.posts| ==>
            r.posts[i] == QueuePost(JsTrim(f.planCodeInput), f.selectedDatacenters[i], f.retryInterval))
      && r.successCount + r.errorCount == |f.selectedDatacenters|
      && r.successCount == Successes(succeeded, |f.selectedDatacenters|)
    ensures JsTrim(f.planCodeInput) != "" && f.selectedDatacenters != [] ==>
      (r.refreshed <==> r.successCount > 0 || r.errorCount == 0)
      && r.form == (if r.refreshed then ResetForm else f)
  {
    var code := JsTrim(f.planCodeInput);
    if code == "" || f.selectedDatacenters == [] {
      return AddResult([], 0, 0, f, false);
    }
    var posts, ok, failed := PostEach(code, f.selectedDatacenters, f.retryInterval, succeeded);
    var refresh := ok > 0 || failed == 0;
    r := AddResult(posts, ok, failed, if refresh then ResetForm else f, refresh);
  }

  /** The loop of `addQueueItem`: one post per datacenter, counting the
      outcomes. */
  method PostEach(code: string, dcs: seq<string>, interval: int, succeeded: nat -> bool)
    returns (posts: seq<QueuePost>, ok: nat, failed: nat)
    ensures |posts| == |dcs| && ok + failed == |dcs|
    ensures forall i :: 0 <= i < |posts| ==> posts[i] == QueuePost(code, dcs[i], interval)
    ensures ok == Successes(succeeded, |dcs|)
  {
    posts, ok, failed := [], 0, 0;
    var i := 0;
    while i < |dcs|
      invariant 0 <= i <= |dcs|
      invariant |posts| == i && ok + failed == i
      invariant forall k :: 0 <= k < i ==> posts[k] == QueuePost(code, dcs[k], interval)
      invariant ok == Successes(succeeded, i)
    {
      posts := posts + [QueuePost(code, dcs[i], interval)];
      if succeeded(i) {
        ok := ok + 1;
      } else {
        failed := failed + 1;
      }
      i := i + 1;
    }
  }

  /** The retry-interval input: a value outside [30, 3600] (or not a
      number, None) is refused and the field keeps its value. */
  function RetryIntervalInput(current: int, value: Option<int>): (r: int)
    ensures value.Some? && ValidRetryInterval(value.value) ==> r == value.value
    ensures !(value.Some? && ValidRetryInterval(value.value)) ==> r == current
  {
    if value.Some? && value.value >= MinRetryInterval && value.value <= MaxRetryInterval then value.value
    else current
  }

  /** Starting from the valid default, the input never holds an invalid
      interval. */
  lemma RetryIntervalStaysValid(current: int, value: Option<int>)
    requires ValidRetryInterval(current)
    ensures ValidRetryInterval(RetryIntervalInput(current, value))
  {
  }
}

=== FILE: server_monitor.dfy ===
// The dedicated-server availability monitor: a registry of subscriptions
// keyed by plan code, the old -> new status transition rule that decides
// which datacenters raise an alert and a history entry, the history cap,
// the check-interval setter, the start/stop guards and the detection of
// newly listed plan codes.  Availability lookups, notifications and the
// clock are parameters; the monitoring thread is not modelled.

module ServerMonitor {
  import opened Text

  const Unavailable := "unavailable"
  const HistoryCap: nat := 100
  const MinCheckInterval := 60
  const DefaultCheckInterval := 60

  /** A datacenter -> status dictionary, in insertion order. */
  type StatusMap = seq<(string, string)>

  /** `dict.get(k)`: the status stored for the first occurrence of `k`. */
  function Lookup(m: StatusMap, k: string): (r: Option<string>)
    ensures r.Some? <==> exists i :: 0 <= i < |m| && m[i].0 == k
    ensures r.Some? ==> (k, r.value) in m
    decreases |m|
  {
    if m == [] then None
    else if m[0].0 == k then Some(m[0].1)
    else
      var r := Lookup(m[1..], k);
      assert forall i :: 1 <= i < |m| ==> m[i] == m[1..][i - 1];
      r
  }

  datatype Change = BecameAvailable | BecameUnavailable

  datatype HistoryEntry = HistoryEntry(
    timestamp: string,
    datacenter: string,
    status: string,
    changeType: Change,
    oldStatus: Option<string>)

  datatype Subscription = Subscription(
    planCode: string,
    datacenters: seq<string>,      // empty: every datacenter is monitored
    notifyAvailable: bool,
    notifyUnavailable: bool,
    lastStatus: StatusMap,
    createdAt: string,
    history: seq<HistoryEntry>)

  // ---------------------------------------------------------------------
  // Registry
  // ---------------------------------------------------------------------

  predicate HasPlan(subs: seq<Subscription>, planCode: string)
  {
    exists i :: 0 <= i < |subs| && subs[i].planCode == planCode
  }

  predicate UniquePlanCodes(subs: seq<Subscription>)
  {
    forall i, j :: 0 <= i < j < |subs| ==> subs[i].planCode != subs[j].planCode
  }

  /** Index of the first subscription for `planCode`. */
  function FindSub(subs: seq<Subscription>, planCode: string): (r: Option<nat>)
    ensures r.Some? <==> HasPlan(subs, planCode)
    ensures r.Some? ==> r.value < |subs| && subs[r.value].planCode == planCode
    ensures r.Some? ==> forall j :: 0 <= j < r.value ==> subs[j].planCode != planCode
    decreases |subs|
  {
    if subs == [] then None
    else if subs[0].planCode == planCode then Some(0)
    else
      match FindSub(subs[1..], planCode)
      case None =>
        assert forall i :: 1 <= i < |subs| ==> subs[i] == subs[1..][i - 1];
        None
      case Some(k) => Some(k + 1)
  }

  /** `add_subscription`: an existing plan code has its datacenters and
      notification flags replaced in place; a new one is appended with an
      empty last status and history.  `datacenters` is already `datacenters
      or []`, and `createdAt` is the clock. */
  function AddSubscription(subs: seq<Subscription>, planCode: string, datacenters: seq<string>,
                           notifyAvailable: bool, notifyUnavailable: bool, createdAt: string)
    : (r: seq<Subscription>)
    ensures HasPlan(subs, planCode) ==> |r| == |subs|
    ensures HasPlan(subs, planCode) ==>
      var k := FindSub(subs, planCode).value;
      r[k] == subs[k].(datacenters := datacenters, notifyAvailable := notifyAvailable,
                       notifyUnavailable := notifyUnavailable)
      && forall j :: 0 <= j < |subs| && j != k ==> r[j] == subs[j]
    ensures !HasPlan(subs, planCode) ==>
      r == subs + [Subscription(planCode, datacenters, notifyAvailable, notifyUnavailable, [], createdAt, [])]
  {
    match FindSub(subs, planCode)
    case Some(k) =>
      subs[k := subs[k].(datacenters := datacenters, notifyAvailable := notifyAvailable,
                         notifyUnavailable := notifyUnavailable)]
    case None =>
      subs + [Subscription(planCode, datacenters, notifyAvailable, notifyUnavailable, [], createdAt, [])]
  }

  /** Adding keeps plan codes unique, never shrinks the registry, and the
      plan code is registered afterwards. */
  lemma AddSubscriptionKeepsUnique(subs: seq<Subscription>, planCode: string, datacenters: seq<string>,
                                   notifyAvailable: bool, notifyUnavailable: bool, createdAt: string)
    requires UniquePlanCodes(subs)
    ensures UniquePlanCodes(AddSubscription(subs, planCode, datacenters, notifyAvailable, notifyUnavailable, createdAt))
    ensures HasPlan(AddSubscription(subs, planCode, datacenters, notifyAvailable, notifyUnavailable, createdAt), planCode)
  {
    var r := AddSubscription(subs, planCode, datacenters, notifyAvailable, notifyUnavailable, createdAt);
    if HasPlan(subs, planCode) {
      var k := FindSub(subs, planCode).value;
      assert forall j :: 0 <= j < |r| ==> r[j].planCode == subs[j].planCode;
      assert r[k].planCode == planCode;
    } else {
      assert r[|subs|].planCode == planCode;
    }
  }

  /** `remove_subscription`: drops every subscription for the plan code,
      keeping the others in order; the flag says whether one existed. */
  function RemoveSubscription(subs: seq<Subscription>, planCode: string): (r: (seq<Subscription>, bool))
    ensures r.1 <==> HasPlan(subs, planCode)
    ensures !r.1 ==> r.0 == subs
    ensures forall i :: 0 <= i < |r.0| ==> r.0[i].planCode != planCode
    ensures forall i :: 0 <= i < |subs| && subs[i].planCode != planCode ==> subs[i] in r.0
    ensures Subseq(r.0, subs)
  {
    var kept := Filter(subs, (s: Subscription) => s.planCode != planCode);
    FilterSubseq(subs, (s: Subscription) => s.planCode != planCode);
    RemoveShrinksIffPresent(subs, planCode);
    (kept, |kept| < |subs|)
  }

  lemma RemoveShrinksIffPresent(subs: seq<Subscription>, planCode: string)
    ensures |Filter(subs, (s: Subscription) => s.planCode != planCode)| < |subs| <==> HasPlan(subs, planCode)
    ensures !HasPlan(subs, planCode) ==> Filter(subs, (s: Subscription) => s.planCode != planCode) == subs
  {
    if !HasPlan(subs, planCode) {
      KeepAllIsIdentity(subs, planCode);
    } else {
      var i :| 0 <= i < |subs| && subs[i].planCode == planCode;
      FilterDropsOne(subs, planCode, i);
    }
  }

  lemma {:induction false} KeepAllIsIdentity(subs: seq<Subscription>, planCode: string)
    requires !HasPlan(subs, planCode)
    ensures Filter(subs, (s: Subscription) => s.planCode != planCode) == subs
    decreases |subs|
  {
    if subs != [] {
      assert !HasPlan(subs[1..], planCode) by {
        assert forall i :: 1 <= i < |subs| ==> subs[i] == subs[1..][i - 1];
      }
      KeepAllIsIdentity(subs[1..], planCode);
      assert subs == [subs[0]] + subs[1..];
    }
  }

  lemma {:induction false} FilterDropsOne(subs: seq<Subscription>, planCode: string, i: nat)
    requires i < |subs| && subs[i].planCode == planCode
    ensures |Filter(subs, (s: Subscription) => s.planCode != planCode)| < |subs|
    decreases |subs|
  {
    if i > 0 {
      assert subs[1..][i - 1] == subs[i];
      FilterDropsOne(subs[1..], planCode, i - 1);
    }
  }

  /** `clear_subscriptions`: the registry becomes empty and the previous
      size is returned. */
  function ClearSubscriptions(subs: seq<Subscription>): (r: (seq<Subscription>, nat))
    ensures r.0 == [] && r.1 == |subs|
  {
    ([], |subs|)
  }

  // ---------------------------------------------------------------------
  // Transition rule
  // ---------------------------------------------------------------------

  /** The alert (if any) for one datacenter whose previous status was `prev`
      (None when never seen) and whose current status is `status`. */
  function Classify(prev: Option<string>, status: string, notifyAvailable: bool, notifyUnavailable: bool)
    : (r: Option<Change>)
    ensures r == Some(BecameAvailable) <==>
      notifyAvailable && (prev.None? || prev == Some(Unavailable)) && status != Unavailable
    ensures r == Some(BecameUnavailable) <==>
      notifyUnavailable && prev.Some? && prev != Some(Unavailable) && status == Unavailable
  {
    if prev.None? && status != Unavailable then
      if notifyAvailable then Some(BecameAvailable) else None
    else if prev == Some(Unavailable) && status != Unavailable then
      if notifyAvailable then Some(BecameAvailable) else None
    else if prev.Some? && prev != Some(Unavailable) && status == Unavailable then
      if notifyUnavailable then Some(BecameUnavailable) else None
    else None
  }

  /** A datacenter the subscription watches: all of them when its list is empty. */
  predicate Monitored(sub: Subscription, dc: string)
  {
    sub.datacenters == [] || dc in sub.datacenters
  }

  /** The history entry one datacenter of the current availability produces. */
  function Fire(sub: Subscription, dc: string, status: string, now: string): (r: Option<HistoryEntry>)
    ensures r.Some? <==>
      Monitored(sub, dc) && Classify(Lookup(sub.lastStatus, dc), status, sub.notifyAvailable, sub.notifyUnavailable).Some?
    ensures r.Some? ==> r.value.datacenter == dc && r.value.status == status && r.value.timestamp == now
    ensures r.Some? ==> r.value.oldStatus == Lookup(sub.lastStatus, dc)
    ensures r.Some? ==>
      Classify(r.value.oldStatus, status, sub.notifyAvailable, sub.notifyUnavailable) == Some(r.value.changeType)
  {
    if !Monitored(sub, dc) then None
    else
      var prev := Lookup(sub.lastStatus, dc);
      match Classify(prev, status, sub.notifyAvailable, sub.notifyUnavailable)
      case None => None
      case Some(c) => Some(HistoryEntry(now, dc, status, c, prev))
  }

  /** A history entry that the subscription legitimately records for the
      availability `cur` observed at `now`. */
  predicate Justified(sub: Subscription, cur: StatusMap, now: string, e: HistoryEntry)
  {
    (e.datacenter, e.status) in cur && Fire(sub, e.datacenter, e.status, now) == Some(e)
  }

  /** Row by row, the entry each datacenter of `cur` fires, if any. */
  function AlertRows(sub: Subscription, cur: StatusMap, now: string): (r: seq<seq<HistoryEntry>>)
    ensures |r| == |cur|
    ensures forall i :: 0 <= i < |cur| ==>
      r[i] == match Fire(sub, cur[i].0, cur[i].1, now) case None => [] case Some(e) => [e]
  {
    seq(|cur|, i requires 0 <= i < |cur| => match Fire(sub, cur[i].0, cur[i].1, now) case None => [] case Some(e) => [e])
  }

  /** The first row's entry, then the rows of the rest. */
  lemma AlertRowsCons(sub: Subscription, cur: StatusMap, now: string)
    requires cur != []
    ensures Concat(AlertRows(sub, cur, now))
      == (match Fire(sub, cur[0].0, cur[0].1, now) case None => [] case Some(e) => [e])
         + Concat(AlertRows(sub, cur[1..], now))
  {
    assert AlertRows(sub, cur, now)[1..] == AlertRows(sub, cur[1..], now);
  }

  /** The entries one check records, in the order of the current availability. */
  function Alerts(sub: Subscription, cur: StatusMap, now: string): (r: seq<HistoryEntry>)
    ensures r == Concat(AlertRows(sub, cur, now))
    ensures |r| <= |cur|
    ensures forall i :: 0 <= i < |r| ==> Justified(sub, cur, now, r[i])
    ensures forall i :: 0 <= i < |cur| && Fire(sub, cur[i].0, cur[i].1, now).Some? ==>
      Fire(sub, cur[i].0, cur[i].1, now).value in r
    decreases |cur|
  {
    if cur == [] then []
    else
      var head := match Fire(sub, cur[0].0, cur[0].1, now) case None => [] case Some(e) => [e];
      var rest := Alerts(sub, cur[1..], now);
      var r := head + rest;
      forall i | 0 <= i < |r| ensures Justified(sub, cur, now, r[i]) {
        if i >= |head| {
          var e := rest[i - |head|];
          assert Justified(sub, cur[1..], now, e);
          assert (e.datacenter, e.status) in cur;
        }
      }
      forall i | 0 <= i < |cur| && Fire(sub, cur[i].0, cur[i].1, now).Some?
        ensures Fire(sub, cur[i].0, cur[i].1, now).value in r
      {
        if i > 0 {
          assert cur[i] == cur[1..][i - 1];
        }
      }
      AlertRowsCons(sub, cur, now);
      r
  }

  /** Append `es` one at a time, keeping the newest `HistoryCap` after each. */
  function AppendCapped(h: seq<HistoryEntry>, es: seq<HistoryEntry>): seq<HistoryEntry>
    decreases |es|
  {
    if es == [] then h else AppendCapped(Last(HistoryCap, h + [es[0]]), es[1..])
  }

  /** Appending with a cap after each entry keeps the same newest entries as
      capping once at the end. */
  lemma {:induction false} AppendCappedIsLast(h: seq<HistoryEntry>, es: seq<HistoryEntry>)
    ensures es != [] ==> AppendCapped(h, es) == Last(HistoryCap, h + es)
    decreases |es|
  {
    if es != [] {
      var h1 := Last(HistoryCap, h + [es[0]]);
      AppendCappedIsLast(h1, es[1..]);
      if es[1..] == [] {
        assert es == [es[0]];
      } else {
        LastAppend(HistoryCap, h + [es[0]], es[1..]);
        assert h + [es[0]] + es[1..] == h + es;
      }
    }
  }

  /** `check_availability_change`: an empty (or failed) lookup changes
      nothing; otherwise the justified entries are appended to the history,
      capped at the newest 100, and the last status becomes the whole
      current map.  Nothing else in the subscription changes. */
  function CheckAvailabilityChange(sub: Subscription, cur: StatusMap, now: string): (r: Subscription)
    ensures cur == [] ==> r == sub
    ensures cur != [] ==> r.lastStatus == cur
    ensures cur != [] && Alerts(sub, cur, now) == [] ==> r.history == sub.history
    ensures cur != [] && Alerts(sub, cur, now) != [] ==>
      r.history == Last(HistoryCap, sub.history + Alerts(sub, cur, now))
    ensures r == sub.(lastStatus := r.lastStatus, history := r.history)
  {
    if cur == [] then sub
    else
      var es := Alerts(sub, cur, now);
      AppendCappedIsLast(sub.history, es);
      sub.(lastStatus := cur, history := AppendCapped(sub.history, es))
  }

  /** The history never grows past the cap once it is within it, and every
      entry added by a check is justified by the observed availability. */
  lemma CheckKeepsHistoryBounded(sub: Subscription, cur: StatusMap, now: string)
    requires |sub.history| <= HistoryCap
    ensures |CheckAvailabilityChange(sub, cur, now).history| <= HistoryCap
    ensures forall e :: e in CheckAvailabilityChange(sub, cur, now).history ==>
      e in sub.history || Justified(sub, cur, now, e)
  {
    var r := CheckAvailabilityChange(sub, cur, now);
    if cur != [] && Alerts(sub, cur, now) != [] {
      var es := Alerts(sub, cur, now);
      forall e | e in r.history ensures e in sub.history || Justified(sub, cur, now, e) {
        LastIn(HistoryCap, sub.history + es, e);
        if e !in sub.history {
          var i :| 0 <= i < |es| && es[i] == e;
        }
      }
    }
  }

  /** With an explicit datacenter list, an unlisted datacenter never gets a
      history entry, whatever its transition. */
  lemma UnlistedDatacenterIsSilent(sub: Subscription, cur: StatusMap, now: string, dc: string)
    requires sub.datacenters != [] && dc !in sub.datacenters
    ensures forall e :: e in Alerts(sub, cur, now) ==> e.datacenter != dc
  {
    var es := Alerts(sub, cur, now);
    forall e | e in es ensures e.datacenter != dc {
      var i :| 0 <= i < |es| && es[i] == e;
      assert Justified(sub, cur, now, es[i]);
    }
  }

  // ---------------------------------------------------------------------
  // Monitor state: interval, start/stop, new plan codes
  // ---------------------------------------------------------------------

  datatype Monitor = Monitor(
    running: bool,
    checkInterval: int,
    knownServers: set<string>,
    subscriptions: seq<Subscription>)

  /** A freshly constructed monitor. */
  function InitMonitor(): (m: Monitor)
    ensures !m.running && m.checkInterval >= MinCheckInterval
    ensures m.knownServers == {} && m.subscriptions == []
  {
    Monitor(false, DefaultCheckInterval, {}, [])
  }

  /** `set_check_interval`: values below 60 are refused. */
  function SetCheckInterval(m: Monitor, interval: int): (r: (Monitor, bool))
    ensures r.1 <==> interval >= MinCheckInterval
    ensures !r.1 ==> r.0 == m
    ensures r.1 ==> r.0 == m.(checkInterval := interval)
    ensures m.checkInterval >= MinCheckInterval ==> r.0.checkInterval >= MinCheckInterval
  {
    if interval < MinCheckInterval then (m, false) else (m.(checkInterval := interval), true)
  }

  /** `start`: refused when already running. */
  function Start(m: Monitor): (r: (Monitor, bool))
    ensures r.1 <==> !m.running
    ensures r.0.running
    ensures r.0 == m.(running := r.0.running)
  {
    if m.running then (m, false) else (m.(running := true), true)
  }

  /** `stop`: refused when not running. */
  function Stop(m: Monitor): (r: (Monitor, bool))
    ensures r.1 <==> m.running
    ensures !r.0.running
    ensures r.0 == m.(running := r.0.running)
  {
    if !m.running then (m, false) else (m.(running := false), true)
  }

  /** A successful start followed by a stop restores the monitor. */
  lemma StartStopRestores(m: Monitor)
    requires !m.running
    ensures Stop(Start(m).0) == (m, true)
  {
  }

  /** A server of the catalogue list; only its plan code matters here. */
  datatype ServerInfo = ServerInfo(planCode: Option<string>, name: string)

  /** The truthy plan codes of the server list. */
  function CurrentCodes(servers: seq<ServerInfo>): set<string>
  {
    set i | 0 <= i < |servers| && servers[i].planCode.Some? && servers[i].planCode.value != ""
      :: servers[i].planCode.value
  }

  /** `check_new_servers`: returns the new set of known plan codes and the
      plan codes announced as new.  The first call only records the list;
      later calls announce the unseen codes and, when there are any,
      replace the known set by the current one. */
  function CheckNewServers(known: set<string>, servers: seq<ServerInfo>): (r: (set<string>, set<string>))
    ensures known == {} ==> r.1 == {}
    ensures r.1 !! known
    ensures r.1 <= CurrentCodes(servers)
    ensures known != {} ==> r.1 == CurrentCodes(servers) - known
    ensures CurrentCodes(servers) <= r.0
    ensures r.0 == known || r.0 == CurrentCodes(servers)
  {
    var current := CurrentCodes(servers);
    if known == {} then (current, {})
    else
      var added := current - known;
      if added != {} then (current, added)
      else
        assert forall c :: c in current ==> c in known by {
          forall c | c in current ensures c in known {
            assert c !in added;
          }
        }
        (known, {})
  }

  /** Every announced code belongs to a listed server, so the alert always
      finds the server record it describes. */
  lemma AnnouncedCodeHasServer(known: set<string>, servers: seq<ServerInfo>, c: string)
    requires c in CheckNewServers(known, servers).1
    ensures exists i :: 0 <= i < |servers| && servers[i].planCode == Some(c)
  {
    assert c in CurrentCodes(servers);
    var i :| 0 <= i < |servers| && servers[i].planCode.Some? && servers[i].planCode.value != ""
      && servers[i].planCode.value == c;
  }

  /** One pass of the monitoring loop over all subscriptions, with the
      availability lookup as a parameter. */
  function MonitorPass(subs: seq<Subscription>, lookup: string -> StatusMap, now: string): (r: seq<Subscription>)
    ensures |r| == |subs|
    ensures forall i :: 0 <= i < |subs| ==>
      r[i] == CheckAvailabilityChange(subs[i], lookup(subs[i].planCode), now)
    ensures forall i :: 0 <= i < |subs| ==> r[i].planCode == subs[i].planCode
  {
    seq(|subs|, i requires 0 <= i < |subs| => CheckAvailabilityChange(subs[i], lookup(subs[i].planCode), now))
  }

  /** A monitoring pass keeps the registry keyed by plan code. */
  lemma MonitorPassKeepsUnique(subs: seq<Subscription>, lookup: string -> StatusMap, now: string)
    requires UniquePlanCodes(subs)
    ensures UniquePlanCodes(MonitorPass(subs, lookup, now))
  {
  }
}

=== FILE: servers_page.dfy ===
// The server list page: the per-plan datacenter checkboxes, the option
// picker that keeps one option per hardware group, the renaming of the
// Mumbai datacenter code in availability answers, the search filter with
// subscribed plans listed first, and the guards of the add-to-queue
// action.  Requests, toasts and rendering are not modelled.

module ServersPage {
  import opened Text

  // ---------------------------------------------------------------------
  // Datacenter checkboxes
  // ---------------------------------------------------------------------

  /** One plan's checkboxes: datacenter code and state, in the key order of
      the JavaScript object that holds them. */
  type DcRow = seq<(string, bool)>

  /** `selectedDatacenters`: plan code to checkbox row. */
  type Selections = map<string, DcRow>

  function Keys(row: DcRow): (ks: seq<string>)
    ensures |ks| == |row|
    ensures forall i :: 0 <= i < |row| ==> ks[i] == row[i].0
    decreases |row|
  {
    if row == [] then [] else [row[0].0] + Keys(row[1..])
  }

  /** An object has each key once. */
  predicate UniqueKeys(row: DcRow)
  {
    forall i, j :: 0 <= i < j < |row| ==> row[i].0 != row[j].0
  }

  predicate RowsUnique(sel: Selections)
  {
    forall p :: p in sel ==> UniqueKeys(sel[p])
  }

  /** `row[dc]`, None when the key is absent. */
  function Get(row: DcRow, dc: string): (r: Option<bool>)
    ensures r.Some? <==> dc in Keys(row)
    ensures UniqueKeys(row) ==> forall i :: 0 <= i < |row| && row[i].0 == dc ==> r == Some(row[i].1)
    decreases |row|
  {
    if row == [] then None
    else if row[0].0 == dc then Some(row[0].1)
    else Get(row[1..], dc)
  }

  /** `{...row, [dc]: v}`: an existing key keeps its place, a new one goes
      last. */
  function SetKey(row: DcRow, dc: string, v: bool): (r: DcRow)
    ensures Keys(r) == if dc in Keys(row) then Keys(row) else Keys(row) + [dc]
    ensures Get(r, dc) == Some(v)
    ensures forall k :: k != dc ==> Get(r, k) == Get(row, k)
    ensures UniqueKeys(row) ==> UniqueKeys(r)
    decreases |row|
  {
    if row == [] then [(dc, v)]
    else if row[0].0 == dc then
      SetKeyHere(row, dc, v);
      [(dc, v)] + row[1..]
    else
      var rest := SetKey(row[1..], dc, v);
      SetKeyLater(row, dc, v, rest);
      [row[0]] + rest
  }

  /** Overwriting the first key keeps every other entry. */
  lemma SetKeyHere(row: DcRow, dc: string, v: bool)
    requires row != [] && row[0].0 == dc
    ensures var r := [(dc, v)] + row[1..];
      && Keys(r) == Keys(row)
      && Get(r, dc) == Some(v)
      && (forall k :: k != dc ==> Get(r, k) == Get(row, k))
      && (UniqueKeys(row) ==> UniqueKeys(r))
  {
    var r := [(dc, v)] + row[1..];
    assert r[1..] == row[1..];
    assert Keys(r) == Keys(row);
  }

  /** Setting a key behind the first entry: the keys. */
  lemma SetKeyLater(row: DcRow, dc: string, v: bool, rest: DcRow)
    requires row != [] && row[0].0 != dc
    requires Keys(rest) == if dc in Keys(row[1..]) then Keys(row[1..]) else Keys(row[1..]) + [dc]
    requires Get(rest, dc) == Some(v)
    requires forall k :: k != dc ==> Get(rest, k) == Get(row[1..], k)
    requires UniqueKeys(row[1..]) ==> UniqueKeys(rest)
    ensures var r := [row[0]] + rest;
      && Keys(r) == (if dc in Keys(row) then Keys(row) else Keys(row) + [dc])
      && Get(r, dc) == Some(v)
      && (forall k :: k != dc ==> Get(r, k) == Get(row, k))
      && (UniqueKeys(row) ==> UniqueKeys(r))
  {
    LaterKeys(row, dc, rest);
    LaterGet(row, dc, v, rest);
    if UniqueKeys(row) {
      UniqueTail(row);
      LaterUnique(row, dc, rest);
    }
  }

  lemma LaterKeys(row: DcRow, dc: string, rest: DcRow)
    requires row != [] && row[0].0 != dc
    requires Keys(rest) == if dc in Keys(row[1..]) then Keys(row[1..]) else Keys(row[1..]) + [dc]
    ensures Keys([row[0]] + rest) == (if dc in Keys(row) then Keys(row) else Keys(row) + [dc])
  {
    var r := [row[0]] + rest;
    assert r[1..] == rest;
    assert Keys(r) == [row[0].0] + Keys(rest);
    assert Keys(row) == [row[0].0] + Keys(row[1..]);
    assert dc in Keys(row) <==> dc in Keys(row[1..]);
  }

  lemma LaterGet(row: DcRow, dc: string, v: bool, rest: DcRow)
    requires row != [] && row[0].0 != dc
    requires Get(rest, dc) == Some(v)
    requires forall k :: k != dc ==> Get(rest, k) == Get(row[1..], k)
    ensures Get([row[0]] + rest, dc) == Some(v)
    ensures forall k :: k != dc ==> Get([row[0]] + rest, k) == Get(row, k)
  {
    var r := [row[0]] + rest;
    assert r[1..] == rest;
  }

  lemma LaterUnique(row: DcRow, dc: string, rest: DcRow)
    requires row != [] && row[0].0 != dc && UniqueKeys(row)
    requires Keys(rest) == if dc in Keys(row[1..]) then Keys(row[1..]) else Keys(row[1..]) + [dc]
    requires UniqueKeys(rest)
    ensures UniqueKeys([row[0]] + rest)
  {
    HeadNotInTail(row);
    assert row[0].0 !in Keys(rest);
    UniqueCons(row[0], rest);
  }

  lemma UniqueTail(row: DcRow)
    requires row != [] && UniqueKeys(row)
    ensures UniqueKeys(row[1..])
  {
    forall i, j | 0 <= i < j < |row[1..]| ensures row[1..][i].0 != row[1..][j].0 {
      assert row[1..][i] == row[i + 1] && row[1..][j] == row[j + 1];
    }
  }

  lemma HeadNotInTail(row: DcRow)
    requires row != [] && UniqueKeys(row)
    ensures row[0].0 !in Keys(row[1..])
  {
    var ks := Keys(row[1..]);
    forall i | 0 <= i < |ks| ensures ks[i] != row[0].0 {
      assert ks[i] == row[i + 1].0;
    }
  }

  lemma UniqueCons(h: (string, bool), rest: DcRow)
    requires UniqueKeys(rest) && h.0 !in Keys(rest)
    ensures UniqueKeys([h] + rest)
  {
    var r := [h] + rest;
    forall i, j | 0 <= i < j < |r| ensures r[i].0 != r[j].0 {
      assert r[j] == rest[j - 1];
      assert Keys(rest)[j - 1] == rest[j - 1].0;
      if i > 0 {
        assert r[i] == rest[i - 1];
      }
    }
  }

  /** Whether a checkbox is ticked; a missing one counts as unticked
      (`!prev[plan]?.[dc]` flips it to ticked). */
  predicate Selected(sel: Selections, plan: string, dc: string)
  {
    plan in sel && Get(sel[plan], dc) == Some(true)
  }

  /** `toggleDatacenterSelection`. */
  function ToggleDc(sel: Selections, plan: string, dc: string): (r: Selections)
    ensures plan in r
    ensures Selected(r, plan, dc) <==> !Selected(sel, plan, dc)
    ensures forall p, d :: (p != plan || d != dc) ==> (Selected(r, p, d) <==> Selected(sel, p, d))
    ensures forall p :: p != plan ==> (p in r <==> p in sel)
    ensures forall p :: p != plan && p in sel ==> r[p] == sel[p]
    ensures plan in sel ==> forall d :: d in Keys(sel[plan]) ==> d in Keys(r[plan])
    ensures RowsUnique(sel) ==> RowsUnique(r)
  {
    var row := if plan in sel then sel[plan] else [];
    sel[plan := SetKey(row, dc, !Selected(sel, plan, dc))]
  }

  /** Ticking a box twice restores every box. */
  lemma ToggleDcTwice(sel: Selections, plan: string, dc: string, p: string, d: string)
    ensures Selected(ToggleDc(ToggleDc(sel, plan, dc), plan, dc), p, d) <==> Selected(sel, p, d)
  {
  }

  function SetAll(row: DcRow, v: bool): (r: DcRow)
    ensures Keys(r) == Keys(row)
    ensures forall i :: 0 <= i < |r| ==> r[i].1 == v
  {
    seq(|row|, i requires 0 <= i < |row| => (row[i].0, v))
  }

  /** `toggleAllDatacenters`: every existing box of a known plan takes `v`;
      no box is added or removed, and an unknown plan changes nothing. */
  function ToggleAll(sel: Selections, plan: string, v: bool): (r: Selections)
    ensures plan !in sel ==> r == sel
    ensures plan in sel ==> plan in r && Keys(r[plan]) == Keys(sel[plan])
    ensures RowsUnique(sel) ==> forall d :: Selected(r, plan, d) <==> plan in sel && v && d in Keys(sel[plan])
    ensures forall p :: p != plan ==> (p in r <==> p in sel)
    ensures forall p :: p != plan && p in sel ==> r[p] == sel[p]
    ensures RowsUnique(sel) ==> RowsUnique(r)
  {
    if plan in sel then
      var r := sel[plan := SetAll(sel[plan], v)];
      assert forall i :: 0 <= i < |r[plan]| ==> r[plan][i].0 == sel[plan][i].0;
      r
    else sel
  }

  /** Some ticked box of `row` has code `x` once lower-cased. */
  predicate Ticked(row: DcRow, x: string)
  {
    exists j :: 0 <= j < |row| && row[j].1 && Lower(row[j].0) == x
  }

  lemma TickedCons(row: DcRow, x: string)
    requires row != []
    ensures Ticked(row, x) <==> (row[0].1 && Lower(row[0].0) == x) || Ticked(row[1..], x)
  {
    if Ticked(row, x) {
      var j :| 0 <= j < |row| && row[j].1 && Lower(row[j].0) == x;
      if j > 0 {
        assert row[1..][j - 1] == row[j];
      }
    }
    if Ticked(row[1..], x) {
      var j :| 0 <= j < |row[1..]| && row[1..][j].1 && Lower(row[1..][j].0) == x;
      assert row[j + 1] == row[1..][j];
    }
  }

  /** The ticked codes of a row, lower-cased, in order. */
  function TickedLower(row: DcRow): (r: seq<string>)
    ensures |r| <= |row|
    ensures forall x :: x in r <==> Ticked(row, x)
    decreases |row|
  {
    if row == [] then []
    else
      var rest := TickedLower(row[1..]);
      forall x ensures Ticked(row, x) <==> (row[0].1 && Lower(row[0].0) == x) || Ticked(row[1..], x) {
        TickedCons(row, x);
      }
      (if row[0].1 then [Lower(row[0].0)] else []) + rest
  }

  /** On a row with unique keys, the ticked codes are the selected ones. */
  lemma TickedIsSelected(sel: Selections, plan: string, x: string)
    requires plan in sel && UniqueKeys(sel[plan])
    ensures Ticked(sel[plan], x) <==> exists d :: Selected(sel, plan, d) && Lower(d) == x
  {
    var row := sel[plan];
    if Ticked(row, x) {
      var j :| 0 <= j < |row| && row[j].1 && Lower(row[j].0) == x;
      assert Selected(sel, plan, row[j].0);
    }
    if exists d :: Selected(sel, plan, d) && Lower(d) == x {
      var d :| Selected(sel, plan, d) && Lower(d) == x;
      assert d in Keys(row);
      var j :| 0 <= j < |row| && Keys(row)[j] == d;
      assert row[j].1;
    }
  }

  /** `getSelectedDatacentersList`: the ticked codes of a plan, lower-cased;
      none for an unknown plan. */
  function SelectedList(sel: Selections, plan: string): (r: seq<string>)
    ensures plan !in sel ==> r == []
    ensures plan in sel ==> |r| <= |sel[plan]|
    ensures RowsUnique(sel) ==> forall x :: x in r <==> exists d :: Selected(sel, plan, d) && Lower(d) == x
  {
    if plan !in sel then []
    else
      var r := TickedLower(sel[plan]);
      forall x | RowsUnique(sel) ensures x in r <==> exists d :: Selected(sel, plan, d) && Lower(d) == x {
        TickedIsSelected(sel, plan, x);
      }
      r
  }

  /** After "select all" every box of the plan is listed; after "select
      none" the list is empty. */
  lemma SelectAllLists(sel: Selections, plan: string)
    requires plan in sel && RowsUnique(sel)
    ensures |SelectedList(ToggleAll(sel, plan, true), plan)| == |sel[plan]|
    ensures SelectedList(ToggleAll(sel, plan, false), plan) == []
  {
    var row := ToggleAll(sel, plan, true)[plan];
    AllTicked(row);
    NoneTicked(ToggleAll(sel, plan, false)[plan]);
  }

  lemma {:induction false} AllTicked(row: DcRow)
    requires forall i :: 0 <= i < |row| ==> row[i].1
    ensures |TickedLower(row)| == |row|
    decreases |row|
  {
    if row != [] {
      AllTicked(row[1..]);
    }
  }

  lemma {:induction false} NoneTicked(row: DcRow)
    requires forall i :: 0 <= i < |row| ==> !row[i].1
    ensures TickedLower(row) == []
    decreases |row|
  {
    if row != [] {
      NoneTicked(row[1..]);
    }
  }

  /** Ticking an unticked box puts its lower-cased code in the list. */
  lemma ToggleDcLists(sel: Selections, plan: string, dc: string)
    requires RowsUnique(sel) && !Selected(sel, plan, dc)
    ensures Lower(dc) in SelectedList(ToggleDc(sel, plan, dc), plan)
  {
    assert Selected(ToggleDc(sel, plan, dc), plan, dc);
  }

  // ---------------------------------------------------------------------
  // Hardware options, one per group
  // ---------------------------------------------------------------------

  /** An entry of a plan's `availableOptions` / `defaultOptions`. */
  datatype ServerOption = ServerOption(value: string, optionLabel: string, family: Option<string>)

  /** The option-picker groups an option belongs to, by its family, label
      or (for vRack) value; a missing family reads as "". */
  predicate InGroup(group: string, o: ServerOption)
  {
    var family := if o.family.Some? then Lower(o.family.value) else "";
    var optionLabel := Lower(o.optionLabel);
    || (group == "CPU/处理器" &&
        (Contains(family, "cpu") || Contains(family, "processor") || Contains(optionLabel, "cpu") || Contains(optionLabel, "processor")))
    || (group == "内存" &&
        (Contains(family, "memory") || Contains(family, "ram") || Contains(optionLabel, "ram") || Contains(optionLabel, "memory")))
    || (group == "存储" &&
        (Contains(family, "storage") || Contains(family, "disk") || Contains(optionLabel, "ssd") || Contains(optionLabel, "hdd")))
    || (group == "带宽/网络" &&
        (Contains(family, "bandwidth") || Contains(family, "traffic") || Contains(optionLabel, "bandwidth") || Contains(optionLabel, "network")))
    || (group == "vRack内网" &&
        (Contains(Lower(o.value), "vrack") || Contains(optionLabel, "vrack") || Contains(optionLabel, "内网")))
  }

  /** `x` is the value of another option of `group` among `opts`: picking
      `value` deselects it. */
  predicate Rival(group: string, value: string, opts: seq<ServerOption>, x: string)
  {
    x != value && exists i :: 0 <= i < |opts| && opts[i].value == x && InGroup(group, opts[i])
  }

  /** The `serverOptions.forEach` pass: for each rival option in turn, drop
      the first occurrence of its value from the selection. */
  function DropRivals(current: seq<string>, value: string, group: string, opts: seq<ServerOption>): (r: seq<string>)
    ensures Subseq(r, current)
    ensures forall x :: !Rival(group, value, opts, x) ==> multiset(r)[x] == multiset(current)[x]
    decreases |opts|
  {
    if opts == [] then (SubseqRefl(current); current)
    else
      var o := opts[0];
      var next := if InGroup(group, o) && o.value != value then RemoveFirst(current, o.value) else current;
      var r := DropRivals(next, value, group, opts[1..]);
      RemoveFirstSubseq(current, o.value);
      SubseqRefl(current);
      SubseqTrans(r, next, current);
      forall x | !Rival(group, value, opts, x) ensures multiset(r)[x] == multiset(current)[x] {
        RivalTail(group, value, opts, x);
      }
      r
  }

  /** A rival among the later options is a rival among all of them, and so
      is the first option when it belongs to the group. */
  lemma RivalTail(group: string, value: string, opts: seq<ServerOption>, x: string)
    requires opts != []
    ensures Rival(group, value, opts[1..], x) ==> Rival(group, value, opts, x)
    ensures x != value && opts[0].value == x && InGroup(group, opts[0]) ==> Rival(group, value, opts, x)
  {
    if Rival(group, value, opts[1..], x) {
      var i :| 0 <= i < |opts[1..]| && opts[1..][i].value == x && InGroup(group, opts[1..][i]);
      assert opts[i + 1] == opts[1..][i];
    }
  }

  /** The list-level effect of `toggleOption` on one plan's selection:
      a selected value is removed; otherwise, when a group is named, the
      rivals are dropped and the value appended.  An empty `group` stands
      for no group. */
  function ToggleOptionList(current: seq<string>, value: string, group: string, opts: seq<ServerOption>): (r: seq<string>)
    ensures value in current ==> multiset(r) == multiset(current) - multiset{value} && Subseq(r, current)
    ensures value !in current ==> |r| > 0 && r[|r| - 1] == value && Subseq(r[..|r| - 1], current)
    ensures value !in current ==>
      forall x :: !Rival(group, value, opts, x) ==> multiset(r[..|r| - 1])[x] == multiset(current)[x]
  {
    if value in current then
      RemoveFirstSubseq(current, value);
      RemoveFirst(current, value)
    else
      var kept := if group != "" then DropRivals(current, value, group, opts) else (SubseqRefl(current); current);
      var r := kept + [value];
      assert r[..|r| - 1] == kept;
      r
  }

  /** With a duplicate-free selection, picking an unselected option leaves
      no rival of its group selected. */
  lemma ToggleOptionSingleSelect(current: seq<string>, value: string, group: string, opts: seq<ServerOption>, x: string)
    requires NoDup(current) && value !in current && group != ""
    requires Rival(group, value, opts, x)
    ensures x !in ToggleOptionList(current, value, group, opts)
  {
    NoDupAtMostOnce(current);
    DropRivalsRemoves(current, value, group, opts, x);
  }

  lemma {:induction false} NoDupAtMostOnce<T>(s: seq<T>)
    requires NoDup(s)
    ensures forall y :: multiset(s)[y] <= 1
    decreases |s|
  {
    if s != [] {
      assert NoDup(s[1..]) by {
        forall i, j | 0 <= i < j < |s[1..]| ensures s[1..][i] != s[1..][j] {
          assert s[1..][i] == s[i + 1] && s[1..][j] == s[j + 1];
        }
      }
      NoDupAtMostOnce(s[1..]);
      assert s == [s[0]] + s[1..];
      assert s[0] !in s[1..];
    }
  }

  lemma {:induction false} DropRivalsRemoves(current: seq<string>, value: string, group: string, opts: seq<ServerOption>, x: string)
    requires forall y :: multiset(current)[y] <= 1
    requires Rival(group, value, opts, x)
    ensures x !in DropRivals(current, value, group, opts)
    decreases |opts|
  {
    var o := opts[0];
    var next := if InGroup(group, o) && o.value != value then RemoveFirst(current, o.value) else current;
    var r := DropRivals(current, value, group, opts);
    assert r == DropRivals(next, value, group, opts[1..]);
    if InGroup(group, o) && o.value == x {
      assert multiset(next)[x] == 0;
      SubseqMultiset(r, next);
      assert multiset(r)[x] == 0;
    } else {
      var i :| 0 <= i < |opts| && opts[i].value == x && InGroup(group, opts[i]);
      assert i > 0;
      assert opts[1..][i - 1] == opts[i];
      DropRivalsRemoves(next, value, group, opts[1..], x);
    }
  }

  /** A subsequence takes no element more often than its source. */
  lemma {:induction false} SubseqMultiset<T>(a: seq<T>, b: seq<T>)
    requires Subseq(a, b)
    ensures multiset(a) <= multiset(b)
    decreases |b|
  {
    if |a| > 0 {
      if a[0] == b[0] {
        SubseqMultiset(a[1..], b[1..]);
        assert a == [a[0]] + a[1..];
        assert b == [b[0]] + b[1..];
      } else {
        SubseqMultiset(a, b[1..]);
        assert b == [b[0]] + b[1..];
      }
    }
  }

  /** A duplicate-free selection stays duplicate-free. */
  lemma ToggleOptionKeepsNoDup(current: seq<string>, value: string, group: string, opts: seq<ServerOption>)
    requires NoDup(current)
    ensures NoDup(ToggleOptionList(current, value, group, opts))
  {
    var r := ToggleOptionList(current, value, group, opts);
    if value in current {
      SubseqNoDup(r, current);
    } else {
      var kept := r[..|r| - 1];
      SubseqNoDup(kept, current);
      SubseqMembers(kept, current);
      assert r == kept + [value];
    }
  }

  lemma {:induction false} SubseqNoDup<T>(a: seq<T>, b: seq<T>)
    requires Subseq(a, b) && NoDup(b)
    ensures NoDup(a)
    decreases |b|
  {
    if |a| > 0 {
      assert NoDup(b[1..]) by {
        forall i, j | 0 <= i < j < |b[1..]| ensures b[1..][i] != b[1..][j] {
          assert b[1..][i] == b[i + 1] && b[1..][j] == b[j + 1];
        }
      }
      if a[0] == b[0] {
        SubseqNoDup(a[1..], b[1..]);
        SubseqMembers(a[1..], b[1..]);
        assert b[0] !in b[1..];
        forall i, j | 0 <= i < j < |a| ensures a[i] != a[j] {
          if i == 0 {
            assert a[j] == a[1..][j - 1];
            assert a[j] in a[1..];
          } else {
            assert a[i] == a[1..][i - 1] && a[j] == a[1..][j - 1];
          }
        }
      } else {
        SubseqNoDup(a, b[1..]);
      }
    }
  }

  /** A plan as the page holds it. */
  datatype ServerPlan = ServerPlan(
    planCode: string,
    name: string,
    cpu: string,
    memory: string,
    availableOptions: seq<ServerOption>,
    defaultOptions: seq<ServerOption>)

  /** `servers[i]` is the first plan with code `plan`. */
  predicate FirstWithPlan(servers: seq<ServerPlan>, plan: string, i: int)
  {
    0 <= i < |servers| && servers[i].planCode == plan && forall k :: 0 <= k < i ==> servers[k].planCode != plan
  }

  /** `servers.find(s => s.planCode === plan)?.availableOptions || []`. */
  function OptionsOf(servers: seq<ServerPlan>, plan: string): (r: seq<ServerOption>)
    ensures (forall i :: 0 <= i < |servers| ==> servers[i].planCode != plan) ==> r == []
    ensures forall i :: FirstWithPlan(servers, plan, i) ==> r == servers[i].availableOptions
    decreases |servers|
  {
    if servers == [] then []
    else if servers[0].planCode == plan then servers[0].availableOptions
    else
      FirstWithPlanTail(servers, plan);
      OptionsOf(servers[1..], plan)
  }

  /** Past a first plan with another code, the search goes on in the tail. */
  lemma FirstWithPlanTail(servers: seq<ServerPlan>, plan: string)
    requires servers != [] && servers[0].planCode != plan
    ensures (forall i :: 0 <= i < |servers| ==> servers[i].planCode != plan) ==>
      forall i :: 0 <= i < |servers[1..]| ==> servers[1..][i].planCode != plan
    ensures forall i :: FirstWithPlan(servers, plan, i) ==>
      FirstWithPlan(servers[1..], plan, i - 1) && servers[1..][i - 1] == servers[i]
  {
    forall i | FirstWithPlan(servers, plan, i)
      ensures FirstWithPlan(servers[1..], plan, i - 1) && servers[1..][i - 1] == servers[i]
    {
      forall k | 0 <= k < i - 1 ensures servers[1..][k].planCode != plan {
        assert servers[1..][k] == servers[k + 1];
      }
    }
  }

  /** `toggleOption`: only the plan's own selection changes. */
  function ToggleOption(selected: map<string, seq<string>>, servers: seq<ServerPlan>, plan: string, value: string, group: string)
    : (r: map<string, seq<string>>)
    ensures plan in r
    ensures forall p :: p != plan ==> (p in r <==> p in selected) && (p in selected ==> r[p] == selected[p])
    ensures r[plan] == ToggleOptionList(if plan in selected then selected[plan] else [], value, group, OptionsOf(servers, plan))
    ensures var current := if plan in selected then selected[plan] else [];
      value !in current ==> value in r[plan]
    ensures var current := if plan in selected then selected[plan] else [];
      NoDup(current) ==> NoDup(r[plan]) && (value in r[plan] <==> value !in current)
  {
    var current := if plan in selected then selected[plan] else [];
    var list := ToggleOptionList(current, value, group, OptionsOf(servers, plan));
    ToggleOptionFlips(current, value, group, OptionsOf(servers, plan));
    selected[plan := list]
  }

  /** On a duplicate-free selection, the option is selected afterwards
      exactly when it was not before. */
  lemma ToggleOptionFlips(current: seq<string>, value: string, group: string, opts: seq<ServerOption>)
    ensures NoDup(current) ==> NoDup(ToggleOptionList(current, value, group, opts))
    ensures NoDup(current) ==> (value in ToggleOptionList(current, value, group, opts) <==> value !in current)
  {
    var list := ToggleOptionList(current, value, group, opts);
    if NoDup(current) {
      ToggleOptionKeepsNoDup(current, value, group, opts);
      if value in current {
        NoDupAtMostOnce(current);
        assert multiset(list)[value] == 0;
      }
    }
  }

  // ---------------------------------------------------------------------
  // Availability answers
  // ---------------------------------------------------------------------

  /** OVH answers Mumbai as "ynm"; the page keys it as "mum". */
  function NormDc(dc: string): (r: string)
    ensures r != "ynm"
    ensures dc != "ynm" ==> r == dc
  {
    if dc == "ynm" then "mum" else dc
  }

  /** Entry `i` is the last one whose code normalises to its own. */
  predicate LastFor(entries: seq<(string, string)>, i: int)
  {
    0 <= i < |entries| && forall j :: i < j < |entries| ==> NormDc(entries[j].0) != NormDc(entries[i].0)
  }

  /** The normalisation in `checkAvailability`: every (code, status) pair
      of the answer is written, in order, into a fresh object under the
      normalised code, so a later pair overwrites an earlier one. */
  function NormalizeAvailability(entries: seq<(string, string)>): (r: map<string, string>)
    ensures "ynm" !in r
    decreases |entries|
  {
    if entries == [] then map[]
    else
      var n := |entries| - 1;
      NormalizeAvailability(entries[..n])[NormDc(entries[n].0) := entries[n].1]
  }

  /** The codes of the result are exactly the normalised codes of the
      answer. */
  lemma {:induction false} NormalizeAvailabilityKeys(entries: seq<(string, string)>, k: string)
    ensures k in NormalizeAvailability(entries) <==> exists i :: 0 <= i < |entries| && NormDc(entries[i].0) == k
    decreases |entries|
  {
    if entries != [] {
      var n := |entries| - 1;
      var init := entries[..n];
      NormalizeAvailabilityKeys(init, k);
      if exists i :: 0 <= i < |init| && NormDc(init[i].0) == k {
        var i :| 0 <= i < |init| && NormDc(init[i].0) == k;
        assert entries[i] == init[i];
      }
      if exists i :: 0 <= i < |entries| && NormDc(entries[i].0) == k {
        var i :| 0 <= i < |entries| && NormDc(entries[i].0) == k;
        if i < n {
          assert init[i] == entries[i];
        }
      }
    }
  }

  /** The status under a code is the one of the last pair with that
      (normalised) code. */
  lemma {:induction false} NormalizeAvailabilityLastWins(entries: seq<(string, string)>, i: int)
    requires LastFor(entries, i)
    ensures NormDc(entries[i].0) in NormalizeAvailability(entries)
    ensures NormalizeAvailability(entries)[NormDc(entries[i].0)] == entries[i].1
    decreases |entries|
  {
    var n := |entries| - 1;
    var init := entries[..n];
    if i < n {
      assert init[i] == entries[i];
      forall j | i < j < |init| ensures NormDc(init[j].0) != NormDc(init[i].0) {
        assert init[j] == entries[j];
      }
      NormalizeAvailabilityLastWins(init, i);
    }
  }

  /** On an answer that lists each code once and has no "mum" of its own,
      the normalisation only renames: every status is kept under its
      (renamed) code, and every other code is kept as is. */
  lemma NormalizeOnlyRenames(entries: seq<(string, string)>)
    requires forall i, j :: 0 <= i < j < |entries| ==> entries[i].0 != entries[j].0
    requires forall i :: 0 <= i < |entries| ==> entries[i].0 != "mum"
    ensures forall i :: 0 <= i < |entries| ==>
      NormDc(entries[i].0) in NormalizeAvailability(entries) && NormalizeAvailability(entries)[NormDc(entries[i].0)] == entries[i].1
    ensures forall k :: k != "mum" ==>
      (k in NormalizeAvailability(entries) <==> k != "ynm" && exists i :: 0 <= i < |entries| && entries[i].0 == k)
  {
    forall i | 0 <= i < |entries|
      ensures NormDc(entries[i].0) in NormalizeAvailability(entries)
      ensures NormalizeAvailability(entries)[NormDc(entries[i].0)] == entries[i].1
    {
      forall j | i < j < |entries| ensures NormDc(entries[j].0) != NormDc(entries[i].0) {
        assert entries[j].0 != entries[i].0;
      }
      NormalizeAvailabilityLastWins(entries, i);
    }
    forall k | k != "mum"
      ensures k in NormalizeAvailability(entries) <==> k != "ynm" && exists i :: 0 <= i < |entries| && entries[i].0 == k
    {
      NormalizeAvailabilityKeys(entries, k);
    }
  }

  // ---------------------------------------------------------------------
  // Search and subscribed-first order
  // ---------------------------------------------------------------------

  /** The plan mentions the (lower-cased) term in its code, name, CPU or
      memory, case-insensitively. */
  predicate MatchesSearch(s: ServerPlan, term: string)
  {
    Contains(Lower(s.planCode), term) || Contains(Lower(s.name), term)
      || Contains(Lower(s.cpu), term) || Contains(Lower(s.memory), term)
  }

  function Matching(term: string): ServerPlan -> bool
  {
    (s: ServerPlan) => MatchesSearch(s, term)
  }

  function Subscribed(subscribed: set<string>): ServerPlan -> bool
  {
    (s: ServerPlan) => s.planCode in subscribed
  }

  function Unsubscribed(subscribed: set<string>): ServerPlan -> bool
  {
    (s: ServerPlan) => s.planCode !in subscribed
  }

  /** The search step: no search term keeps every plan. */
  function SearchResult(servers: seq<ServerPlan>, searchTerm: string): (r: seq<ServerPlan>)
    ensures forall i :: 0 <= i < |r| ==> r[i] in servers && MatchesSearch(r[i], Lower(searchTerm))
    ensures forall i :: 0 <= i < |servers| && MatchesSearch(servers[i], Lower(searchTerm)) ==> servers[i] in r
    ensures Subseq(r, servers)
    ensures r == Filter(servers, Matching(Lower(searchTerm)))
  {
    if searchTerm == "" then
      SubseqRefl(servers);
      forall i | 0 <= i < |servers| ensures MatchesSearch(servers[i], Lower(searchTerm)) {
        ContainsEmpty(Lower(servers[i].planCode));
      }
      FilterAll(servers, Matching(Lower(searchTerm)));
      servers
    else
      FilterSubseq(servers, Matching(Lower(searchTerm)));
      Filter(servers, Matching(Lower(searchTerm)))
  }

  /** The filter effect: with no plans loaded the shown list is left as it
      was; otherwise the search result, subscribed plans first, each part
      in its original order (the comparator only separates the two parts
      and the sort is stable).  The datacenter selector filters nothing. */
  function ApplyFilters(servers: seq<ServerPlan>, shown: seq<ServerPlan>, searchTerm: string, subscribed: set<string>)
    : (r: seq<ServerPlan>)
    ensures servers == [] ==> r == shown
    ensures servers != [] ==> multiset(r) == multiset(SearchResult(servers, searchTerm))
    ensures servers != [] ==> forall i :: 0 <= i < |r| ==> r[i] in servers && MatchesSearch(r[i], Lower(searchTerm))
    ensures servers != [] ==> forall i, j :: 0 <= i < j < |r| && r[j].planCode in subscribed ==> r[i].planCode in subscribed
    ensures servers != [] ==> Filter(r, Subscribed(subscribed)) == Filter(SearchResult(servers, searchTerm), Subscribed(subscribed))
    ensures servers != [] ==> Filter(r, Unsubscribed(subscribed)) == Filter(SearchResult(servers, searchTerm), Unsubscribed(subscribed))
  {
    if servers == [] then shown
    else
      var found := SearchResult(servers, searchTerm);
      StablePartition(found, subscribed)
  }

  /** Subscribed plans, then the rest, each in order. */
  function StablePartition(found: seq<ServerPlan>, subscribed: set<string>): (r: seq<ServerPlan>)
    ensures multiset(r) == multiset(found)
    ensures forall i, j :: 0 <= i < j < |r| && r[j].planCode in subscribed ==> r[i].planCode in subscribed
    ensures Filter(r, Subscribed(subscribed)) == Filter(found, Subscribed(subscribed))
    ensures Filter(r, Unsubscribed(subscribed)) == Filter(found, Unsubscribed(subscribed))
  {
    var a := Filter(found, Subscribed(subscribed));
    var b := Filter(found, Unsubscribed(subscribed));
    PartitionPermutes(found, subscribed);
    PartitionOrdered(a, b, subscribed);
    PartitionStable(a, b, subscribed);
    a + b
  }

  lemma PartitionPermutes(found: seq<ServerPlan>, subscribed: set<string>)
    ensures multiset(Filter(found, Subscribed(subscribed))) + multiset(Filter(found, Unsubscribed(subscribed))) == multiset(found)
  {
    FilterSplit(found, Subscribed(subscribed), Unsubscribed(subscribed));
  }

  lemma PartitionOrdered(a: seq<ServerPlan>, b: seq<ServerPlan>, subscribed: set<string>)
    requires forall i :: 0 <= i < |a| ==> a[i].planCode in subscribed
    requires forall i :: 0 <= i < |b| ==> b[i].planCode !in subscribed
    ensures forall i, j :: 0 <= i < j < |a + b| && (a + b)[j].planCode in subscribed ==> (a + b)[i].planCode in subscribed
  {
  }

  lemma PartitionStable(a: seq<ServerPlan>, b: seq<ServerPlan>, subscribed: set<string>)
    requires forall i :: 0 <= i < |a| ==> a[i].planCode in subscribed
    requires forall i :: 0 <= i < |b| ==> b[i].planCode !in subscribed
    ensures Filter(a + b, Subscribed(subscribed)) == a
    ensures Filter(a + b, Unsubscribed(subscribed)) == b
  {
    FilterAppend(a, b, Subscribed(subscribed));
    FilterAppend(a, b, Unsubscribed(subscribed));
    FilterAll(a, Subscribed(subscribed));
    FilterNone(b, Subscribed(subscribed));
    FilterNone(a, Unsubscribed(subscribed));
    FilterAll(b, Unsubscribed(subscribed));
  }

  /** Filtering the shown list again with the same term and subscriptions
      changes nothing. */
  lemma ApplyFiltersIdempotent(servers: seq<ServerPlan>, shown: seq<ServerPlan>, searchTerm: string, subscribed: set<string>)
    requires servers != []
    requires ApplyFilters(servers, shown, searchTerm, subscribed) != []
    ensures var r := ApplyFilters(servers, shown, searchTerm, subscribed);
      ApplyFilters(r, shown, searchTerm, subscribed) == r
  {
    var r := ApplyFilters(servers, shown, searchTerm, subscribed);
    var again := SearchResult(r, searchTerm);
    if searchTerm != "" {
      FilterAll(r, Matching(Lower(searchTerm)));
    }
    assert again == r;
    var a := Filter(r, Subscribed(subscribed));
    var b := Filter(r, Unsubscribed(subscribed));
    PartitionedSplits(r, subscribed);
  }

  /** A list with every subscribed plan first is its two parts joined. */
  lemma PartitionedSplits(r: seq<ServerPlan>, subscribed: set<string>)
    requires SubscribedFirst(r, subscribed)
    ensures Filter(r, Subscribed(subscribed)) + Filter(r, Unsubscribed(subscribed)) == r
  {
    var k := SubscribedPrefix(r, subscribed);
    SubscribedParts(r, subscribed);
    assert r[..k] + r[k..] == r;
    PartitionStable(r[..k], r[k..], subscribed);
  }

  /** Cut after the leading run of subscribed plans, the rest holds none. */
  lemma SubscribedParts(r: seq<ServerPlan>, subscribed: set<string>)
    requires SubscribedFirst(r, subscribed)
    ensures var k := SubscribedPrefix(r, subscribed);
      && (forall i :: 0 <= i < |r[..k]| ==> r[..k][i].planCode in subscribed)
      && (forall i :: 0 <= i < |r[k..]| ==> r[k..][i].planCode !in subscribed)
  {
    var k := SubscribedPrefix(r, subscribed);
    forall i | 0 <= i < |r[k..]| ensures r[k..][i].planCode !in subscribed {
      assert r[k..][i] == r[k + i];
    }
  }

  predicate SubscribedFirst(r: seq<ServerPlan>, subscribed: set<string>)
  {
    forall i, j :: 0 <= i < j < |r| && r[j].planCode in subscribed ==> r[i].planCode in subscribed
  }

  /** The length of the leading run of subscribed plans. */
  function SubscribedPrefix(r: seq<ServerPlan>, subscribed: set<string>): (k: nat)
    ensures k <= |r|
    ensures forall i :: 0 <= i < k ==> r[i].planCode in subscribed
    ensures k < |r| ==> r[k].planCode !in subscribed
    decreases |r|
  {
    if r == [] || r[0].planCode !in subscribed then 0
    else 1 + SubscribedPrefix(r[1..], subscribed)
  }

  // ---------------------------------------------------------------------
  // Adding a plan to the purchase queue
  // ---------------------------------------------------------------------

  /** The body of one `POST /queue`. */
  datatype QueuePost = QueuePost(planCode: string, datacenter: string, options: seq<string>)

  datatype AddOutcome = NotAuthenticated | NoDatacenter | Posted(posts: seq<QueuePost>)

  /** The options submitted: the user's picks for the plan when there are
      any, else the values of the plan's default options. */
  function ChosenOptions(selected: map<string, seq<string>>, server: ServerPlan): (r: seq<string>)
    ensures server.planCode in selected && |selected[server.planCode]| > 0 ==> r == selected[server.planCode]
    ensures !(server.planCode in selected && |selected[server.planCode]| > 0) ==>
      |r| == |server.defaultOptions| && forall i :: 0 <= i < |r| ==> r[i] == server.defaultOptions[i].value
  {
    if server.planCode in selected && |selected[server.planCode]| > 0 then selected[server.planCode]
    else seq(|server.defaultOptions|, i requires 0 <= i < |server.defaultOptions| => server.defaultOptions[i].value)
  }

  /** `addToQueue`: refused without API settings or without a datacenter;
      otherwise one post per datacenter, all with the same options. */
  function AddToQueue(authenticated: bool, server: ServerPlan, datacenters: seq<string>, selected: map<string, seq<string>>)
    : (r: AddOutcome)
    ensures !authenticated ==> r == NotAuthenticated
    ensures authenticated && datacenters == [] ==> r == NoDatacenter
    ensures r.Posted? <==> authenticated && datacenters != []
    ensures r.Posted? ==> |r.posts| == |datacenters|
    ensures r.Posted? ==> forall i :: 0 <= i < |r.posts| ==>
      r.posts[i] == QueuePost(server.planCode, datacenters[i], ChosenOptions(selected, server))
  {
    if !authenticated then NotAuthenticated
    else if datacenters == [] then NoDatacenter
    else Posted(seq(|datacenters|, i requires 0 <= i < |datacenters| => QueuePost(server.planCode, datacenters[i], ChosenOptions(selected, server))))
  }

  /** Picked options win over the defaults: with a non-empty pick every
      post carries exactly the pick. */
  lemma PickedOptionsPosted(server: ServerPlan, datacenters: seq<string>, selected: map<string, seq<string>>)
    requires datacenters != [] && server.planCode in selected && selected[server.planCode] != []
    ensures forall p :: p in AddToQueue(true, server, datacenters, selected).posts ==> p.options == selected[server.planCode]
  {
  }
}

=== FILE: standardize.dfy ===
// `standardize_config`: the normal form of a memory or storage add-on code
// used as a configuration fingerprint. The input is lower-cased and
// stripped, then a fixed list of regular-expression removals is applied,
// each one left to right over the whole string like Python's `re.sub`.
// Each pattern is written out by hand as a matcher that returns where a
// match starting at a given position ends; `\d` and `\w` are read as ASCII
// digits and word characters.

module Standardize {
  import opened Text

  /** The removal patterns, in the order they are applied. */
  datatype Pattern =
    | SklModel          // -\d+skl[a-e]\d{2}(-v\d+)?
    | SkDigits          // -\d+sk\d+
    | Rise              // -\d+rise\d*
    | Sys               // -\d+sys\w*
    | RiseGame          // -\d+risegame\d*
    | RiseStor          // -\d+risestor
    | SkGame            // -\d+skgame\d*
    | Ska               // -\d+ska\d*
    | SkStor            // -\d+skstor\d*
    | SysStor           // -\d+sysstor
    | Game              // game\d*
    | Stor              // stor\d*
    | Ks                // -ks\d+
    | RiseSuffix        // -rise
    | SysLe             // -\d+sysle\d+
    | Skb               // -\d+skb\d+
    | Skc               // -\d+skc\d+
    | SkDigitsB         // -\d+sk\d+b
    | Version           // -v\d+
    | DatacenterSuffix  // -[a-z]{3}$
    | Ecc               // -(no)?ecc-\d+
    | StorageSuffix     // -(sas|sa|ssd|nvme)$
    | Frequency         // -\d{4,5}$

  const ModelPatterns: seq<Pattern> := [SklModel, SkDigits, Rise, Sys, RiseGame, RiseStor, SkGame, Ska,
    SkStor, SysStor, Game, Stor, Ks, RiseSuffix, SysLe, Skb, Skc, SkDigitsB, Version, DatacenterSuffix]

  const DetailPatterns: seq<Pattern> := [Ecc, StorageSuffix, Frequency]

  /** End of the longest run of ASCII digits starting at `i`. */
  function DigitRun(s: string, i: nat): (j: nat)
    requires i <= |s|
    ensures i <= j <= |s| && (j == |s| || !IsDigit(s[j]))
    ensures forall k :: i <= k < j ==> IsDigit(s[k])
    decreases |s| - i
  {
    if i < |s| && IsDigit(s[i]) then DigitRun(s, i + 1) else i
  }

  /** End of the longest run of word characters (`\w`) starting at `i`. */
  function WordRun(s: string, i: nat): (j: nat)
    requires i <= |s|
    ensures i <= j <= |s| && (j == |s| || !IsWordChar(s[j]))
    ensures forall k :: i <= k < j ==> IsWordChar(s[k])
    decreases |s| - i
  {
    if i < |s| && IsWordChar(s[i]) then WordRun(s, i + 1) else i
  }

  predicate LitAt(s: string, i: nat, lit: string) { i + |lit| <= |s| && s[i..i + |lit|] == lit }

  /** Python's `$` without MULTILINE: the end, or just before a final newline. */
  predicate EndAnchor(s: string, j: nat) { j == |s| || (j + 1 == |s| && s[j] == '\n') }

  /** A partial match extended by a literal. */
  function Then(m: Option<nat>, s: string, lit: string): (r: Option<nat>)
    ensures r.Some? ==> m.Some? && r.value == m.value + |lit|
  {
    if m.Some? && LitAt(s, m.value, lit) then Some(m.value + |lit|) else None
  }

  /** A partial match extended by `\d*`. */
  function ThenDigitsStar(m: Option<nat>, s: string): (r: Option<nat>)
    requires m.Some? ==> m.value <= |s|
    ensures r.Some? <==> m.Some?
    ensures r.Some? ==> m.value <= r.value <= |s|
  {
    if m.Some? then Some(DigitRun(s, m.value)) else None
  }

  /** A partial match extended by `\d+`. */
  function ThenDigitsPlus(m: Option<nat>, s: string): (r: Option<nat>)
    requires m.Some? ==> m.value <= |s|
    ensures r.Some? ==> m.Some? && m.value < r.value <= |s|
  {
    if m.Some? && DigitRun(s, m.value) > m.value then Some(DigitRun(s, m.value)) else None
  }

  /** A partial match extended by one character of a class. */
  function ThenClass(m: Option<nat>, s: string, cls: char -> bool): (r: Option<nat>)
    ensures r.Some? ==> m.Some? && r.value == m.value + 1 && r.value <= |s|
  {
    if m.Some? && m.value < |s| && cls(s[m.value]) then Some(m.value + 1) else None
  }

  /** `-\d+` at `i`; the digit run is maximal because every pattern using
      it continues with a letter. */
  function DashDigits(s: string, i: nat): (r: Option<nat>)
    requires i <= |s|
    ensures r.Some? ==> i + 1 < r.value <= |s|
  {
    ThenDigitsPlus(Then(Some(i), s, "-"), s)
  }

  predicate IsAtoE(c: char) { 'a' <= c <= 'e' }

  /** Where a match of `p` starting at `i` ends, if there is one. */
  function MatchAt(p: Pattern, s: string, i: nat): (r: Option<nat>)
    requires i <= |s|
    ensures r.Some? ==> i < r.value <= |s|
  {
    if p.Game? || p.Stor? || p.Ks? || p.RiseSuffix? || p.SysLe? || p.Skb? || p.Skc? || p.SkDigitsB?
       || p.Version? || p.DatacenterSuffix? || p.Ecc? || p.StorageSuffix? || p.Frequency?
    then MatchSuffix(p, s, i)
    else MatchModel(p, s, i)
  }

  /** The patterns on the model name (`-<digits><family>...`); the others
      are matched by `MatchSuffix`. */
  function MatchModel(p: Pattern, s: string, i: nat): (r: Option<nat>)
    requires i <= |s|
    ensures r.Some? ==> i < r.value <= |s|
  {
    match p
    case SklModel =>
      var m := ThenClass(ThenClass(ThenClass(Then(DashDigits(s, i), s, "skl"), s, IsAtoE), s, IsDigit), s, IsDigit);
      var v := ThenDigitsPlus(Then(m, s, "-v"), s);
      if v.Some? then v else m
    case SkDigits => ThenDigitsPlus(Then(DashDigits(s, i), s, "sk"), s)
    case Rise => ThenDigitsStar(Then(DashDigits(s, i), s, "rise"), s)
    case Sys =>
      var m := Then(DashDigits(s, i), s, "sys");
      if m.Some? then Some(WordRun(s, m.value)) else None
    case RiseGame => ThenDigitsStar(Then(DashDigits(s, i), s, "risegame"), s)
    case RiseStor => Then(DashDigits(s, i), s, "risestor")
    case SkGame => ThenDigitsStar(Then(DashDigits(s, i), s, "skgame"), s)
    case Ska => ThenDigitsStar(Then(DashDigits(s, i), s, "ska"), s)
    case SkStor => ThenDigitsStar(Then(DashDigits(s, i), s, "skstor"), s)
    case SysStor => Then(DashDigits(s, i), s, "sysstor")
    case _ => None
  }

  /** The remaining patterns: family words, suffixes and the version. */
  function MatchSuffix(p: Pattern, s: string, i: nat): (r: Option<nat>)
    requires i <= |s|
    ensures r.Some? ==> i < r.value <= |s|
  {
    match p
    case Game => ThenDigitsStar(Then(Some(i), s, "game"), s)
    case Stor => ThenDigitsStar(Then(Some(i), s, "stor"), s)
    case Ks => ThenDigitsPlus(Then(Some(i), s, "-ks"), s)
    case RiseSuffix => Then(Some(i), s, "-rise")
    case SysLe => ThenDigitsPlus(Then(DashDigits(s, i), s, "sysle"), s)
    case Skb => ThenDigitsPlus(Then(DashDigits(s, i), s, "skb"), s)
    case Skc => ThenDigitsPlus(Then(DashDigits(s, i), s, "skc"), s)
    case SkDigitsB => Then(ThenDigitsPlus(Then(DashDigits(s, i), s, "sk"), s), s, "b")
    case Version => ThenDigitsPlus(Then(Some(i), s, "-v"), s)
    case DatacenterSuffix =>
      var m := ThenClass(ThenClass(ThenClass(Then(Some(i), s, "-"), s, IsLowerLetter), s, IsLowerLetter), s, IsLowerLetter);
      if m.Some? && EndAnchor(s, m.value) then m else None
    case Ecc =>
      var withNo := ThenDigitsPlus(Then(Then(Some(i), s, "-no"), s, "ecc-"), s);
      if withNo.Some? then withNo else ThenDigitsPlus(Then(Some(i), s, "-ecc-"), s)
    case StorageSuffix =>
      if LitAt(s, i, "-sas") && EndAnchor(s, i + 4) then Some(i + 4)
      else if LitAt(s, i, "-sa") && EndAnchor(s, i + 3) then Some(i + 3)
      else if LitAt(s, i, "-ssd") && EndAnchor(s, i + 4) then Some(i + 4)
      else if LitAt(s, i, "-nvme") && EndAnchor(s, i + 5) then Some(i + 5)
      else None
    case Frequency =>
      var m := Then(Some(i), s, "-");
      var five := ThenClass(ThenClass(ThenClass(ThenClass(ThenClass(m, s, IsDigit), s, IsDigit), s, IsDigit), s, IsDigit), s, IsDigit);
      var four := ThenClass(ThenClass(ThenClass(ThenClass(m, s, IsDigit), s, IsDigit), s, IsDigit), s, IsDigit);
      if five.Some? && EndAnchor(s, five.value) then five
      else if four.Some? && EndAnchor(s, four.value) then four
      else None
    case _ => None
  }

  /** `re.sub(p, '', s[i..])` scanning from `i`: a match is dropped and the
      scan resumes after it; otherwise one character is kept. */
  function Sub(p: Pattern, s: string, i: nat): (r: string)
    requires i <= |s|
    ensures |r| <= |s| - i
    decreases |s| - i
  {
    if i == |s| then ""
    else match MatchAt(p, s, i)
      case Some(j) => Sub(p, s, j)
      case None => [s[i]] + Sub(p, s, i + 1)
  }

  /** What a removal pass keeps is a subsequence of what it scanned. */
  lemma {:induction false} SubSubseq(p: Pattern, s: string, i: nat)
    requires i <= |s|
    ensures Subseq(Sub(p, s, i), s[i..])
    decreases |s| - i
  {
    if i == |s| {
      SubseqRefl(s[i..]);
    } else {
      var m := MatchAt(p, s, i);
      if m.Some? {
        SubSubseq(p, s, m.value);
        SubseqLongerSuffix(Sub(p, s, i), s, i, m.value);
      } else {
        SubSubseq(p, s, i + 1);
        SubseqCons(s[i], Sub(p, s, i + 1), s[i + 1..]);
        assert s[i..] == [s[i]] + s[i + 1..];
      }
    }
  }

  /** With no match anywhere from `i` on, a pass changes nothing. */
  lemma {:induction false} SubNoMatch(p: Pattern, s: string, i: nat)
    requires i <= |s|
    requires forall k :: i <= k < |s| ==> MatchAt(p, s, k).None?
    ensures Sub(p, s, i) == s[i..]
    decreases |s| - i
  {
    if i < |s| {
      SubNoMatch(p, s, i + 1);
      assert s[i..] == [s[i]] + s[i + 1..];
    }
  }

  /** The passes in order, each over the previous pass's output. */
  function Passes(ps: seq<Pattern>, s: string): string
    decreases |ps|
  {
    if ps == [] then s else Passes(ps[1..], Sub(ps[0], s, 0))
  }

  /** Whatever a sequence of passes keeps is a subsequence of its input. */
  lemma {:induction false} PassesSubseq(ps: seq<Pattern>, s: string)
    ensures Subseq(Passes(ps, s), s)
    decreases |ps|
  {
    if ps == [] {
      SubseqRefl(s);
    } else {
      var t := Sub(ps[0], s, 0);
      SubSubseq(ps[0], s, 0);
      assert s[0..] == s;
      PassesSubseq(ps[1..], t);
      SubseqTrans(Passes(ps[1..], t), t, s);
    }
  }

  /** `standardize_config`: empty stays empty; otherwise the lower-cased,
      stripped string with model suffixes and then memory/storage details
      removed. */
  function StandardizeConfig(s: string): string
  {
    if s == "" then "" else Passes(DetailPatterns, Passes(ModelPatterns, PyStrip(Lower(s))))
  }

  /** The standard form of the empty string is empty; any other standard
      form is made of characters of the lower-cased, stripped input, in
      order, so it holds no upper-case letter. */
  lemma StandardizeConfigShape(s: string)
    ensures s == "" ==> StandardizeConfig(s) == ""
    ensures Subseq(StandardizeConfig(s), PyStrip(Lower(s)))
    ensures NoUpper(StandardizeConfig(s))
  {
    var r := StandardizeConfig(s);
    var n := PyStrip(Lower(s));
    if s == "" {
      SubseqRefl(n);
    } else {
      var m := Passes(ModelPatterns, n);
      PassesSubseq(ModelPatterns, n);
      PassesSubseq(DetailPatterns, m);
      SubseqTrans(r, m, n);
    }
    StrippedLowerHasNoUpper(s);
    SubseqKeeps(r, n, c => !IsUpper(c));
  }

  lemma StrippedLowerHasNoUpper(s: string)
    ensures NoUpper(PyStrip(Lower(s)))
  {
    var l := Lower(s);
    var n := PyStrip(l);
    forall i | 0 <= i < |n| ensures !IsUpper(n[i]) {
      assert n[i] in l;
    }
  }
}

=== FILE: stats.dfy ===
// `update_stats`: the dashboard counters computed from the queue, the
// server catalogue and the purchase history.

module Stats {
  import opened Text
  import opened PurchaseQueue
  import opened Purchase

  /** A catalogue datacenter entry and a catalogue plan. */
  datatype DcStatus = DcStatus(datacenter: string, availability: string)
  datatype ServerPlan = ServerPlan(planCode: string, datacenters: seq<DcStatus>)

  datatype Stats = Stats(activeQueues: nat, totalServers: nat, availableServers: nat,
                         purchaseSuccess: nat, purchaseFailed: nat)

  predicate DcInStock(d: DcStatus) { d.availability != "unavailable" && d.availability != "unknown" }

  /** A plan is available when at least one of its datacenters is in stock. */
  predicate PlanAvailable(p: ServerPlan) { exists j :: 0 <= j < |p.datacenters| && DcInStock(p.datacenters[j]) }

  predicate ItemActive(it: QueueItem) { IsActive(it.status) }
  predicate Succeeded(e: HistoryEntry) { e.status == "success" }
  predicate FailedEntry(e: HistoryEntry) { e.status == "failed" }

  /** The counters, computed with the loops of `update_stats`: each plan is
      counted once however many of its datacenters are in stock. */
  method UpdateStats(queue: seq<QueueItem>, plans: seq<ServerPlan>, history: seq<HistoryEntry>) returns (s: Stats)
    ensures s.activeQueues == Count(queue, ItemActive)
    ensures s.totalServers == |plans|
    ensures s.availableServers == Count(plans, PlanAvailable) && s.availableServers <= s.totalServers
    ensures s.purchaseSuccess == Count(history, Succeeded)
    ensures s.purchaseFailed == Count(history, FailedEntry)
    ensures s.purchaseSuccess + s.purchaseFailed <= |history|
  {
    var active := 0;
    var i := 0;
    while i < |queue|
      invariant 0 <= i <= |queue| && active == Count(queue[..i], ItemActive)
    {
      CountSnoc(queue[..i], queue[i], ItemActive);
      assert queue[..i + 1] == queue[..i] + [queue[i]];
      if IsActive(queue[i].status) { active := active + 1; }
      i := i + 1;
    }
    assert queue[..i] == queue;

    var available := 0;
    var k := 0;
    while k < |plans|
      invariant 0 <= k <= |plans| && available == Count(plans[..k], PlanAvailable)
    {
      var dcs := plans[k].datacenters;
      var found := false;
      var j := 0;
      while j < |dcs| && !found
        invariant 0 <= j <= |dcs|
        invariant found <==> exists m :: 0 <= m < j && DcInStock(dcs[m])
      {
        if DcInStock(dcs[j]) { found := true; }
        j := j + 1;
      }
      assert found <==> PlanAvailable(plans[k]);
      CountSnoc(plans[..k], plans[k], PlanAvailable);
      assert plans[..k + 1] == plans[..k] + [plans[k]];
      if found { available := available + 1; }
      k := k + 1;
    }
    assert plans[..k] == plans;

    var success := 0;
    var failed := 0;
    var n := 0;
    while n < |history|
      invariant 0 <= n <= |history|
      invariant success == Count(history[..n], Succeeded) && failed == Count(history[..n], FailedEntry)
    {
      CountSnoc(history[..n], history[n], Succeeded);
      CountSnoc(history[..n], history[n], FailedEntry);
      assert history[..n + 1] == history[..n] + [history[n]];
      if history[n].status == "success" { success := success + 1; }
      if history[n].status == "failed" { failed := failed + 1; }
      n := n + 1;
    }
    assert history[..n] == history;
    CountDisjoint(history, Succeeded, FailedEntry);
    s := Stats(active, |plans|, available, success, failed);
  }
}

=== FILE: text.dfy ===
/** Strings and sequences: the small library the backend (Python) and the
    front end (TypeScript) both lean on.  Where the two runtimes disagree
    (which characters `strip()`/`trim()` remove) each gets its own
    definition. */
module Text {

  datatype Option<T> = None | Some(value: T)

  // ---------------------------------------------------------------------
  // Characters
  // ---------------------------------------------------------------------

  predicate IsUpper(c: char) { 'A' <= c <= 'Z' }

  predicate IsLowerLetter(c: char) { 'a' <= c <= 'z' }

  predicate IsDigit(c: char) { '0' <= c <= '9' }

  /** `\w` of Python's `re` restricted to ASCII: letters, digits, underscore. */
  predicate IsWordChar(c: char) { IsUpper(c) || IsLowerLetter(c) || IsDigit(c) || c == '_' }

  /** ASCII lower-casing of one character. */
  function LowerChar(c: char): (r: char)
    ensures !IsUpper(r)
    ensures !IsUpper(c) ==> r == c
  {
    if IsUpper(c) then (c as int + 32) as char else c
  }

  /** `str.lower()` / `String.prototype.toLowerCase()` on the ASCII range. */
  function Lower(s: string): (r: string)
    ensures |r| == |s|
    ensures forall i :: 0 <= i < |s| ==> r[i] == LowerChar(s[i])
  {
    seq(|s|, i requires 0 <= i < |s| => LowerChar(s[i]))
  }

  predicate NoUpper(s: string) { forall i :: 0 <= i < |s| ==> !IsUpper(s[i]) }

  lemma LowerHasNoUpper(s: string)
    ensures NoUpper(Lower(s))
  {
  }

  /** Characters Python's `str.isspace()` accepts (so `str.strip()` removes). */
  predicate IsPySpace(c: char)
  {
    || ('\t' <= c <= '\r') || ('\U{1C}' <= c <= '\U{1F}') || c == ' '
    || c == '\U{85}' || c == '\U{A0}' || c == '\U{1680}'
    || ('\U{2000}' <= c <= '\U{200A}') || c == '\U{2028}' || c == '\U{2029}'
    || c == '\U{202F}' || c == '\U{205F}' || c == '\U{3000}'
  }

  /** Characters ECMAScript's `String.prototype.trim()` removes
      (WhiteSpace and LineTerminator). */
  predicate IsJsSpace(c: char)
  {
    || ('\t' <= c <= '\r') || c == ' ' || c == '\U{A0}' || c == '\U{1680}'
    || ('\U{2000}' <= c <= '\U{200A}') || c == '\U{2028}' || c == '\U{2029}'
    || c == '\U{202F}' || c == '\U{205F}' || c == '\U{3000}' || c == '\U{FEFF}'
  }

  // ---------------------------------------------------------------------
  // Trimming
  // ---------------------------------------------------------------------

  function TrimStart(s: string, space: char -> bool): (r: string)
    ensures |r| <= |s| && r == s[|s| - |r|..]
    ensures |r| > 0 ==> !space(r[0])
    ensures forall i :: 0 <= i < |s| - |r| ==> space(s[i])
    decreases |s|
  {
    if |s| > 0 && space(s[0]) then
      var r := TrimStart(s[1..], space);
      SpacePrefixCons(s, space, |s| - 1 - |r|);
      assert s[1..][|s| - 1 - |r|..] == s[|s| - |r|..];
      r
    else s
  }

  function TrimEnd(s: string, space: char -> bool): (r: string)
    ensures |r| <= |s| && r == s[..|r|]
    ensures |r| > 0 ==> !space(r[|r| - 1])
    ensures forall i :: |r| <= i < |s| ==> space(s[i])
    decreases |s|
  {
    if |s| > 0 && space(s[|s| - 1]) then
      var r := TrimEnd(s[..|s| - 1], space);
      SpaceSuffixSnoc(s, s[..|s| - 1], space, |r|);
      assert s[..|s| - 1][..|r|] == s[..|r|];
      r
    else s
  }

  lemma SpacePrefixCons(s: string, space: char -> bool, m: nat)
    requires |s| > 0 && space(s[0]) && m < |s|
    requires forall i :: 0 <= i < m ==> space(s[1..][i])
    ensures forall i :: 0 <= i < m + 1 ==> space(s[i])
  {
    forall i | 1 <= i < m + 1 ensures space(s[i]) {
      assert s[i] == s[1..][i - 1];
    }
  }

  lemma SpaceSuffixSnoc(s: string, t: string, space: char -> bool, m: nat)
    requires |s| > 0 && space(s[|s| - 1]) && m < |s| && t == s[..|s| - 1]
    requires forall i :: m <= i < |t| ==> space(t[i])
    ensures forall i :: m <= i < |s| ==> space(s[i])
  {
    forall i | m <= i < |t| ensures space(s[i]) {
      assert s[i] == t[i];
    }
  }

  /** Removes leading and trailing `space` characters: the result is made
      of characters of `s` and neither starts nor ends with one. */
  function Trim(s: string, space: char -> bool): (r: string)
    ensures |r| <= |s|
    ensures forall i :: 0 <= i < |r| ==> r[i] in s
    ensures |r| > 0 ==> !space(r[0]) && !space(r[|r| - 1])
  {
    var a := TrimStart(s, space);
    var r := TrimEnd(a, space);
    var k := |s| - |a|;
    assert r == s[k..k + |r|];
    SliceIn(s, k, k + |r|);
    r
  }

  /** Every element of a slice occurs in the sequence. */
  lemma SliceIn<T>(s: seq<T>, lo: nat, hi: nat)
    requires lo <= hi <= |s|
    ensures forall i :: 0 <= i < hi - lo ==> s[lo..hi][i] in s
  {
    forall i | 0 <= i < hi - lo ensures s[lo..hi][i] in s {
      assert s[lo..hi][i] == s[lo + i];
    }
  }

  function PyStrip(s: string): string { Trim(s, IsPySpace) }

  function JsTrim(s: string): string { Trim(s, IsJsSpace) }

  /** A string is blank exactly when trimming leaves nothing. */
  lemma TrimEmptyIffAllSpace(s: string, space: char -> bool)
    ensures Trim(s, space) == [] <==> forall i :: 0 <= i < |s| ==> space(s[i])
  {
    var a := TrimStart(s, space);
    var k := |s| - |a|;
    assert forall j :: 0 <= j < |a| ==> a[j] == s[k + j];
    assert Trim(s, space) == TrimEnd(a, space);
  }

  // ---------------------------------------------------------------------
  // Prefix and substring search
  // ---------------------------------------------------------------------

  predicate StartsWith(s: string, p: string) { |p| <= |s| && s[..|p|] == p }

  /** `t in s` (Python) / `s.includes(t)` (TypeScript). */
  predicate Contains(s: string, t: string)
    decreases |s|
  {
    StartsWith(s, t) || (|s| > 0 && Contains(s[1..], t))
  }

  lemma ContainsSlice(s: string, t: string, i: nat)
    requires i + |t| <= |s| && s[i..i + |t|] == t
    ensures Contains(s, t)
    decreases i
  {
    if i > 0 {
      assert s[1..][i - 1..i - 1 + |t|] == t;
      ContainsSlice(s[1..], t, i - 1);
    }
  }

  lemma ContainsWitness(s: string, t: string) returns (i: nat)
    requires Contains(s, t)
    ensures i + |t| <= |s| && s[i..i + |t|] == t
    decreases |s|
  {
    if StartsWith(s, t) {
      i := 0;
    } else {
      var j := ContainsWitness(s[1..], t);
      i := j + 1;
      assert s[i..i + |t|] == s[1..][j..j + |t|];
    }
  }

  /** Every string contains the empty string. */
  lemma ContainsEmpty(s: string)
    ensures Contains(s, "")
  {
    ContainsSlice(s, "", 0);
  }

  // ---------------------------------------------------------------------
  // Decimal numbers
  // ---------------------------------------------------------------------

  predicate AllDigits(s: string) { forall i :: 0 <= i < |s| ==> IsDigit(s[i]) }

  function DigitChar(d: nat): (c: char)
    requires d < 10
    ensures IsDigit(c)
  {
    ('0' as int + d) as char
  }

  function DigitValue(c: char): (d: nat)
    requires IsDigit(c)
    ensures d < 10
  {
    c as int - '0' as int
  }

  /** The value of a string of decimal digits, most significant first. */
  function DigitsValue(s: string): nat
    requires AllDigits(s)
    decreases |s|
  {
    if |s| == 0 then 0 else DigitsValue(s[..|s| - 1]) * 10 + DigitValue(s[|s| - 1])
  }

  /** Decimal rendering of a natural number without leading zeros
      (`str(n)` / `${n}`). */
  function NatToString(n: nat): (r: string)
    ensures |r| > 0 && AllDigits(r)
    ensures |r| > 1 ==> r[0] != '0'
    decreases n
  {
    if n < 10 then [DigitChar(n)] else NatToString(n / 10) + [DigitChar(n % 10)]
  }

  /** Decimal rendering of an integer, with a leading '-' when negative. */
  function IntToString(i: int): (r: string)
    ensures |r| > 0
    ensures i >= 0 <==> IsDigit(r[0])
  {
    if i < 0 then "-" + NatToString(-i) else NatToString(i)
  }

  lemma {:induction false} NatToStringValue(n: nat)
    ensures DigitsValue(NatToString(n)) == n
    decreases n
  {
    if n >= 10 {
      var r := NatToString(n);
      NatToStringValue(n / 10);
      assert r[..|r| - 1] == NatToString(n / 10);
    }
  }

  /** Different numbers render differently. */
  lemma NatToStringInjective(a: nat, b: nat)
    ensures NatToString(a) == NatToString(b) ==> a == b
  {
    NatToStringValue(a);
    NatToStringValue(b);
  }

  /** A common suffix cancels. */
  lemma SuffixCancel(a: string, b: string, x: string)
    requires a + x == b + x
    ensures a == b
  {
    assert a == (a + x)[..|a|];
    assert b == (b + x)[..|b|];
  }

  /** Splits `a + x == b + y` at the first non-digit: when `a` and `b` are
      digit strings and `x`, `y` start with a non-digit, the pieces agree. */
  lemma DigitPrefixSplit(a: string, x: string, b: string, y: string)
    requires AllDigits(a) && AllDigits(b)
    requires |x| > 0 && |y| > 0 && !IsDigit(x[0]) && !IsDigit(y[0])
    requires a + x == b + y
    ensures a == b && x == y
  {
    var k := if |a| < |b| then |a| else |b|;
    assert (a + x)[k] == (b + y)[k];
    assert |a| == |b|;
    assert a == (a + x)[..|a|];
    assert b == (b + y)[..|b|];
    assert x == (a + x)[|a|..];
    assert y == (b + y)[|b|..];
  }

  // ---------------------------------------------------------------------
  // Sequences
  // ---------------------------------------------------------------------

  /** The newest `n` elements of `s` (Python's `s[-n:]` once `len(s) > n`). */
  function Last<T>(n: nat, s: seq<T>): (r: seq<T>)
    ensures |r| == if |s| <= n then |s| else n
    ensures r == s[|s| - |r|..]
  {
    if |s| <= n then s else s[|s| - n..]
  }

  /** What `Last` keeps comes from its input. */
  lemma LastIn<T>(n: nat, s: seq<T>, x: T)
    requires x in Last(n, s)
    ensures x in s
  {
    var r := Last(n, s);
    var i :| 0 <= i < |r| && r[i] == x;
    assert s[|s| - |r| + i] == x;
  }

  /** Trimming before appending keeps the same newest `n` elements as
      trimming only afterwards. */
  lemma LastAppend<T>(n: nat, a: seq<T>, b: seq<T>)
    ensures Last(n, Last(n, a) + b) == Last(n, a + b)
  {
    var x := Last(n, a) + b;
    assert x == (a + b)[|a| - |Last(n, a)|..];
  }

  /** `a` is an order-preserving subsequence of `b`. */
  predicate Subseq<T(==)>(a: seq<T>, b: seq<T>)
    decreases |b|
  {
    if |a| == 0 then true
    else if |b| == 0 then false
    else if a[0] == b[0] then Subseq(a[1..], b[1..])
    else Subseq(a, b[1..])
  }

  lemma {:induction false} SubseqDropHead<T>(a: seq<T>, b: seq<T>)
    requires |a| > 0 && Subseq(a, b)
    ensures Subseq(a[1..], b)
    decreases |b|, 0
  {
    if a[0] != b[0] {
      SubseqDropHead(a, b[1..]);
      SubseqConsRight(a[1..], b[1..], b[0]);
      assert [b[0]] + b[1..] == b;
    } else {
      SubseqConsRight(a[1..], b[1..], b[0]);
      assert [b[0]] + b[1..] == b;
    }
  }

  lemma {:induction false} SubseqConsRight<T>(a: seq<T>, b: seq<T>, x: T)
    requires Subseq(a, b)
    ensures Subseq(a, [x] + b)
    decreases |b|, 1
  {
    var c := [x] + b;
    assert c[1..] == b;
    if |a| > 0 && a[0] == x {
      SubseqDropHead(a, b);
    }
  }

  lemma SubseqCons<T>(x: T, a: seq<T>, b: seq<T>)
    requires Subseq(a, b)
    ensures Subseq([x] + a, [x] + b)
  {
    assert ([x] + a)[1..] == a && ([x] + b)[1..] == b;
  }

  lemma {:induction false} SubseqRefl<T>(a: seq<T>)
    ensures Subseq(a, a)
    decreases |a|
  {
    if |a| > 0 {
      SubseqRefl(a[1..]);
    }
  }

  /** The sequences of `ss` one after the other. */
  function Concat<T>(ss: seq<seq<T>>): (r: seq<T>)
    ensures forall x :: x in r ==> exists k :: 0 <= k < |ss| && x in ss[k]
    decreases |ss|
  {
    if ss == [] then []
    else
      assert forall k :: 1 <= k < |ss| ==> ss[1..][k - 1] == ss[k];
      ss[0] + Concat(ss[1..])
  }

  lemma {:induction false} ConcatAppend<T>(a: seq<seq<T>>, b: seq<seq<T>>)
    ensures Concat(a + b) == Concat(a) + Concat(b)
    decreases |a|
  {
    if a == [] {
      assert a + b == b;
    } else {
      assert (a + b)[1..] == a[1..] + b;
      ConcatAppend(a[1..], b);
    }
  }

  /** Element `k` of `ss` sits in the concatenation right after everything
      before it. */
  lemma ConcatAt<T>(ss: seq<seq<T>>, k: nat)
    requires k < |ss|
    ensures Concat(ss) == Concat(ss[..k]) + ss[k] + Concat(ss[k + 1..])
  {
    assert ss == ss[..k] + ss[k..];
    ConcatAppend(ss[..k], ss[k..]);
    assert ss[k..][1..] == ss[k + 1..];
  }

  /** Elements of `s` satisfying `p`, in order. */
  function Filter<T>(s: seq<T>, p: T -> bool): (r: seq<T>)
    ensures |r| <= |s|
    ensures forall i :: 0 <= i < |r| ==> r[i] in s && p(r[i])
    ensures forall i :: 0 <= i < |s| && p(s[i]) ==> s[i] in r
    decreases |s|
  {
    if |s| == 0 then [] else (if p(s[0]) then [s[0]] else []) + Filter(s[1..], p)
  }

  lemma {:induction false} FilterSubseq<T>(s: seq<T>, p: T -> bool)
    ensures Subseq(Filter(s, p), s)
    decreases |s|
  {
    if |s| > 0 {
      FilterSubseq(s[1..], p);
      if p(s[0]) {
        assert Filter(s, p) == [s[0]] + Filter(s[1..], p);
        assert Filter(s, p)[1..] == Filter(s[1..], p);
      } else {
        assert Filter(s, p) == Filter(s[1..], p);
        SubseqConsRight(Filter(s[1..], p), s[1..], s[0]);
        assert [s[0]] + s[1..] == s;
      }
    }
  }

  /** `if (on) list = list.filter(p)`: a filter step a page applies only
      when its control is set. */
  function FilterWhen<T>(s: seq<T>, on: bool, p: T -> bool): (r: seq<T>)
    ensures Subseq(r, s)
    ensures forall i :: 0 <= i < |r| ==> r[i] in s && (on ==> p(r[i]))
    ensures forall i :: 0 <= i < |s| && (on ==> p(s[i])) ==> s[i] in r
  {
    if on then
      FilterSubseq(s, p);
      Filter(s, p)
    else
      SubseqRefl(s);
      s
  }

  /** An element is kept by `Filter` exactly when it occurs and passes. */
  lemma FilterMembers<T>(s: seq<T>, p: T -> bool, x: T)
    ensures x in Filter(s, p) <==> x in s && p(x)
  {
    var r := Filter(s, p);
    if x in r {
      var i :| 0 <= i < |r| && r[i] == x;
    }
    if x in s && p(x) {
      var i :| 0 <= i < |s| && s[i] == x;
    }
  }

  lemma FilterWhenMembers<T>(s: seq<T>, on: bool, p: T -> bool, x: T)
    ensures x in FilterWhen(s, on, p) <==> x in s && (on ==> p(x))
  {
    var r := FilterWhen(s, on, p);
    if x in r {
      var i :| 0 <= i < |r| && r[i] == x;
    }
    if x in s && (on ==> p(x)) {
      var i :| 0 <= i < |s| && s[i] == x;
    }
  }

  lemma {:induction false} FilterAppend<T>(a: seq<T>, b: seq<T>, p: T -> bool)
    ensures Filter(a + b, p) == Filter(a, p) + Filter(b, p)
    decreases |a|
  {
    if |a| > 0 {
      assert (a + b)[1..] == a[1..] + b;
      FilterAppend(a[1..], b, p);
    } else {
      assert a + b == b;
    }
  }

  lemma {:induction false} FilterMultiset<T>(s: seq<T>, p: T -> bool)
    ensures multiset(Filter(s, p)) <= multiset(s)
    decreases |s|
  {
    if |s| > 0 {
      FilterMultiset(s[1..], p);
      assert s == [s[0]] + s[1..];
    }
  }

  /** Filters by complementary predicates split a sequence's multiset. */
  lemma FilterSplit<T>(s: seq<T>, p: T -> bool, q: T -> bool)
    requires forall x :: q(x) == !p(x)
    ensures multiset(Filter(s, p)) + multiset(Filter(s, q)) == multiset(s)
  {
    forall x ensures (multiset(Filter(s, p)) + multiset(Filter(s, q)))[x] == multiset(s)[x] {
      FilterMultiplicity(s, p, x);
      FilterMultiplicity(s, q, x);
    }
  }

  /** `Filter` keeps every copy of a kept value and none of the others. */
  lemma {:induction false} FilterMultiplicity<T>(s: seq<T>, p: T -> bool, x: T)
    ensures multiset(Filter(s, p))[x] == if p(x) then multiset(s)[x] else 0
    decreases |s|
  {
    if |s| > 0 {
      var t := s[1..];
      FilterMultiplicity(t, p, x);
      assert s == [s[0]] + t;
      FilterCons(s, p);
    }
  }

  /** One unfolding of `Filter`. */
  lemma FilterCons<T>(s: seq<T>, p: T -> bool)
    requires s != []
    ensures Filter(s, p) == (if p(s[0]) then [s[0]] else []) + Filter(s[1..], p)
  {
  }

  /** A filter every element passes keeps the sequence. */
  lemma {:induction false} FilterAll<T>(s: seq<T>, p: T -> bool)
    requires forall i :: 0 <= i < |s| ==> p(s[i])
    ensures Filter(s, p) == s
    decreases |s|
  {
    if s != [] {
      FilterAll(s[1..], p);
      assert s == [s[0]] + s[1..];
    }
  }

  /** A filter no element passes empties it. */
  lemma {:induction false} FilterNone<T>(s: seq<T>, p: T -> bool)
    requires forall i :: 0 <= i < |s| ==> !p(s[i])
    ensures Filter(s, p) == []
    decreases |s|
  {
    if s != [] {
      FilterNone(s[1..], p);
    }
  }

  /** `p` when the switch is on; otherwise everything passes. */
  function When<T>(on: bool, p: T -> bool): T -> bool
  {
    (x: T) => !on || p(x)
  }

  /** Both tests pass. */
  function Both<T>(p: T -> bool, q: T -> bool): T -> bool
  {
    (x: T) => p(x) && q(x)
  }

  /** Two filters that agree on every element keep the same elements. */
  lemma {:induction false} FilterExt<T>(s: seq<T>, p: T -> bool, q: T -> bool)
    requires forall i :: 0 <= i < |s| ==> p(s[i]) == q(s[i])
    ensures Filter(s, p) == Filter(s, q)
    decreases |s|
  {
    if s != [] {
      FilterExt(s[1..], p, q);
    }
  }

  /** A switched filter is a filter by the switched test. */
  lemma FilterWhenIs<T>(s: seq<T>, on: bool, p: T -> bool)
    ensures FilterWhen(s, on, p) == Filter(s, When(on, p))
  {
    if on {
      FilterExt(s, p, When(on, p));
    } else {
      FilterAll(s, When(on, p));
    }
  }

  /** Filtering twice is filtering once by both tests. */
  lemma {:induction false} FilterFilter<T>(s: seq<T>, p: T -> bool, q: T -> bool)
    ensures Filter(Filter(s, p), q) == Filter(s, Both(p, q))
    decreases |s|
  {
    if s != [] {
      FilterFilter(s[1..], p, q);
      var head := if p(s[0]) then [s[0]] else [];
      FilterAppend(head, Filter(s[1..], p), q);
    }
  }

  /** Two conditional filters in a row are one filter by both conditions. */
  lemma FilterWhenTwice<T>(s: seq<T>, on1: bool, p1: T -> bool, on2: bool, p2: T -> bool)
    ensures FilterWhen(FilterWhen(s, on1, p1), on2, p2) == Filter(s, Both(When(on1, p1), When(on2, p2)))
  {
    FilterWhenIs(s, on1, p1);
    FilterWhenIs(FilterWhen(s, on1, p1), on2, p2);
    FilterFilter(s, When(on1, p1), When(on2, p2));
  }

  /** Number of elements of `s` satisfying `p` (`sum(1 for x in s if p(x))`). */
  function Count<T>(s: seq<T>, p: T -> bool): (n: nat)
    ensures n <= |s|
    decreases |s|
  {
    if |s| == 0 then 0 else (if p(s[0]) then 1 else 0) + Count(s[1..], p)
  }

  lemma {:induction false} CountIsFilterLength<T>(s: seq<T>, p: T -> bool)
    ensures Count(s, p) == |Filter(s, p)|
    decreases |s|
  {
    if |s| > 0 {
      CountIsFilterLength(s[1..], p);
    }
  }

  /** Counting over a sequence extended at the end. */
  lemma {:induction false} CountSnoc<T>(s: seq<T>, x: T, p: T -> bool)
    ensures Count(s + [x], p) == Count(s, p) + (if p(x) then 1 else 0)
    decreases |s|
  {
    if s == [] {
      assert [x] + [] == [x];
    } else {
      assert (s + [x])[1..] == s[1..] + [x];
      CountSnoc(s[1..], x, p);
    }
  }

  /** Two predicates that never hold together count at most the length. */
  lemma {:induction false} CountDisjoint<T>(s: seq<T>, p: T -> bool, q: T -> bool)
    requires forall x :: !(p(x) && q(x))
    ensures Count(s, p) + Count(s, q) <= |s|
    decreases |s|
  {
    if s != [] {
      CountDisjoint(s[1..], p, q);
    }
  }

  /** A predicate implied by another counts no more elements. */
  lemma {:induction false} CountMonotone<T>(s: seq<T>, p: T -> bool, q: T -> bool)
    requires forall x :: p(x) ==> q(x)
    ensures Count(s, p) <= Count(s, q)
    decreases |s|
  {
    if |s| > 0 {
      CountMonotone(s[1..], p, q);
    }
  }

  predicate NoDup<T(==)>(s: seq<T>)
  {
    forall i, j :: 0 <= i < j < |s| ==> s[i] != s[j]
  }

  /** `list.splice(list.indexOf(x), 1)`: drops the first occurrence of `x`,
      if any. */
  function RemoveFirst<T(==)>(s: seq<T>, x: T): (r: seq<T>)
    ensures x in s ==> |r| == |s| - 1
    ensures x !in s ==> r == s
    ensures multiset(r) == multiset(s) - multiset{x}
    decreases |s|
  {
    if |s| == 0 then []
    else if s[0] == x then (assert s == [s[0]] + s[1..]; s[1..])
    else (assert s == [s[0]] + s[1..]; [s[0]] + RemoveFirst(s[1..], x))
  }

  lemma {:induction false} RemoveFirstSubseq<T>(s: seq<T>, x: T)
    ensures Subseq(RemoveFirst(s, x), s)
    decreases |s|
  {
    if |s| > 0 {
      if s[0] == x {
        SubseqRefl(s[1..]);
        SubseqConsRight(s[1..], s[1..], s[0]);
        assert [s[0]] + s[1..] == s;
      } else {
        RemoveFirstSubseq(s[1..], x);
        var r := RemoveFirst(s, x);
        assert r[1..] == RemoveFirst(s[1..], x);
      }
    }
  }

  lemma {:induction false} SubseqTrans<T>(a: seq<T>, b: seq<T>, c: seq<T>)
    requires Subseq(a, b) && Subseq(b, c)
    ensures Subseq(a, c)
    decreases |c|
  {
    if |a| > 0 && |c| > 0 {
      if b[0] == c[0] {
        if a[0] == b[0] {
          SubseqTrans(a[1..], b[1..], c[1..]);
        } else {
          SubseqTrans(a, b[1..], c[1..]);
        }
      } else {
        SubseqTrans(a, b, c[1..]);
        if a[0] == c[0] {
          SubseqDropHead(a, c[1..]);
        }
      }
    }
  }

  lemma {:induction false} SubseqMembers<T>(a: seq<T>, b: seq<T>)
    requires Subseq(a, b)
    ensures forall x :: x in a ==> x in b
    decreases |b|
  {
    if |a| > 0 {
      if a[0] == b[0] {
        SubseqMembers(a[1..], b[1..]);
        assert a == [a[0]] + a[1..];
      } else {
        SubseqMembers(a, b[1..]);
      }
    }
  }

  /** A property of every element carries over to a subsequence. */
  lemma SubseqKeeps<T>(a: seq<T>, b: seq<T>, p: T -> bool)
    requires Subseq(a, b) && forall i :: 0 <= i < |b| ==> p(b[i])
    ensures forall i :: 0 <= i < |a| ==> p(a[i])
  {
    SubseqMembers(a, b);
    forall i | 0 <= i < |a| ensures p(a[i]) {
      assert a[i] in a;
      var k :| 0 <= k < |b| && b[k] == a[i];
    }
  }

  /** A subsequence of a suffix is a subsequence of any longer suffix. */
  lemma {:induction false} SubseqLongerSuffix<T>(a: seq<T>, s: seq<T>, i: nat, j: nat)
    requires i <= j <= |s| && Subseq(a, s[j..])
    ensures Subseq(a, s[i..])
    decreases j - i
  {
    if i < j {
      SubseqConsRight(a, s[j..], s[j - 1]);
      assert [s[j - 1]] + s[j..] == s[j - 1..];
      SubseqLongerSuffix(a, s, i, j - 1);
    }
  }

  // ---------------------------------------------------------------------
  // Splitting on a separator character
  // ---------------------------------------------------------------------

  function IndexOf(s: string, c: char): (i: nat)
    requires c in s
    ensures i < |s| && s[i] == c && c !in s[..i]
  {
    if s[0] == c then 0 else IndexOf(s[1..], c) + 1
  }

  /** `s.split(c)` (JavaScript) / `s.split(c)` (Python): the pieces between
      separators, including empty ones. */
  function Split(s: string, c: char): (parts: seq<string>)
    ensures |parts| > 0
    ensures forall k :: 0 <= k < |parts| ==> c !in parts[k]
    decreases |s|
  {
    if c !in s then [s]
    else
      var i := IndexOf(s, c);
      [s[..i]] + Split(s[i + 1..], c)
  }

  /** `c.join(parts)`. */
  function Join(parts: seq<string>, c: char): string
    decreases |parts|
  {
    if |parts| == 0 then ""
    else if |parts| == 1 then parts[0]
    else parts[0] + [c] + Join(parts[1..], c)
  }

  /** Joining the pieces with the separator gives back the input. */
  lemma {:induction false} SplitJoin(s: string, c: char)
    ensures Join(Split(s, c), c) == s
    decreases |s|
  {
    if c in s {
      var i := IndexOf(s, c);
      var rest := Split(s[i + 1..], c);
      SplitJoin(s[i + 1..], c);
      assert Split(s, c) == [s[..i]] + rest;
      assert s == s[..i] + [c] + s[i + 1..];
    }
  }
}

=== FILE: vps_monitor.dfy ===
// The VPS availability monitor of the backend: one pass of the monitoring
// loop over a subscription classifies every watched datacenter as seen for
// the first time, back in stock, or gone out of stock, records history,
// updates the per-datacenter last status and decides which summary
// notifications go out; plus the subscription handlers (add, remove,
// clear) and the check-interval setter.  The availability lookup, the
// clock and uuid generation are parameters; the thread is not modelled.

module VpsMonitor {
  import opened Text

  const HistoryCap: nat := 100
  const MinCheckInterval := 60
  const DefaultSubsidiary := "IE"

  /** The two statuses that count as out of stock. */
  predicate IsOutOfStock(status: string)
  {
    status == "out-of-stock" || status == "out-of-stock-preorder-allowed"
  }

  /** One datacenter row of the availability lookup. */
  datatype VpsDc = VpsDc(code: string, name: string, status: string, days: int)

  /** The three change lists of one pass. */
  datatype Bucket = Initial | NewAvailable | NewUnavailable

  datatype VpsEntry = VpsEntry(
    timestamp: string,
    datacenter: string,
    datacenterCode: string,
    status: string,
    becameAvailable: bool,          // changeType "available" (else "unavailable")
    oldStatus: Option<string>)

  datatype VpsSubscription = VpsSubscription(
    id: string,
    planCode: string,
    ovhSubsidiary: string,
    datacenters: seq<string>,       // empty: every datacenter is watched
    monitorLinux: bool,
    monitorWindows: bool,
    notifyAvailable: bool,
    notifyUnavailable: bool,
    lastStatus: map<string, string>,
    history: seq<VpsEntry>,
    createdAt: string)

  // ---------------------------------------------------------------------
  // Change classification
  // ---------------------------------------------------------------------

  /** The list a datacenter lands in, given its previous status (None when
      never seen before) and its current status; None: no list. */
  function ClassifyVps(prev: Option<string>, status: string): (r: Option<Bucket>)
    ensures r == Some(Initial) <==> prev.None?
    ensures r == Some(NewAvailable) <==> prev.Some? && IsOutOfStock(prev.value) && !IsOutOfStock(status)
    ensures r == Some(NewUnavailable) <==> prev.Some? && !IsOutOfStock(prev.value) && IsOutOfStock(status)
  {
    if prev.None? then Some(Initial)
    else if IsOutOfStock(prev.value) && !IsOutOfStock(status) then Some(NewAvailable)
    else if !IsOutOfStock(prev.value) && IsOutOfStock(status) then Some(NewUnavailable)
    else None
  }

  /** A first sighting is recorded in the history only when in stock; the
      two transitions are always recorded. */
  function EntryFor(b: Bucket, dc: VpsDc, prev: Option<string>, now: string): (r: Option<VpsEntry>)
    ensures r.Some? <==> b != Initial || !IsOutOfStock(dc.status)
    ensures r.Some? ==> r.value.becameAvailable <==> b != NewUnavailable
    ensures r.Some? ==> r.value.datacenterCode == dc.code && r.value.status == dc.status && r.value.oldStatus == prev
  {
    match b
    case Initial => if IsOutOfStock(dc.status) then None else Some(VpsEntry(now, dc.name, dc.code, dc.status, true, prev))
    case NewAvailable => Some(VpsEntry(now, dc.name, dc.code, dc.status, true, prev))
    case NewUnavailable => Some(VpsEntry(now, dc.name, dc.code, dc.status, false, prev))
  }

  predicate Watched(monitored: seq<string>, code: string)
  {
    monitored == [] || code in monitored
  }

  /** What a pass has gathered so far. */
  datatype Scan = Scan(
    initial: seq<VpsDc>,
    newAvailable: seq<VpsDc>,
    newUnavailable: seq<VpsDc>,
    lastStatus: map<string, string>,
    history: seq<VpsEntry>)

  function Listed(s: Scan): nat
  {
    |s.initial| + |s.newAvailable| + |s.newUnavailable|
  }

  /** The status a datacenter had before a row: None when never seen. */
  function PrevStatus(last: map<string, string>, code: string): Option<string>
  {
    if code in last then Some(last[code]) else None
  }

  /** The history entries a watched row adds: the entry of its list, if any. */
  function RowEntry(prev: Option<string>, dc: VpsDc, now: string): (r: seq<VpsEntry>)
    ensures |r| <= 1
  {
    var b := ClassifyVps(prev, dc.status);
    if b.None? then []
    else match EntryFor(b.value, dc, prev, now) case None => [] case Some(e) => [e]
  }

  /** The last-status map once row `dc` has been seen. */
  function Seen(monitored: seq<string>, last: map<string, string>, dc: VpsDc): map<string, string>
  {
    if Watched(monitored, dc.code) then last[dc.code := dc.status] else last
  }

  /** Processing of one datacenter row: a watched row lands in the list its
      classification names (if any), adds that list's history entry and
      records its status; an unwatched row changes nothing. */
  function ScanStep(monitored: seq<string>, acc: Scan, dc: VpsDc, now: string): (r: Scan)
    ensures Listed(r) <= Listed(acc) + 1
    ensures |acc.history| <= |r.history| <= |acc.history| + 1 && r.history[..|acc.history|] == acc.history
    ensures !Watched(monitored, dc.code) ==> r == acc
    ensures Watched(monitored, dc.code) ==> r.lastStatus == acc.lastStatus[dc.code := dc.status]
    ensures Watched(monitored, dc.code) ==>
      var b := ClassifyVps(PrevStatus(acc.lastStatus, dc.code), dc.status);
      && r.initial == (if b == Some(Initial) then acc.initial + [dc] else acc.initial)
      && r.newAvailable == (if b == Some(NewAvailable) then acc.newAvailable + [dc] else acc.newAvailable)
      && r.newUnavailable == (if b == Some(NewUnavailable) then acc.newUnavailable + [dc] else acc.newUnavailable)
      && r.history == acc.history + RowEntry(PrevStatus(acc.lastStatus, dc.code), dc, now)
  {
    if !Watched(monitored, dc.code) then acc
    else
      var prev := PrevStatus(acc.lastStatus, dc.code);
      var b := ClassifyVps(prev, dc.status);
      var history := acc.history + RowEntry(prev, dc, now);
      var acc1 := acc.(lastStatus := acc.lastStatus[dc.code := dc.status], history := history);
      match b
      case None => acc1
      case Some(Initial) => acc1.(initial := acc.initial + [dc])
      case Some(NewAvailable) => acc1.(newAvailable := acc.newAvailable + [dc])
      case Some(NewUnavailable) => acc1.(newUnavailable := acc.newUnavailable + [dc])
  }

  /** The last-status map once all of `rows` have been seen, in order. */
  function StatusAfter(monitored: seq<string>, last: map<string, string>, rows: seq<VpsDc>): map<string, string>
    decreases |rows|
  {
    if rows == [] then last else StatusAfter(monitored, Seen(monitored, last, rows[0]), rows[1..])
  }

  /** After a run of rows the last-status map changes exactly at the
      watched codes, each taking its last watched row's status. */
  lemma {:induction false} StatusAfterFacts(monitored: seq<string>, last: map<string, string>, rows: seq<VpsDc>)
    ensures var r := StatusAfter(monitored, last, rows);
      && (forall k :: k in r <==> k in last || WatchedCode(monitored, rows, k))
      && (forall k :: k in last && !WatchedCode(monitored, rows, k) ==> r[k] == last[k])
      && (forall i :: 0 <= i < |rows| && Watched(monitored, rows[i].code) ==> rows[i].code in r)
      && (forall i :: 0 <= i < |rows| && Watched(monitored, rows[i].code) && LastWithCode(rows, i) ==>
            r[rows[i].code] == rows[i].status)
    decreases |rows|
  {
    if rows != [] {
      var mid := Seen(monitored, last, rows[0]);
      StatusAfterFacts(monitored, mid, rows[1..]);
      ScanAllKeys(monitored, last, mid, StatusAfter(monitored, mid, rows[1..]), rows);
      ScanAllRows(monitored, mid, StatusAfter(monitored, mid, rows[1..]), rows);
    }
  }

  /** The previous status row `i` of a pass sees: the one left by the rows
      before it, starting from `last0`. */
  function PrevAt(monitored: seq<string>, last0: map<string, string>, cur: seq<VpsDc>, i: nat): Option<string>
    requires i < |cur|
  {
    PrevStatus(StatusAfter(monitored, last0, cur[..i]), cur[i].code)
  }

  /** Row `i` of a pass is watched and classified into list `b`. */
  predicate LandsAt(monitored: seq<string>, last0: map<string, string>, cur: seq<VpsDc>, i: nat, b: Bucket)
    requires i < |cur|
  {
    Watched(monitored, cur[i].code) && ClassifyVps(PrevAt(monitored, last0, cur, i), cur[i].status) == Some(b)
  }

  /** Row by row, what a pass adds to list `b`: the row itself when it
      lands there. */
  function RowPicks(monitored: seq<string>, last0: map<string, string>, cur: seq<VpsDc>, b: Bucket)
    : (r: seq<seq<VpsDc>>)
    ensures |r| == |cur|
    ensures forall i :: 0 <= i < |cur| ==> r[i] == if LandsAt(monitored, last0, cur, i, b) then [cur[i]] else []
  {
    seq(|cur|, i requires 0 <= i < |cur| => if LandsAt(monitored, last0, cur, i, b) then [cur[i]] else [])
  }

  /** Row by row, the history entries a pass adds. */
  function RowEntries(monitored: seq<string>, last0: map<string, string>, cur: seq<VpsDc>, now: string)
    : (r: seq<seq<VpsEntry>>)
    ensures |r| == |cur|
    ensures forall i :: 0 <= i < |cur| ==>
      r[i] == if Watched(monitored, cur[i].code) then RowEntry(PrevAt(monitored, last0, cur, i), cur[i], now) else []
  {
    seq(|cur|, i requires 0 <= i < |cur| =>
      if Watched(monitored, cur[i].code) then RowEntry(PrevAt(monitored, last0, cur, i), cur[i], now) else [])
  }

  /** The rows after the first see what the first row left behind. */
  lemma PrevAtShift(monitored: seq<string>, last0: map<string, string>, cur: seq<VpsDc>, i: nat)
    requires 0 < i < |cur|
    ensures PrevAt(monitored, last0, cur, i) == PrevAt(monitored, Seen(monitored, last0, cur[0]), cur[1..], i - 1)
  {
    assert cur[..i][1..] == cur[1..][..i - 1];
    assert cur[1..][i - 1] == cur[i];
  }

  /** A pass's row contributions: the first row's, then those of the rest
      of the pass from the status the first row left. */
  lemma RowsShift(monitored: seq<string>, last0: map<string, string>, cur: seq<VpsDc>, now: string, b: Bucket)
    requires cur != []
    ensures RowPicks(monitored, last0, cur, b)[1..] == RowPicks(monitored, Seen(monitored, last0, cur[0]), cur[1..], b)
    ensures RowEntries(monitored, last0, cur, now)[1..] == RowEntries(monitored, Seen(monitored, last0, cur[0]), cur[1..], now)
    ensures PrevAt(monitored, last0, cur, 0) == PrevStatus(last0, cur[0].code)
  {
    assert cur[..0] == [];
    var last1 := Seen(monitored, last0, cur[0]);
    forall j | 0 <= j < |cur| - 1
      ensures PrevAt(monitored, last0, cur, j + 1) == PrevAt(monitored, last1, cur[1..], j)
      ensures cur[1..][j] == cur[j + 1]
    {
      PrevAtShift(monitored, last0, cur, j + 1);
    }
  }

  /** Appending the first row's contribution, then the rest's. */
  lemma ConcatFirst<T>(a: seq<T>, ss: seq<seq<T>>, rest: seq<T>)
    requires ss != [] && rest == Concat(ss[1..])
    ensures a + ss[0] + rest == a + Concat(ss)
  {
  }

  /** Some watched row of `cur` has datacenter code `k`. */
  predicate WatchedCode(monitored: seq<string>, cur: seq<VpsDc>, k: string)
  {
    exists i :: 0 <= i < |cur| && cur[i].code == k && Watched(monitored, k)
  }

  /** Row `i` is the last row with its datacenter code. */
  predicate LastWithCode(cur: seq<VpsDc>, i: nat)
    requires i < |cur|
  {
    forall j :: i < j < |cur| ==> cur[j].code != cur[i].code
  }

  /** The loop over the datacenter rows.  Each list grows by the rows that
      land in it, in row order, and the history by the entries of those
      rows; every row is classified against the status left by the rows
      before it.  The last status changes exactly at the watched codes,
      each taking its last watched row's status. */
  function ScanAll(monitored: seq<string>, acc: Scan, cur: seq<VpsDc>, now: string): (r: Scan)
    ensures Gathered(monitored, acc, cur, now, r)
    ensures Listed(r) <= Listed(acc) + |cur|
    ensures |acc.history| <= |r.history| <= |acc.history| + |cur|
    ensures r.history[..|acc.history|] == acc.history
    ensures r.lastStatus == StatusAfter(monitored, acc.lastStatus, cur)
    decreases |cur|
  {
    if cur == [] then acc
    else
      var acc1 := ScanStep(monitored, acc, cur[0], now);
      var r := ScanAll(monitored, acc1, cur[1..], now);
      ScanAllBounds(acc, acc1, r, |cur|);
      ScanAllGathered(monitored, acc, acc1, r, cur, now);
      r
  }

  /** The size bounds of a pass, from those of its tail and its first row. */
  lemma ScanAllBounds(acc: Scan, acc1: Scan, r: Scan, n: nat)
    requires n > 0
    requires Listed(acc1) <= Listed(acc) + 1
    requires |acc.history| <= |acc1.history| <= |acc.history| + 1 && acc1.history[..|acc.history|] == acc.history
    requires Listed(r) <= Listed(acc1) + (n - 1)
    requires |acc1.history| <= |r.history| <= |acc1.history| + (n - 1)
    requires r.history[..|acc1.history|] == acc1.history
    ensures Listed(r) <= Listed(acc) + n
    ensures |acc.history| <= |r.history| <= |acc.history| + n
    ensures r.history[..|acc.history|] == acc.history
  {
    assert r.history[..|acc.history|] == r.history[..|acc1.history|][..|acc.history|];
  }

  /** `r` is `acc` after the rows `cur`: each list grown by the rows that
      land in it, in row order, and the history by those rows' entries. */
  predicate Gathered(monitored: seq<string>, acc: Scan, cur: seq<VpsDc>, now: string, r: Scan)
  {
    && r.initial == acc.initial + Concat(RowPicks(monitored, acc.lastStatus, cur, Initial))
    && r.newAvailable == acc.newAvailable + Concat(RowPicks(monitored, acc.lastStatus, cur, NewAvailable))
    && r.newUnavailable == acc.newUnavailable + Concat(RowPicks(monitored, acc.lastStatus, cur, NewUnavailable))
    && r.history == acc.history + Concat(RowEntries(monitored, acc.lastStatus, cur, now))
  }

  /** What a pass gathers, from what its tail gathers after the first row. */
  lemma ScanAllGathered(monitored: seq<string>, acc: Scan, acc1: Scan, r: Scan, cur: seq<VpsDc>, now: string)
    requires cur != [] && acc1 == ScanStep(monitored, acc, cur[0], now)
    requires Gathered(monitored, acc1, cur[1..], now, r)
    ensures Gathered(monitored, acc, cur, now, r)
  {
    ScanAllList(monitored, acc, acc1, r, cur, now, Initial);
    ScanAllList(monitored, acc, acc1, r, cur, now, NewAvailable);
    ScanAllList(monitored, acc, acc1, r, cur, now, NewUnavailable);
    ScanAllHistory(monitored, acc, acc1, r, cur, now);
  }

  /** The list of a scan for bucket `b`. */
  function ListOf(s: Scan, b: Bucket): seq<VpsDc>
  {
    match b
    case Initial => s.initial
    case NewAvailable => s.newAvailable
    case NewUnavailable => s.newUnavailable
  }

  /** The list facts of a pass for one bucket, from those of its tail and
      its first row. */
  lemma ScanAllList(monitored: seq<string>, acc: Scan, acc1: Scan, r: Scan, cur: seq<VpsDc>, now: string, b: Bucket)
    requires cur != [] && acc1 == ScanStep(monitored, acc, cur[0], now)
    requires ListOf(r, b) == ListOf(acc1, b) + Concat(RowPicks(monitored, acc1.lastStatus, cur[1..], b))
    ensures ListOf(r, b) == ListOf(acc, b) + Concat(RowPicks(monitored, acc.lastStatus, cur, b))
  {
    assert acc1.lastStatus == Seen(monitored, acc.lastStatus, cur[0]);
    RowsShift(monitored, acc.lastStatus, cur, now, b);
    assert ListOf(acc1, b) == ListOf(acc, b) + RowPicks(monitored, acc.lastStatus, cur, b)[0];
    ConcatFirst(ListOf(acc, b), RowPicks(monitored, acc.lastStatus, cur, b),
                Concat(RowPicks(monitored, acc1.lastStatus, cur[1..], b)));
  }

  /** The history facts of a pass, from those of its tail and its first row. */
  lemma ScanAllHistory(monitored: seq<string>, acc: Scan, acc1: Scan, r: Scan, cur: seq<VpsDc>, now: string)
    requires cur != [] && acc1 == ScanStep(monitored, acc, cur[0], now)
    requires r.history == acc1.history + Concat(RowEntries(monitored, acc1.lastStatus, cur[1..], now))
    ensures r.history == acc.history + Concat(RowEntries(monitored, acc.lastStatus, cur, now))
  {
    assert acc1.lastStatus == Seen(monitored, acc.lastStatus, cur[0]);
    RowsShift(monitored, acc.lastStatus, cur, now, Initial);
    assert acc1.history == acc.history + RowEntries(monitored, acc.lastStatus, cur, now)[0];
    ConcatFirst(acc.history, RowEntries(monitored, acc.lastStatus, cur, now),
                Concat(RowEntries(monitored, acc1.lastStatus, cur[1..], now)));
  }

  /** A row is among a pass's additions to list `b` exactly when some row
      equal to it lands there. */
  lemma InPicks(monitored: seq<string>, last0: map<string, string>, cur: seq<VpsDc>, b: Bucket, x: VpsDc)
    ensures x in Concat(RowPicks(monitored, last0, cur, b)) <==>
      exists i :: 0 <= i < |cur| && cur[i] == x && LandsAt(monitored, last0, cur, i, b)
  {
    var picks := RowPicks(monitored, last0, cur, b);
    if x in Concat(picks) {
      var k :| 0 <= k < |picks| && x in picks[k];
      assert cur[k] == x && LandsAt(monitored, last0, cur, k, b);
    }
    if i :| 0 <= i < |cur| && cur[i] == x && LandsAt(monitored, last0, cur, i, b) {
      ConcatAt(picks, i);
    }
  }

  /** A row is in a list after a pass exactly when it was already there or
      some row equal to it lands there. */
  lemma ListedIffLands(monitored: seq<string>, acc: Scan, cur: seq<VpsDc>, now: string, b: Bucket, x: VpsDc)
    ensures x in ListOf(ScanAll(monitored, acc, cur, now), b) <==>
      x in ListOf(acc, b) || exists i :: 0 <= i < |cur| && cur[i] == x && LandsAt(monitored, acc.lastStatus, cur, i, b)
  {
    var r := ScanAll(monitored, acc, cur, now);
    assert ListOf(r, b) == ListOf(acc, b) + Concat(RowPicks(monitored, acc.lastStatus, cur, b));
    InPicks(monitored, acc.lastStatus, cur, b, x);
  }

  /** Rows with other codes leave a code's status alone. */
  lemma {:induction false} StatusAfterOther(monitored: seq<string>, last: map<string, string>, rows: seq<VpsDc>, k: string)
    requires forall j :: 0 <= j < |rows| ==> rows[j].code != k
    ensures PrevStatus(StatusAfter(monitored, last, rows), k) == PrevStatus(last, k)
    decreases |rows|
  {
    if rows != [] {
      StatusAfterOther(monitored, Seen(monitored, last, rows[0]), rows[1..], k);
    }
  }

  /** The first row with its code sees the status the subscription held
      before the pass. */
  lemma FirstRowPrev(monitored: seq<string>, last0: map<string, string>, cur: seq<VpsDc>, i: nat)
    requires i < |cur|
    requires forall j :: 0 <= j < i ==> cur[j].code != cur[i].code
    ensures PrevAt(monitored, last0, cur, i) == PrevStatus(last0, cur[i].code)
  {
    StatusAfterOther(monitored, last0, cur[..i], cur[i].code);
  }

  /** The first row with its code is classified against the status the
      subscription held before the pass: a datacenter that was out of stock
      and is back is listed as newly available, one seen for the first time
      as initial. */
  lemma FirstRowOfCode(monitored: seq<string>, acc: Scan, cur: seq<VpsDc>, now: string, i: nat)
    requires i < |cur| && Watched(monitored, cur[i].code)
    requires forall j :: 0 <= j < i ==> cur[j].code != cur[i].code
    ensures cur[i].code in acc.lastStatus && IsOutOfStock(acc.lastStatus[cur[i].code]) && !IsOutOfStock(cur[i].status)
      ==> cur[i] in ScanAll(monitored, acc, cur, now).newAvailable
    ensures cur[i].code !in acc.lastStatus ==> cur[i] in ScanAll(monitored, acc, cur, now).initial
  {
    FirstRowPrev(monitored, acc.lastStatus, cur, i);
    if cur[i].code in acc.lastStatus && IsOutOfStock(acc.lastStatus[cur[i].code]) && !IsOutOfStock(cur[i].status) {
      assert LandsAt(monitored, acc.lastStatus, cur, i, NewAvailable);
      ListedIffLands(monitored, acc, cur, now, NewAvailable, cur[i]);
    }
    if cur[i].code !in acc.lastStatus {
      assert LandsAt(monitored, acc.lastStatus, cur, i, Initial);
      ListedIffLands(monitored, acc, cur, now, Initial, cur[i]);
    }
  }

  /** The key facts of a pass, from those of its tail and its first row. */
  lemma ScanAllKeys(monitored: seq<string>, before: map<string, string>, mid: map<string, string>,
                    after: map<string, string>, cur: seq<VpsDc>)
    requires cur != []
    requires Watched(monitored, cur[0].code) ==> mid == before[cur[0].code := cur[0].status]
    requires !Watched(monitored, cur[0].code) ==> mid == before
    requires forall k :: k in after <==> k in mid || WatchedCode(monitored, cur[1..], k)
    requires forall k :: k in mid && !WatchedCode(monitored, cur[1..], k) ==> after[k] == mid[k]
    ensures forall k :: k in after <==> k in before || WatchedCode(monitored, cur, k)
    ensures forall k :: k in before && !WatchedCode(monitored, cur, k) ==> after[k] == before[k]
  {
    forall k | WatchedCode(monitored, cur[1..], k) ensures WatchedCode(monitored, cur, k) {
      var i :| 0 <= i < |cur[1..]| && cur[1..][i].code == k && Watched(monitored, k);
      assert cur[i + 1] == cur[1..][i];
    }
    forall k | WatchedCode(monitored, cur, k) && cur[0].code != k ensures WatchedCode(monitored, cur[1..], k) {
      var i :| 0 <= i < |cur| && cur[i].code == k && Watched(monitored, k);
      assert i > 0 && cur[1..][i - 1] == cur[i];
    }
    assert Watched(monitored, cur[0].code) ==> WatchedCode(monitored, cur, cur[0].code);
  }

  /** The per-row facts of a pass, from those of its tail and its first row. */
  lemma ScanAllRows(monitored: seq<string>, mid: map<string, string>, after: map<string, string>, cur: seq<VpsDc>)
    requires cur != []
    requires Watched(monitored, cur[0].code) ==> cur[0].code in mid && mid[cur[0].code] == cur[0].status
    requires forall k :: k in after <==> k in mid || WatchedCode(monitored, cur[1..], k)
    requires forall k :: k in mid && !WatchedCode(monitored, cur[1..], k) ==> after[k] == mid[k]
    requires forall i :: 0 <= i < |cur[1..]| && Watched(monitored, cur[1..][i].code) ==> cur[1..][i].code in after
    requires forall i :: 0 <= i < |cur[1..]| && Watched(monitored, cur[1..][i].code) && LastWithCode(cur[1..], i) ==>
      after[cur[1..][i].code] == cur[1..][i].status
    ensures forall i :: 0 <= i < |cur| && Watched(monitored, cur[i].code) ==> cur[i].code in after
    ensures forall i :: 0 <= i < |cur| && Watched(monitored, cur[i].code) && LastWithCode(cur, i) ==>
      after[cur[i].code] == cur[i].status
  {
    forall i | 0 <= i < |cur| && Watched(monitored, cur[i].code) ensures cur[i].code in after {
      if i > 0 {
        assert cur[1..][i - 1] == cur[i];
      }
    }
    forall i | 0 <= i < |cur| && Watched(monitored, cur[i].code) && LastWithCode(cur, i)
      ensures after[cur[i].code] == cur[i].status
    {
      if i > 0 {
        assert cur[1..][i - 1] == cur[i];
        assert LastWithCode(cur[1..], i - 1);
      } else {
        forall j | 0 <= j < |cur[1..]| ensures cur[1..][j].code != cur[0].code {
          assert cur[1..][j] == cur[j + 1];
        }
        assert !WatchedCode(monitored, cur[1..], cur[0].code);
      }
    }
  }

  /** The summary notifications of one pass, in sending order. */
  function Notices(first: bool, s: Scan, notifyAvailable: bool, notifyUnavailable: bool)
    : (r: seq<(Bucket, seq<VpsDc>)>)
    ensures (exists n :: n in r && n.0 == Initial) <==> first && s.initial != [] && notifyAvailable
    ensures (exists n :: n in r && n.0 == NewAvailable) <==>
      !(first && s.initial != []) && s.newAvailable != [] && notifyAvailable
    ensures (exists n :: n in r && n.0 == NewUnavailable) <==>
      !(first && s.initial != []) && s.newUnavailable != [] && notifyUnavailable
    ensures forall n :: n in r ==> n.1 != []
  {
    if first && s.initial != [] then
      if notifyAvailable then [(Initial, s.initial)] else []
    else
      (if s.newAvailable != [] && notifyAvailable then [(NewAvailable, s.newAvailable)] else [])
      + (if s.newUnavailable != [] && notifyUnavailable then [(NewUnavailable, s.newUnavailable)] else [])
  }

  /** One pass over a subscription.  `current` is the lookup's datacenter
      list, None when the lookup failed or had no datacenters.  Returns the
      updated subscription and the summary notifications sent. */
  function CheckVps(sub: VpsSubscription, current: Option<seq<VpsDc>>, now: string)
    : (r: (VpsSubscription, seq<(Bucket, seq<VpsDc>)>))
    ensures current.None? ==> r == (sub, [])
    ensures |sub.history| <= HistoryCap ==> |r.0.history| <= HistoryCap
    ensures |r.0.history| <= HistoryCap || r.0.history == sub.history
    ensures current.Some? ==> |r.0.history| <= HistoryCap
    ensures r.0 == sub.(lastStatus := r.0.lastStatus, history := r.0.history)
    ensures current.Some? ==> forall k :: k in r.0.lastStatus <==>
      k in sub.lastStatus || WatchedCode(sub.datacenters, current.value, k)
    ensures current.Some? ==> forall k :: k in sub.lastStatus && !WatchedCode(sub.datacenters, current.value, k) ==>
      r.0.lastStatus[k] == sub.lastStatus[k]
    ensures current.Some? ==> r.0.lastStatus == StatusAfter(sub.datacenters, sub.lastStatus, current.value)
    ensures current.Some? ==> forall i :: 0 <= i < |current.value| && Watched(sub.datacenters, current.value[i].code) ==>
      current.value[i].code in r.0.lastStatus
    ensures current.Some? ==> forall i :: 0 <= i < |current.value| && Watched(sub.datacenters, current.value[i].code) ==>
      LastWithCode(current.value, i) ==> r.0.lastStatus[current.value[i].code] == current.value[i].status
    ensures current.Some? ==>
      r.0.history == Last(HistoryCap, sub.history + Concat(RowEntries(sub.datacenters, sub.lastStatus, current.value, now)))
    ensures current.Some? ==>
      r.1 == Notices(|sub.lastStatus| == 0, ScanAll(sub.datacenters, Scan([], [], [], sub.lastStatus, sub.history), current.value, now),
                     sub.notifyAvailable, sub.notifyUnavailable)
  {
    match current
    case None => (sub, [])
    case Some(cur) =>
      var s := ScanAll(sub.datacenters, Scan([], [], [], sub.lastStatus, sub.history), cur, now);
      var notes := Notices(|sub.lastStatus| == 0, s, sub.notifyAvailable, sub.notifyUnavailable);
      StatusAfterFacts(sub.datacenters, sub.lastStatus, cur);
      (sub.(lastStatus := s.lastStatus, history := Last(HistoryCap, s.history)), notes)
  }

  /** Every history entry a pass keeps is either an old one or a new one
      for a watched datacenter, newest last. */
  lemma CheckVpsKeepsNewest(sub: VpsSubscription, cur: seq<VpsDc>, now: string)
    ensures var s := ScanAll(sub.datacenters, Scan([], [], [], sub.lastStatus, sub.history), cur, now);
      CheckVps(sub, Some(cur), now).0.history == Last(HistoryCap, s.history)
      && s.history[..|sub.history|] == sub.history
      && Listed(s) <= |cur|
  {
  }

  // ---------------------------------------------------------------------
  // Subscription handlers
  // ---------------------------------------------------------------------

  datatype VpsRegistry = VpsRegistry(subs: seq<VpsSubscription>, running: bool, checkInterval: int)

  /** The registry holds one subscription per (plan code, subsidiary). */
  predicate KeysUnique(subs: seq<VpsSubscription>)
  {
    forall i, j :: 0 <= i < j < |subs| ==>
      (subs[i].planCode, subs[i].ovhSubsidiary) != (subs[j].planCode, subs[j].ovhSubsidiary)
  }

  predicate Subscribed(subs: seq<VpsSubscription>, planCode: string, subsidiary: string)
  {
    exists i :: 0 <= i < |subs| && subs[i].planCode == planCode && subs[i].ovhSubsidiary == subsidiary
  }

  datatype AddResult = Added(reg: VpsRegistry, sub: VpsSubscription) | MissingPlanCode | AlreadySubscribed

  /** The add request; absent optional fields already carry their defaults
      (subsidiary "IE", no datacenters, Linux on, Windows off, notify on
      available only). */
  datatype AddVpsRequest = AddVpsRequest(
    planCode: Option<string>,
    ovhSubsidiary: string,
    datacenters: seq<string>,
    monitorLinux: bool,
    monitorWindows: bool,
    notifyAvailable: bool,
    notifyUnavailable: bool)

  /** `add_vps_subscription`: refuses a missing or empty plan code and a
      (plan code, subsidiary) pair already subscribed; otherwise appends a
      subscription with empty state and starts the monitor. */
  function AddVps(reg: VpsRegistry, req: AddVpsRequest, id: string, now: string): (r: AddResult)
    ensures req.planCode.None? || req.planCode == Some("") <==> r.MissingPlanCode?
    ensures r.AlreadySubscribed? <==>
      req.planCode.Some? && req.planCode.value != "" && Subscribed(reg.subs, req.planCode.value, req.ovhSubsidiary)
    ensures r.Added? ==> r.reg.subs == reg.subs + [r.sub] && r.reg.running && r.reg.checkInterval == reg.checkInterval
    ensures r.Added? ==> r.sub.id == id && Some(r.sub.planCode) == req.planCode
    ensures r.Added? ==> r.sub.ovhSubsidiary == req.ovhSubsidiary && r.sub.datacenters == req.datacenters
    ensures r.Added? ==> r.sub.lastStatus == map[] && r.sub.history == []
  {
    if req.planCode.None? || req.planCode.value == "" then MissingPlanCode
    else if Subscribed(reg.subs, req.planCode.value, req.ovhSubsidiary) then AlreadySubscribed
    else
      var sub := VpsSubscription(id, req.planCode.value, req.ovhSubsidiary, req.datacenters,
                                 req.monitorLinux, req.monitorWindows, req.notifyAvailable,
                                 req.notifyUnavailable, map[], [], now);
      Added(reg.(subs := reg.subs + [sub], running := true), sub)
  }

  /** Adding keeps one subscription per (plan code, subsidiary). */
  lemma AddVpsKeepsKeysUnique(reg: VpsRegistry, req: AddVpsRequest, id: string, now: string)
    requires KeysUnique(reg.subs)
    ensures AddVps(reg, req, id, now).Added? ==> KeysUnique(AddVps(reg, req, id, now).reg.subs)
  {
    var r := AddVps(reg, req, id, now);
    if r.Added? {
      var subs := r.reg.subs;
      forall i, j | 0 <= i < j < |subs|
        ensures (subs[i].planCode, subs[i].ovhSubsidiary) != (subs[j].planCode, subs[j].ovhSubsidiary)
      {
        if j == |reg.subs| {
          assert subs[i] == reg.subs[i];
          assert !(reg.subs[i].planCode == subs[j].planCode && reg.subs[i].ovhSubsidiary == subs[j].ovhSubsidiary);
        }
      }
    }
  }

  predicate HasId(subs: seq<VpsSubscription>, id: string)
  {
    exists i :: 0 <= i < |subs| && subs[i].id == id
  }

  /** `remove_vps_subscription`: drops the subscriptions with the id; the
      monitor stops once the registry is empty.  The flag is false (404)
      and nothing changes when no subscription has the id. */
  function RemoveVps(reg: VpsRegistry, id: string): (r: (VpsRegistry, bool))
    ensures r.1 <==> HasId(reg.subs, id)
    ensures !r.1 ==> r.0 == reg
    ensures r.1 ==> r.0.running == (reg.running && r.0.subs != [])
    ensures forall i :: 0 <= i < |r.0.subs| ==> r.0.subs[i].id != id
    ensures Subseq(r.0.subs, reg.subs)
    ensures forall i :: 0 <= i < |reg.subs| && reg.subs[i].id != id ==> reg.subs[i] in r.0.subs
    ensures r.0.checkInterval == reg.checkInterval
  {
    var kept := Filter(reg.subs, (s: VpsSubscription) => s.id != id);
    FilterSubseq(reg.subs, (s: VpsSubscription) => s.id != id);
    RemoveShrinksIffPresent(reg.subs, id);
    SubseqRefl(reg.subs);
    if |kept| < |reg.subs| then
      (reg.(subs := kept, running := reg.running && kept != []), true)
    else (reg, false)
  }

  lemma {:induction false} RemoveShrinksIffPresent(subs: seq<VpsSubscription>, id: string)
    ensures |Filter(subs, (s: VpsSubscription) => s.id != id)| < |subs| <==> HasId(subs, id)
    decreases |subs|
  {
    if subs != [] {
      RemoveShrinksIffPresent(subs[1..], id);
      assert HasId(subs, id) <==> subs[0].id == id || HasId(subs[1..], id) by {
        assert forall i :: 1 <= i < |subs| ==> subs[i] == subs[1..][i - 1];
        if HasId(subs[1..], id) {
          var i :| 0 <= i < |subs[1..]| && subs[1..][i].id == id;
          assert subs[i + 1].id == id;
        }
      }
    }
  }

  /** `clear_vps_subscriptions`: empties the registry, stops the monitor and
      returns the previous size. */
  function ClearVps(reg: VpsRegistry): (r: (VpsRegistry, nat))
    ensures r.0.subs == [] && !r.0.running && r.0.checkInterval == reg.checkInterval
    ensures r.1 == |reg.subs|
  {
    (reg.(subs := [], running := false), |reg.subs|)
  }

  /** `set_vps_monitor_interval`: a missing, zero or sub-minute interval is
      refused. */
  function SetVpsInterval(reg: VpsRegistry, interval: Option<int>): (r: (VpsRegistry, bool))
    ensures r.1 <==> interval.Some? && interval.value >= MinCheckInterval
    ensures !r.1 ==> r.0 == reg
    ensures r.1 ==> r.0 == reg.(checkInterval := interval.value)
  {
    if interval.None? || interval.value == 0 || interval.value < MinCheckInterval then (reg, false)
    else (reg.(checkInterval := interval.value), true)
  }
}
